=== FILE: README.md ===
# School platform core — a Dafny model

This project models the decision-making core of a Flask school platform. Teachers publish
lessons and quizzes to sections. Students take the quizzes on the web or from a mobile
app. An analytics module turns their activity into scores, trends and recommendations.
The model covers these parts:

- **Access** — the mobile API's bearer-token check, its role check and its per-role
  visibility of lessons and quizzes (`api_mobile.py`).
- **Accounts** — the admin's create-user and edit-user form validation (`app.py`).
- **Grading** — the web and mobile quiz submission, answer comparison, scoring and the
  stored answers. It also covers the per-quiz results page and the mobile average
  percentage (`app.py`, `api_mobile.py`).
- **Activities** — the "recent activities" feed on the web and mobile admin dashboards, together with its
  percentage computation (`app.py`, `api_mobile.py`).
- **Uploads** — the file-extension checks and the stored file type of a lesson upload
  (`app.py`).
- **Records, Patterns, Performance, Trend, Recommend, StudentAnalysis, Cohort** — the
  analytics engine (`ai_analytics.py`). It covers:
  - the interaction and attempt tables;
  - learning patterns and the engagement score;
  - performance metrics and difficulty areas;
  - the progress trend and prediction;
  - recommendations;
  - per-student analysis and the class-level clustering outputs.
- **PdfImport, ExcelImport** — extraction of user records from the form fields of an uploaded PDF
  and from the rows of an uploaded spreadsheet (`pdf_user_processor.py`,
  `excel_user_processor.py`).
- **QuizTimer** — the countdown of the web quiz page (`static/js/main.js`).
- **LessonsScreen** — the search filter and the file-type icon and colour of the mobile
  lessons list (`mobile_app/src/screens/LessonsScreen.js`).

Several modules are shared helpers:

- `Wrappers` holds `Option` and `Result`.
- `Text` models Python's `strip`, `lower`, `split` and `int`, and JavaScript's `trim`.
- `Seqs` holds filtering, counting and sorting.
- `Stats` holds mean, max, min and clamp.

Database queries appear as sequences of records in table order. A `datetime` is a day
number, a second of the day and a microsecond of the second, so it orders and subtracts
as Python's does. Clocks, the JWT library,
PDF and Excel readers, k-means and floating-point fits appear as parameters.

## Model

| member | source | states |
|---|---|---|
| Access.ExtractToken | api_mobile.py:52-59 | A missing or empty `Authorization` header is refused with 401 "Token is missing". A `Bearer ` prefix is removed once. Any other value is used as the token unchanged. |
| Access.BearerRoundTrip | api_mobile.py:58-59 | The header `"Bearer " + t` yields exactly the token `t`. |
| Access.RawTokenUnchanged | api_mobile.py:58-59 | A header without the `Bearer ` prefix is passed through as the token unchanged. |
| Access.Authenticate | api_mobile.py:49-69 | The request is admitted iff a token is present, it decodes to a user id, and that id belongs to an existing user. The admitted user is that user. Every refusal is a 401. |
| Access.RoleRequired | api_mobile.py:71-81 | Admits exactly the users whose role is in the allowed list. Everyone else gets 403 "Insufficient permissions". |
| Access.MoreRolesAdmitMore | api_mobile.py:76-77 | Allowing more roles never refuses a user who was admitted before. |
| Access.ListItems | api_mobile.py:332-341 | A student with a section sees exactly that section's published items. A student without a section sees every published item. A teacher sees exactly their own items. Any other role (an admin) sees all items. Every list keeps table order. |
| Access.DetailAccess | api_mobile.py:364-373 | A student is refused an unpublished item, with the kind's "not available" message, and an item of another section. A teacher is refused another teacher's item. Any other role is never refused. A refusal is always a 403, and an admitted request returns the item itself. |
| Access.ListedIffAccessible | api_mobile.py:332-373 | An item appears in a user's list iff that user may open its detail page. |
| Access.AdminUnrestricted | api_mobile.py:340-341 | An admin lists every item and may open every item. |
| Access.CountAttempted | api_mobile.py:170-174 | Never more than the listed quizzes. All of them iff every listed quiz has an attempt by the student, and 0 iff none has. |
| Access.StudentDashboard | api_mobile.py:150-213 | The totals are the numbers of lessons and quizzes the student can see. Completed quizzes never exceed the total quizzes, and equal it iff every visible quiz has been attempted. Completed is the number of visible quizzes the student has attempted. With no attempts, completed is 0. |
| Access.DashboardMatchesLists | api_mobile.py:153-159 | The dashboard totals equal the lengths of the student's lesson and quiz lists. |
| Accounts.NextId | app.py:359-366 | The new user's id is larger than every existing id. |
| Accounts.CreateUser | app.py:331-369 | A non-admin gets "Access denied". A missing password gets 400. A student without a section is rejected. A username or email that is already taken is rejected. A section that is not an integer fails as `int()` does. Otherwise exactly one user is appended with the form's fields, and the section is stored only for a student. Unique usernames and emails, and section consistency, are preserved. |
| Accounts.EditUser | app.py:592-633 | The same checks, with the edited user excluded from the duplicate test. An unknown id gives 404. Only the target user changes, taking the form's fields; a student's section is the parsed section id and anyone else's is cleared. The stored password is unchanged iff the submitted one is blank, missing or the same. Unique names and emails, and section consistency, are preserved. |
| Accounts.ResubmitAccepted | app.py:612-627 | Submitting a user's own data back unchanged succeeds and leaves the table as it was. |
| Activities.TruncDiv | app.py:237 | Python's `int()` of a quotient: the floor for a non-negative dividend, and rounding toward zero for a negative one. |
| Activities.QuizPercentAsWritten | app.py:237 | The unguarded percentage fails exactly when the quiz is worth zero points. Otherwise it is the truncated quotient of score times 100 over the total. |
| Activities.QuizPercent | app.py:237 | The guarded percentage is 0 for a quiz worth no points. It lies in 0..100 for a score within the total. It equals the unguarded result whenever the total is positive. |
| Activities.AttemptActivities | app.py:224-238 | Exactly the attempts whose student and quiz exist give entries, in their order, one each: the completion time, the student, "quiz completed", the quiz title and the guarded percentage. |
| Activities.AsWrittenFailsIffZero | app.py:228-238 | The unguarded loop fails iff some attempt with an existing student and quiz is out of zero points. Otherwise it gives one entry per such attempt. |
| Activities.AsWrittenAgreesUnlessZero | app.py:228-238 | For non-negative totals the unguarded loop fails iff some attempt with an existing student and quiz is out of zero points. Otherwise it gives the same entries as the guarded loop. |
| Activities.LessonActivities | app.py:240-250 | Exactly the lessons whose teacher exists give entries, in their order, one each: the creation time, the teacher, "lesson created" and the title. |
| Activities.ViewActivities | app.py:252-263 | Exactly the views whose student and lesson exist give entries, in their order, one each: the view time, the student, "lesson viewed" and the lesson title. |
| Activities.Newest | app.py:266-267 | Exactly min(10, number of candidates) entries, newest first, drawn from the candidates (a sub-multiset). |
| Activities.NewestIsNewest | app.py:266-267 | No activity that was dropped is newer than one that was kept. |
| Activities.WebCandidates | app.py:224-263 | Three queries of at most five rows give at most fifteen candidates. |
| Activities.WebRecentActivities | app.py:220-267 | Exactly min(10, number of web candidates) entries, newest first, drawn from the candidates, and no candidate left out is newer than one kept. |
| Activities.WebRecentActivitiesAsWritten | app.py:220-267 | The unguarded web feed fails iff one of the five newest attempts has an existing student and quiz and is out of zero points. Otherwise it has min(10, number of candidates) entries, newest first. |
| Activities.EmptyQuizBreaksWebDashboard | app.py:237 | One attempt on a quiz with no questions makes the unguarded web feed fail. |
| Activities.WebGuardAgrees | app.py:220-267 | Whenever the unguarded web feed succeeds, it equals the guarded feed. |
| Activities.MobileCandidates | api_mobile.py:286-310 | The quiz entries of the five newest attempts and the lesson-creation entries of the five newest lessons: at most ten candidates. |
| Activities.MobileRecentActivities | api_mobile.py:286-311 | A permutation of every candidate, sorted newest first; nothing is cut. |
| Activities.MobileRecentActivitiesAsWritten | api_mobile.py:286-311 | The unguarded mobile feed fails iff one of the five newest attempts has an existing student and quiz and is out of zero points. Otherwise it holds as many entries as there are candidates, newest first. |
| Activities.MobileGuardAgrees | api_mobile.py:286-311 | For non-negative totals, whenever the unguarded mobile feed succeeds, it equals the guarded feed. |
| Activities.EmptyQuizBreaksMobileDashboard | api_mobile.py:297 | One attempt on a quiz with no questions makes the unguarded mobile feed fail. |
| Cohort.Analyses | ai_analytics.py:71-72 | One per-student analysis for each student. |
| Cohort.FeatureRows | ai_analytics.py:74-83 | One row per student, carrying that student's id, quiz count and cluster label. |
| Cohort.ClassRowOfStudent | ai_analytics.py:74-83 | A student's class row repeats their own analysis: average score, engagement, trend slope and lesson views. |
| Cohort.ClusterColumn | ai_analytics.py:96-101 | One label per student, each below 3. With fewer than three students every label is 0. Otherwise the labels are the k-means labels given. |
| Cohort.ClassRows | ai_analytics.py:65-101 | One row per student, with its id, quiz count and a cluster label below 3. The label is 0 in a class of fewer than three students and the k-means label otherwise. |
| Cohort.SmallClassSingleGroup | ai_analytics.py:96-101 | A class of one or two students forms a single group 0 holding every student. |
| Cohort.AllInGroupZero | ai_analytics.py:100-101 | When every row is in cluster 0 there is exactly one group, 0, holding every row. |
| Cohort.ClassOverview | ai_analytics.py:390-398 | The student count is the number of rows. The average score and engagement are the column means and lie between each column's extremes. The attempt and view totals are the column sums. An empty table gives all zeros. |
| Cohort.OverviewTotalsAdd | ai_analytics.py:396-397 | The student, attempt and view totals of two joined tables are the sums of their separate totals. |
| Cohort.DistributionPartition | ai_analytics.py:400-411 | The four performance bands (90+, 80-90, 70-80, below 70) partition the rows, so their counts add up to the class size. |
| Cohort.PerformanceDistribution | ai_analytics.py:400-411 | Each of the four counts (excellent 90+, good 80-90, satisfactory 70-80, needs improvement below 70) is exactly the number of rows in its band, and they add up to the class size. |
| Cohort.EngagementPartition | ai_analytics.py:465-471 | The three engagement bands (70+, 40-70, below 40) partition the rows. |
| Cohort.ClassEngagement | ai_analytics.py:465-471 | Each of the three counts (highly 70+, moderately 40-70, low below 40) is exactly the number of rows in its band, and they add up to the class size. The average is the column mean. An empty table gives all zeros. |
| Cohort.DescribeCluster | ai_analytics.py:432-444 | The first matching rule decides. High performers iff score at least 80 and engagement at least 70. Good but disengaged iff not that, score at least 70 and engagement below 50. Needing support iff score below 60. Otherwise average. |
| Cohort.Members | ai_analytics.py:420-421 | Every member of a cluster is a row of the table carrying that label. |
| Cohort.MembersCount | ai_analytics.py:420-423 | A cluster has as many members as rows carrying its label. |
| Cohort.GroupOf | ai_analytics.py:420-428 | A group reports its label and its size, the positive number of rows carrying that label. Its mean score and mean engagement are those of exactly those rows, and its profile is the description of those two means. |
| Cohort.GroupSizes | ai_analytics.py:414-430 | The sizes of the groups of a list of labels add up to the number of rows carrying those labels. |
| Cohort.GroupsCover | ai_analytics.py:420 | When the labels listed are exactly those occurring, a label occurs in the table iff it has a group. |
| Cohort.StudentGroups | ai_analytics.py:414-430 | One group per distinct label, in order of first occurrence (as `unique()` gives them), each the group of its label with that label's row count, means and profile. A label occurs iff it has a group, and the sizes add up to the class size. |
| Cohort.GroupsWithinClusters | ai_analytics.py:414-430 | With labels below 3, every group has a label below 3 and a positive size. |
| Cohort.RowsWhere | ai_analytics.py:448-452 | Keeps exactly the rows satisfying the filter, in table order; their number is the filter's count. |
| Cohort.AtRiskStudents | ai_analytics.py:446-454 | Exactly the students with score below 60, engagement below 30 or trend slope below -2, each reported once per row, in table order. |
| Cohort.TopPerformerRows | ai_analytics.py:458-461 | min(5, number of candidates) rows, each with score at least 85 and engagement at least 70, sorted by score from the top and drawn from the candidates. |
| Cohort.TopPerformersMaximal | ai_analytics.py:458-461 | No candidate left out scores higher than one who was kept. |
| Cohort.TopPerformers | ai_analytics.py:456-463 | The summaries of exactly the rows `nlargest(5)` keeps among the candidates (Cohort.TopPerformerRows), one per kept row in that order: at most five, each with score at least 85 and engagement at least 70, sorted by score from the top. |
| Cohort.AtRiskAndTopCanOverlap | ai_analytics.py:446-463 | A student with score 90, engagement 80 and slope -3 is both at risk and a top performer. |
| Cohort.ClassRecommendations | ai_analytics.py:474-512 | Curriculum review iff the class average is below 70. More interactivity iff the mean engagement is below 50. Support iff more than 20% of the class is at risk; it comes last and names the at-risk count. At most three, and none for an empty class. |
| Cohort.AnalyzeRows | ai_analytics.py:103-113 | An empty table gives the empty analysis. Each part is the analysis of its own section (overview, distribution, groups, at-risk list, top performers, engagement, recommendations), so the overview, both distributions and the group sizes count every row, each group has a label below 3, at-risk is at most the class size, top performers at most five, and recommendations at most three. |
| Cohort.AnalyzeClass | ai_analytics.py:55-113 | No students gives the empty class analysis. Otherwise each part is the analysis of its section over the class table built from the students, and the same counts hold. |
| ExcelImport.RowUser | excel_user_processor.py:43-47 | A kept row's user has the stripped first, second and fifth cells as username, full name and secret code. |
| ExcelImport.KeptRows | excel_user_processor.py:34-37 | Keeps exactly the rows whose first, second and fifth cells are present, in sheet order. |
| ExcelImport.RowUsers | excel_user_processor.py:34-49 | One user per kept row, in sheet order. |
| ExcelImport.ExtractUsers | excel_user_processor.py:6-54 | An empty sheet is an error, and so is one with fewer than five columns. The result is a success iff some row is kept. It then holds exactly the kept rows' users, in order. |
| ExcelImport.FieldsAreStripped | excel_user_processor.py:44-46 | No extracted field begins or ends with whitespace. |
| ExcelImport.SkippedRowIgnored | excel_user_processor.py:36-37 | Inserting a row with a missing essential cell anywhere does not change the users. |
| ExcelImport.NoKeptRowIsAnError | excel_user_processor.py:51-52 | A sheet in which every row misses an essential cell gives the "no valid user data" error. |
| Grading.ShortAnswerIgnoresCase | app.py:850-852 | For a short-answer question, lower-casing the answer never changes whether it is correct. |
| Grading.ChoiceIsCaseSensitive | app.py:847-849 | For a choice question with answer "A", "A" is correct and "a" is not. |
| Grading.PaddingIgnored | app.py:847-852 | Whitespace added around an answer never changes whether it is correct, for any question type. |
| Grading.Earned | app.py:841-852 | With non-negative points the earned score lies between 0 and the total points. |
| Grading.Score | app.py:841-852 | With non-negative points the score lies between 0 and the total points. |
| Grading.EarnedExtremes | app.py:841-852 | All correct earns the total, and none correct earns 0. |
| Grading.EarnedBelowTotal | app.py:841-852 | When every question is worth points, one wrong answer leaves the score below the total. |
| Grading.ScoreExtremes | app.py:841-852 | All answers correct give the total and none correct give 0. When every question is worth points, the total is reached only if every answer is correct. |
| Grading.PerformanceScore | app.py:869 | The fraction of the total, or 0 for no points; within 0..1 for a score within the total. |
| Grading.Percentage | api_mobile.py:564 | The score over the total times 100, or 0 for no points; within 0..100 for a score within the total. |
| Grading.FormKeysDistinct | app.py:832 | Questions with different ids read different `question_<id>` fields. |
| Grading.FormAnswers | app.py:841-843 | Each question's answer is the value of its `question_<id>` field. |
| Grading.StoredAnswers | app.py:837-843 | The last question's id is stored with its answer. |
| Grading.StoredKeys | app.py:843 | The stored keys are exactly the ids of the quiz's questions. |
| Grading.StoredAnswerOf | app.py:843 | A question's stored answer is the one submitted for it, unless a later question has the same id. |
| Grading.GradeAttempt | app.py:855-870 | The attempt records the score, the total points, the stored answers and the fraction as performance score; with non-negative points the score is within the total. |
| Grading.WebSubmitQuiz | app.py:822-870 | A non-student gets "Access denied". A missing or blank answer rejects the whole submission. Otherwise exactly one graded attempt is produced from the form's answers. |
| Grading.BlankAnswerRejected | app.py:831-835 | A submission in which some answer is only whitespace is rejected. |
| Grading.FirstUnanswered | api_mobile.py:523-525 | Nothing iff every question has an answer. Otherwise the first question, in quiz order, without one. |
| Grading.JsonAnswers | api_mobile.py:531 | Each question's answer is its JSON entry, or empty when the entry is missing. |
| Grading.MobileSubmitQuiz | api_mobile.py:504-572 | A non-student gets 403. A student gets the quiz's 403 refusals. Success iff access is granted and every question has an answer. Otherwise 400 names the first unanswered question. On success the graded attempt stores the submitted answers dictionary whole, and the percentage is reported. |
| Grading.WebAndMobileAgree | api_mobile.py:530-540 | For the same answers, web and mobile grade the same answers and give the same score. |
| Grading.StoredWithinSubmitted | api_mobile.py:548 | Every answer the web path would store is one the mobile client submitted. |
| Grading.MobileAcceptsBlank | api_mobile.py:523-525 | The mobile API accepts a whitespace-only answer that the web form rejects. |
| Grading.QuestionView | api_mobile.py:472-491 | Students never see the correct answer; other roles see it. Options are given iff the question is multiple choice with options. Options that parse are the parsed list, and unreadable options become an empty list. Id, text, type and points are copied. |
| Grading.CountPassed | app.py:1074-1081 | Never more than the number of attempts. |
| Grading.QuizResults | app.py:1053-1084 | Only the owning teacher gets results; a non-teacher gets "Access denied". Passed plus failed is the number of attempts, passed counts the attempts at 50% or more, and the average is the mean percentage (0 with no attempts). |
| Grading.PassCountBounds | app.py:1075-1081 | All full marks pass every attempt, and attempts out of no points never pass. |
| Grading.SumsBounded | api_mobile.py:609-610 | With valid marks, the summed scores lie between 0 and the summed totals. |
| Grading.AveragePercentage | api_mobile.py:608-613 | The pooled score over the pooled total times 100, 0 with no attempts, and within 0..100 for valid marks. |
| Grading.PooledIsNotMeanOfPercentages | api_mobile.py:609-611 | Marks 1/1 and 0/3 give a pooled 25% where the mean of percentages is 50%. |
| LessonsScreen.Search | mobile_app/src/screens/LessonsScreen.js:57-68 | A query that trims to nothing shows every lesson. Any other query keeps exactly the lessons whose lower-cased title or teacher contains the lower-cased query, in order. |
| LessonsScreen.QueryNotTrimmed | mobile_app/src/screens/LessonsScreen.js:62-64 | The query itself is not trimmed: a leading space makes "Algebra" unfindable. |
| LessonsScreen.SearchIgnoresCase | mobile_app/src/screens/LessonsScreen.js:62-64 | Queries that differ only in case find the same lessons. |
| LessonsScreen.LongerQueryNarrows | mobile_app/src/screens/LessonsScreen.js:62-65 | Typing more characters only removes lessons from the list. |
| LessonsScreen.KindOf | mobile_app/src/screens/LessonsScreen.js:70-113 | A type falls in no known kind iff it is missing or its lower-case form is not among the recognised extensions. |
| LessonsScreen.IconByKind | mobile_app/src/screens/LessonsScreen.js:70-91 | The icon depends only on the kind, and the default icon is shown exactly for unknown or missing types. |
| LessonsScreen.ColorByKind | mobile_app/src/screens/LessonsScreen.js:93-113 | The colour depends only on the kind, and the default colour is shown exactly for unknown or missing types. |
| LessonsScreen.SameIconSameColor | mobile_app/src/screens/LessonsScreen.js:70-113 | Two types share an icon iff they share a kind, iff they share a colour. |
| LessonsScreen.TypeIgnoresCase | mobile_app/src/screens/LessonsScreen.js:70-113 | Spellings that differ only in case get the same icon and colour. |
| Patterns.ModalHour | ai_analytics.py:189-190 | The preferred hour occurs among the hours, at least as often as any hour, and strictly more often than every earlier hour. |
| Patterns.TimeBucket | ai_analytics.py:193-200 | Morning iff 6-12, afternoon iff 12-18, evening iff 18-22, night otherwise. |
| Patterns.ContentPreference | ai_analytics.py:206-207 | The preferred kind occurs among the kinds, at least as often as any other. |
| Patterns.LearningConsistency | ai_analytics.py:209-212 | 0 without interactions. Otherwise positive, and it is the number of distinct active dates as a percentage of the whole days spanned plus one, the span measured to the microsecond and rounded down. |
| Patterns.ConsistencyAtMostTwoHundred | ai_analytics.py:210-212 | The consistency never exceeds 200. |
| Patterns.ActiveDaysWithinSpan | ai_analytics.py:210-211 | The number of active days is at most the whole days spanned plus two. |
| Patterns.ConsistencyCanExceedHundred | ai_analytics.py:210-212 | Interactions at 23:00 and at 01:00 the next day give a consistency of 200, above 100. |
| Patterns.SpanRoundsDownBelowOneDay | ai_analytics.py:210-212 | Interactions half a second past midnight and at the next midnight span 0 whole days, so the two dates give 200. |
| Patterns.AnalyzeLearningPatterns | ai_analytics.py:178-219 | No interactions give no patterns. Otherwise the preferred time is the bucket of the modal hour, the content preference is the most frequent kind used, the session length is the mean duration, and the consistency is the active-day percentage. |
| Patterns.FrequencyPoints | ai_analytics.py:228 | Within 0..30, and 30 iff there are at least ten interactions. |
| Patterns.DurationPoints | ai_analytics.py:229 | At most 25, non-negative for a non-negative mean, and 25 iff the mean duration is at least 300 seconds. |
| Patterns.ConsistencyScore | ai_analytics.py:237-252 | Within 0..1. 0 without interactions, 1 with a single active day, and otherwise max(0, 1 - cv). |
| Patterns.VarietyScore | ai_analytics.py:254-262 | Within 0..1, and 1 iff at least three different interaction kinds occur. |
| Patterns.EngagementScore | ai_analytics.py:221-235 | 0 without interactions and at most 100. Non-negative for non-negative durations. Otherwise the sum of frequency, duration, consistency times 25 and variety times 20, capped at 100. |
| Patterns.FullEngagement | ai_analytics.py:227-235 | Ten or more interactions, a mean session of 300 seconds, a single active day and three kinds give exactly 100. |
| PdfImport.FieldValue | pdf_user_processor.py:37-47 | A field's `/V` value, or empty when it has none. |
| PdfImport.KeyOf | pdf_user_processor.py:51-57 | A field without a dot is in no group. A name whose part before the first dot reads as an integer is keyed by that integer. Any other dotted name is keyed by the whole name. |
| PdfImport.Groups | pdf_user_processor.py:59-62 | Each key once, exactly the keys that occur. |
| PdfImport.GroupSize | pdf_user_processor.py:59-62 | A group holds as many values as its key occurs. |
| PdfImport.UserOf | pdf_user_processor.py:66-71 | A group of at least three values gives a user with the first three as full name, username and secret code. |
| PdfImport.UsersBound | pdf_user_processor.py:65-72 | Each user uses at least three field values. |
| PdfImport.UsersComplete | pdf_user_processor.py:65-72 | Every group of three or more values yields its user. |
| PdfImport.UsersOfFullGroups | pdf_user_processor.py:65-72 | Exactly one user per group of three or more values, in group order, and none for smaller groups. |
| PdfImport.ExtractUsers | pdf_user_processor.py:7-74 | No form gives the "no form fields" error, and no fields gives the "no form fields found" error. Otherwise the result is a success, possibly empty, holding exactly the users of the full groups, in order. |
| PdfImport.NameGroupsAreSingletons | pdf_user_processor.py:53-57 | With distinct field names, a group keyed by a name holds at most one value and never yields a user. |
| PdfImport.UngroupedIgnored | pdf_user_processor.py:51-52 | A field in no group changes neither the keys nor any group. |
| PdfImport.DotlessFieldsDoNotMatter | pdf_user_processor.py:51-52 | Adding a dotless field does not change the result. |
| PdfImport.NumberedKey | pdf_user_processor.py:53-54 | A field named `<n>.<anything>` is keyed by n. |
| PdfImport.OneGroupOneUser | pdf_user_processor.py:59-72 | Three or more values under one key yield exactly one user, from the first three. |
| PdfImport.OneNumberedGroup | pdf_user_processor.py:51-72 | Three or more fields with the same number yield exactly one user, from the first three values. |
| Performance.ImprovementRate | ai_analytics.py:514-525 | 0 with fewer than two attempts; otherwise the mean of the last half minus the mean of the first half. |
| Performance.ImprovementIgnoresMiddle | ai_analytics.py:518-523 | For an odd number of attempts, the middle one does not affect the rate. |
| Performance.NondecreasingScoresImprove | ai_analytics.py:514-525 | Scores that never fall give a non-negative rate. |
| Performance.NonincreasingScoresDecline | ai_analytics.py:514-525 | Scores that never rise give a non-positive rate. |
| Performance.PerformanceMetrics | ai_analytics.py:157-176 | The attempt count is the number of attempts. The highest and lowest are attained and bound every percentage. The average lies between them. The improvement rate is that of the percentages. No attempts give no metrics. |
| Performance.QuizPercentages | ai_analytics.py:270 | A quiz has one percentage per attempt on it. |
| Performance.SortedIds | ai_analytics.py:270 | Each quiz id once, in increasing order, exactly the ids that occur. |
| Performance.AreasAmong | ai_analytics.py:276-282 | Keeps exactly the given records whose mean is below 80% of the overall mean, in their order, so increasing ids stay increasing. |
| Performance.DifficultyAreas | ai_analytics.py:264-284 | Exactly the quizzes whose mean percentage is below 80% of the student's overall mean, in increasing id order. Each is reported with its attempt count and mean. No attempts give none. |
| QuizTimer.JsRem | static/js/main.js:295-296 | Equal to Dafny's remainder for a non-negative dividend, and always strictly between -b and b. |
| QuizTimer.Pad2 | static/js/main.js:299 | Pads to at least two characters with leading zeros, keeping the text at the end. |
| QuizTimer.ClockOf | static/js/main.js:293-296 | For non-negative seconds, hours, minutes in 0..59 and seconds in 0..59 recompose the time. Hours are shown iff the time is at least an hour. |
| QuizTimer.FormatTime | static/js/main.js:293-302 | An hour or more shows three colon-separated parts; less shows two. |
| QuizTimer.FormatPadded | static/js/main.js:298-301 | Every field after a colon is two digits wide (`padStart(2, '0')`): minutes and seconds in H:MM:SS from one hour on, seconds in M:SS below an hour. |
| QuizTimer.FormatRoundTrip | static/js/main.js:293-302 | The displayed text parses back to the remaining seconds. |
| QuizTimer.FormatInjective | static/js/main.js:293-302 | Different times are displayed differently. |
| QuizTimer.Update | static/js/main.js:270-291 | A stopped timer does nothing. A running timed quiz stops and submits iff the remaining time is at most 0; otherwise it shows the remaining time, flagging the last minute. The five-minute warning fires once, when first under 300 seconds. An untimed quiz shows the elapsed time. |
| QuizTimer.RunTicks | static/js/main.js:264-291 | The warning flag is set iff it was set or a warning fired. A stopped timer stays stopped and never submits. After a submission the timer is stopped. |
| QuizTimer.AtMostOnce | static/js/main.js:276-284 | However many ticks arrive, the warning fires at most once (never when already shown) and the quiz is submitted at most once. |
| QuizTimer.UnlimitedNeverEnds | static/js/main.js:273-290 | A quiz without a limit never warns and never submits. |
| Records.ScorePercentage | ai_analytics.py:142 | The score over the total times 100, 0 without points, within 0..100 for a score within the total. |
| Records.InteractionTable | ai_analytics.py:115-133 | One row per interaction, in order, keeping time, kind and content id, with a missing duration or performance score read as 0. |
| Records.AttemptTable | ai_analytics.py:135-155 | One row per attempt with its percentage, a permutation of the attempts, ordered by completion time. |
| Recommend.PerformanceAdvice | ai_analytics.py:319-340 | At most one piece of advice. Review iff the mean percentage is below 60. Advanced content iff it is above 85. |
| Recommend.EngagementAdvice | ai_analytics.py:342-354 | Nothing or the single activity advice, which is given iff there are interactions and the engagement score is below 40. |
| Recommend.ConsistencyAdvice | ai_analytics.py:356-366 | Nothing or the single study-schedule advice, which is given iff the learning consistency is below 50. |
| Recommend.GenerateRecommendations | ai_analytics.py:315-368 | Review iff the mean is below 60, and advanced iff above 85, never both. More activity iff engagement is below 40. A study schedule iff consistency is below 50, which includes no interactions. At most three, in rule order. |
| StudentAnalysis.AnalyzeStudent | ai_analytics.py:25-53 | No data gives the empty analysis, and only then is the trend "no data". Otherwise each field is its own analysis of the interaction and attempt tables (metrics, patterns, engagement, difficulty areas, trend, recommendations, prediction). The attempt count is the number of attempts. Engagement is at most 100, non-negative for valid durations, and 0 without interactions. Below two attempts the trend is insufficient, and below three so is the prediction. Confidence is at most 95, and at most three recommendations are given. |
| Stats.MeanBounds | ai_analytics.py:169 | A mean lies within any bounds that hold for every element. |
| Stats.Maximum | ai_analytics.py:170 | The maximum is an element and no element exceeds it. |
| Stats.Minimum | ai_analytics.py:171 | The minimum is an element and no element is below it. |
| Stats.MeanBetweenExtremes | ai_analytics.py:169-171 | The mean lies between the minimum and the maximum. |
| Stats.Clamp | ai_analytics.py:380 | `max(lo, min(hi, x))` lies in lo..hi, is x inside, lo below and hi above. |
| Trend.SxxPositive | ai_analytics.py:293-298 | The spread of the indices is positive for two or more attempts, so the slope is defined. |
| Trend.SlopeOfLine | ai_analytics.py:293-298 | For scores on a line the least-squares slope is that line's slope. |
| Trend.Classify | ai_analytics.py:302-307 | Improving iff the slope is above 2, declining iff below -2, stable otherwise. |
| Trend.CalculateProgressTrend | ai_analytics.py:286-313 | Fewer than two attempts give "insufficient_data" with zero slope and fit. Otherwise the slope is the least-squares slope, r² is the fit, and the label follows the 2 and -2 thresholds. |
| Trend.PredictFuturePerformance | ai_analytics.py:370-388 | Fewer than three attempts give no prediction, and only then. Otherwise the score is the last three's mean plus twice the slope, clamped to 0..100. Confidence is min(100 r², 95), and the trend is the progress trend. |
| Trend.PredictionExtendsLine | ai_analytics.py:375-380 | For scores on a line a + b i, the prediction is that line at the next index, clamped to 0..100. |
| Trend.RisingExample | ai_analytics.py:293-380 | Scores 50, 55, 60, 65 have slope 5, are improving, and predict 70. |
| Uploads.Extension | app.py:33-34 | The lower-cased text after the last dot, containing no dot. |
| Uploads.AllowedFile | app.py:32-34 | Allowed iff the name has a dot and its extension is an allowed one; every video extension is allowed. |
| Uploads.AllowedPdfFile | app.py:36-38 | Allowed iff the extension is "pdf"; such a file is also generally allowed. |
| Uploads.AllowedExcelFile | app.py:40-42 | Allowed iff the extension is "xlsx" or "xls"; such a file is also generally allowed. |
| Uploads.ExtensionOfTail | app.py:33-34 | A name ending in a dot and a dotless tail has the lower-cased tail as its extension. |
| Uploads.LastDotDecides | app.py:32-38 | "report.pdf.exe" is refused and "archive.tar.PDF" is a PDF. |
| Uploads.ExtensionIgnoresPrefix | app.py:721-725 | A timestamp prefix does not change the extension. |
| Uploads.FileType | app.py:719-725 | The stored type of an allowed upload is its extension, which is an allowed one. |
| Text.StripIgnoresPadding | app.py:848 | `strip()` removes any whitespace padding around a core. |
| Text.SpaceSetsDiffer | mobile_app/src/screens/LessonsScreen.js:59 | Every character `trim()` removes `strip()` removes too. They differ exactly on the separators \x1c-\x1f. |
| Text.ParseIntOfIntToString | app.py:359 | `int(str(n)) == n` for every integer. |

## Left out

- Text.ParseInt: underscores between digits ("1_0") and non-ASCII digits, which Python's `int()` accepts, are rejected. This affects Accounts section ids and PdfImport.KeyOf.
- Text.Strip, Text.Lower, Grading.IsCorrect and Grading.ShortAnswerIgnoresCase: only ASCII whitespace and ASCII case are modelled. Unicode whitespace and Unicode case folding are not.
- LessonsScreen.Search: `trim()`'s non-ASCII whitespace is not modelled.
- Activities.QuizPercent, Activities.QuizPercentAsWritten, Grading.Percentage, Grading.QuizResults, Grading.AveragePercentage, Records.ScorePercentage: computed on exact reals with exact truncation. Floating point can differ: `int(29/100*100)` is 28 in the source, while the model gives 29. The final `round()` to an integer is not modelled.
- Patterns.ContentPreference: when several types are equally frequent, the contract promises only one of them. pandas leaves the order of tied counts in `value_counts` unspecified.
- Records.AttemptTable: the model sorts stably. pandas' `sort_values` uses an unstable quicksort. The contract states only the ordering and the permutation, so ties may be ordered differently.
- Trend.CalculateProgressTrend, Trend.PredictFuturePerformance: the regression's r² is an unconstrained input (`fit`). The slope is the exact least-squares slope, not scikit-learn's floating-point `LinearRegression`.
- Patterns.ConsistencyScore: the coefficient of variation (standard deviation over mean) needs a square root, so it is an input.
- Cohort.AnalyzeClass: the StandardScaler and k-means labels are inputs. The clustering algorithm is not modelled.
- PdfImport.ExtractUsers: reading the PDF with PyPDF2, decoding the bytes, and the `except Exception` path that wraps reader failures are not modelled. The input is whether the PDF has a form, and its fields in reader order with their names and values.
- ExcelImport.ExtractUsers: `read_excel`, `str()` of non-text cells, and the `except` path are not modelled. The input is the sheet as text cells.
- Access.Authenticate: JWT encoding, signing and expiry are a `verify` parameter that maps a token to a user id or to nothing.
- Accounts.CreateUser, Accounts.EditUser: password hashing, `flash` and redirects are not modelled. The password is stored as given.
- Accounts.NextId: the database's autoincrement is modelled as the maximum id plus one.
- Uploads.FileType: `secure_filename` is not modelled. The stored type is taken from the name as uploaded.
- Activities.MobileRecentActivities: the source sorts ISO-format timestamp strings. The model sorts by time, which orders them the same way.
- QuizTimer: the DOM element, `setInterval`, `showNotification` and the form submission are not modelled. Only the countdown state and the displayed text are.
- Translations (`message_ar`, `message_fr`, `get_translation`) are not modelled.
- Database query order is table order. Ties in `.first()` and `order_by(...).limit(...)` are not modelled beyond the stated ordering.
- The `get_analytics_instance` singleton is not modelled.
- `create_users_from_data` in both import processors (database duplicate checks and commit) is not modelled.
- Grading.MobileSubmitQuiz: JSON answers that are not strings are not modelled. The `json.dumps` text is modelled as the dictionary it encodes.
- Grading.StoredAnswers: the stored JSON text is modelled as the dictionary it encodes.
- Cohort.AtRiskStudents, Cohort.TopPerformers: the two lists are computed independently and may overlap (Cohort.AtRiskAndTopCanOverlap).
- Stats.Mean: requires a non-empty column. Every caller in the source takes the mean only of non-empty data.

## Findings

| source | as written | input that shows it | evidently intended | confidence | as-written member | corrected member |
|---|---|---|---|---|---|---|
| app.py:237, api_mobile.py:297 | The recent-activities percentage is `int((attempt.score / attempt.total_points) * 100)`, with no guard for zero total points, so the dashboard raises `ZeroDivisionError`. | One attempt by the student on an existing quiz that has no questions, so its total points are 0. | 0%, as every other percentage in the code gives (`if total_points > 0 else 0`). | not executed | Activities.WebRecentActivitiesAsWritten, Activities.EmptyQuizBreaksWebDashboard, Activities.MobileRecentActivitiesAsWritten, Activities.EmptyQuizBreaksMobileDashboard | Activities.WebRecentActivities, Activities.MobileRecentActivities, Activities.WebGuardAgrees, Activities.MobileGuardAgrees |

=== FILE: access.dfy ===
/** Authentication and authorisation of the mobile API: `token_required`,
    `role_required`, the role-based list filters of `get_lessons`/`get_quizzes`, the
    access checks of `get_lesson_detail`/`get_quiz_detail`, and the statistics of
    `student_dashboard`. The JWT decoding and the database are parameters. */
module Access {
  import opened Wrappers
  import opened Text
  import Seqs

  /** The authenticated account as the routes see it. */
  datatype User = User(id: int, role: string, sectionId: Option<int>)

  /** `if current_user.section_id:`: a section is present and the id is not `0`. */
  predicate HasSection(u: User) {
    u.sectionId.Some? && u.sectionId.value != 0
  }

  const BearerPrefix: string := "Bearer "

  /** The token part of the `Authorization` header: a missing or empty header is
      refused with 401, a leading `Bearer ` is removed, any other value is used as is. */
  function ExtractToken(header: Option<string>): (r: Response<string>)
    ensures r.Refuse? <==> header.None? || header == Some("")
    ensures r.Refuse? ==> r == Refuse(401, "Token is missing")
    ensures r.Reply? && StartsWith(header.value, BearerPrefix) ==>
              header.value == BearerPrefix + r.value
    ensures r.Reply? && !StartsWith(header.value, BearerPrefix) ==> r.value == header.value
  {
    if header.None? || header.value == "" then Refuse(401, "Token is missing")
    else if StartsWith(header.value, BearerPrefix) then
      assert header.value == header.value[..7] + header.value[7..];
      Reply(header.value[7..])
    else Reply(header.value)
  }

  /** Whatever follows `Bearer ` comes back exactly, even text that itself starts
      with `Bearer `: the prefix is removed once. */
  lemma BearerRoundTrip(token: string)
    ensures ExtractToken(Some(BearerPrefix + token)) == Reply(token)
  {
    assert StartsWith(BearerPrefix + token, BearerPrefix);
    assert (BearerPrefix + token)[7..] == token;
  }

  /** A header without the prefix is passed on unchanged. */
  lemma RawTokenUnchanged(header: string)
    requires header != "" && !StartsWith(header, BearerPrefix)
    ensures ExtractToken(Some(header)) == Reply(header)
  {
  }

  /** `token_required`: the user whose id the token decodes to. `verify` stands for
      `verify_token` (JWT decoding), `users` for the user table. A decoded id of `0`
      is falsy in Python and is refused like an invalid token. */
  function Authenticate(header: Option<string>, verify: string -> Option<int>,
                        users: map<int, User>): (r: Response<User>)
    ensures r.Reply? <==>
              && ExtractToken(header).Reply?
              && verify(ExtractToken(header).value).Some?
              && verify(ExtractToken(header).value).value != 0
              && verify(ExtractToken(header).value).value in users
    ensures r.Reply? ==> r.value == users[verify(ExtractToken(header).value).value]
    ensures r.Refuse? ==> r.status == 401
  {
    match ExtractToken(header)
    case Refuse(s, e) => Refuse(s, e)
    case Reply(token) =>
      var id := verify(token);
      if id.None? || id.value == 0 then Refuse(401, "Token is invalid or expired")
      else if id.value !in users then Refuse(401, "User not found")
      else Reply(users[id.value])
  }

  /** `role_required(roles)`: admits the user iff their role is listed. */
  function RoleRequired(u: User, roles: seq<string>): (r: Response<User>)
    ensures r.Reply? <==> u.role in roles
    ensures r.Reply? ==> r.value == u
    ensures r.Refuse? ==> r == Refuse(403, "Insufficient permissions")
  {
    if u.role in roles then Reply(u) else Refuse(403, "Insufficient permissions")
  }

  /** Adding roles to the list never locks anyone out. */
  lemma MoreRolesAdmitMore(u: User, roles: seq<string>, extra: seq<string>)
    requires RoleRequired(u, roles).Reply?
    ensures RoleRequired(u, roles + extra).Reply?
    ensures RoleRequired(u, extra + roles).Reply?
  {
    var i :| 0 <= i < |roles| && roles[i] == u.role;
    assert (roles + extra)[i] == u.role;
    assert (extra + roles)[|extra| + i] == u.role;
  }

  /** A lesson or a quiz, as far as access control is concerned. */
  datatype Item = Item(id: int, ownerId: int, sectionId: Option<int>, published: bool)

  datatype Kind = LessonKind | QuizKind {
    function NotAvailable(): string {
      match this
      case LessonKind => "Lesson not available"
      case QuizKind => "Quiz not available"
    }
  }

  /** What a student's list query returns: published items, of the student's own
      section when the student has one. */
  predicate StudentSees(u: User, it: Item) {
    it.published && (HasSection(u) ==> it.sectionId == u.sectionId)
  }

  /** The row filter of `get_lessons` and `get_quizzes`: students as above, teachers
      their own items, every other role (admins) everything. */
  predicate Listed(u: User, it: Item) {
    if u.role == "student" then StudentSees(u, it)
    else if u.role == "teacher" then it.ownerId == u.id
    else true
  }

  /** `get_lessons` / `get_quizzes` over the item table, in table order. */
  function ListItems(u: User, items: seq<Item>): (r: seq<Item>)
    ensures Seqs.Subsequence(r, items)
    ensures u.role == "student" && HasSection(u) ==>
              forall it :: it in r <==> it in items && it.published && it.sectionId == u.sectionId
    ensures u.role == "student" && !HasSection(u) ==>
              forall it :: it in r <==> it in items && it.published
    ensures u.role == "teacher" ==> forall it :: it in r <==> it in items && it.ownerId == u.id
    ensures u.role != "student" && u.role != "teacher" ==> r == items
  {
    var keep := (it: Item) => Listed(u, it);
    assert u.role != "student" && u.role != "teacher" ==> Seqs.Filter(items, keep) == items by {
      if u.role != "student" && u.role != "teacher" {
        Seqs.FilterAll(items, keep);
      }
    }
    Seqs.FilterSubsequence(items, keep);
    Seqs.Filter(items, keep)
  }

  /** The checks of `get_lesson_detail` / `get_quiz_detail`. */
  function DetailAccess(u: User, it: Item, kind: Kind): (r: Response<Item>)
    ensures r.Reply? ==> r.value == it
    ensures r.Refuse? ==> r.status == 403
    ensures u.role == "student" ==>
              (r.Reply? <==> it.published && !(HasSection(u) && it.sectionId != u.sectionId))
    ensures u.role == "student" && !it.published ==> r == Refuse(403, kind.NotAvailable())
    ensures u.role == "teacher" ==> (r.Reply? <==> it.ownerId == u.id)
    ensures u.role != "student" && u.role != "teacher" ==> r.Reply?
  {
    if u.role == "student" then
      if !it.published then Refuse(403, kind.NotAvailable())
      else if HasSection(u) && it.sectionId != u.sectionId then Refuse(403, "Access denied")
      else Reply(it)
    else if u.role == "teacher" && it.ownerId != u.id then Refuse(403, "Access denied")
    else Reply(it)
  }

  /** The list and the detail routes agree: an item appears in a user's list iff the
      user may open it. */
  lemma {:induction false} ListedIffAccessible(u: User, items: seq<Item>, it: Item, kind: Kind)
    requires it in items
    ensures it in ListItems(u, items) <==> DetailAccess(u, it, kind).Reply?
  {
  }

  /** An admin sees and opens everything. */
  lemma AdminUnrestricted(u: User, items: seq<Item>, kind: Kind)
    requires u.role == "admin"
    ensures ListItems(u, items) == items
    ensures forall it :: DetailAccess(u, it, kind).Reply?
  {
  }

  // ---- student dashboard ----

  /** A quiz attempt as far as the dashboard needs it. */
  datatype AttemptRef = AttemptRef(studentId: int, quizId: int)

  datatype DashboardStats = DashboardStats(totalLessons: nat, totalQuizzes: nat, completedQuizzes: nat)

  predicate Attempted(u: User, attempts: seq<AttemptRef>, quiz: Item) {
    exists i :: 0 <= i < |attempts| && attempts[i] == AttemptRef(u.id, quiz.id)
  }

  function CountAttempted(u: User, attempts: seq<AttemptRef>, quizzes: seq<Item>): (n: nat)
    ensures n <= |quizzes|
    ensures n == |quizzes| <==> forall q :: q in quizzes ==> Attempted(u, attempts, q)
    ensures n == 0 <==> forall q :: q in quizzes ==> !Attempted(u, attempts, q)
  {
    if |quizzes| == 0 then 0
    else
      var rest := CountAttempted(u, attempts, quizzes[1..]);
      assert forall q :: q in quizzes <==> q == quizzes[0] || q in quizzes[1..];
      rest + (if Attempted(u, attempts, quizzes[0]) then 1 else 0)
  }

  /** The `stats` of `student_dashboard`: the lessons and quizzes the student can see
      and how many of those quizzes the student has attempted. */
  function StudentDashboard(u: User, lessons: seq<Item>, quizzes: seq<Item>,
                            attempts: seq<AttemptRef>): (d: DashboardStats)
    ensures d.totalLessons == |Seqs.Filter(lessons, (it: Item) => StudentSees(u, it))|
    ensures d.totalQuizzes == |Seqs.Filter(quizzes, (it: Item) => StudentSees(u, it))|
    ensures d.completedQuizzes <= d.totalQuizzes
    ensures d.completedQuizzes == d.totalQuizzes <==>
              forall q :: q in quizzes && StudentSees(u, q) ==> Attempted(u, attempts, q)
    ensures |attempts| == 0 ==> d.completedQuizzes == 0
    ensures d.completedQuizzes ==
              CountAttempted(u, attempts, Seqs.Filter(quizzes, (it: Item) => StudentSees(u, it)))
  {
    var ls := Seqs.Filter(lessons, (it: Item) => StudentSees(u, it));
    var qs := Seqs.Filter(quizzes, (it: Item) => StudentSees(u, it));
    var done := CountAttempted(u, attempts, qs);
    DashboardStats(|ls|, |qs|, done)
  }

  /** For a student the dashboard counts exactly the lists `get_lessons` and
      `get_quizzes` return. */
  lemma DashboardMatchesLists(u: User, lessons: seq<Item>, quizzes: seq<Item>,
                              attempts: seq<AttemptRef>)
    requires u.role == "student"
    ensures StudentDashboard(u, lessons, quizzes, attempts).totalLessons == |ListItems(u, lessons)|
    ensures StudentDashboard(u, lessons, quizzes, attempts).totalQuizzes == |ListItems(u, quizzes)|
  {
    FilterSame(lessons, (it: Item) => StudentSees(u, it), (it: Item) => Listed(u, it));
    FilterSame(quizzes, (it: Item) => StudentSees(u, it), (it: Item) => Listed(u, it));
  }

  lemma {:induction false} FilterSame(xs: seq<Item>, p: Item -> bool, q: Item -> bool)
    requires forall x :: p(x) == q(x)
    ensures Seqs.Filter(xs, p) == Seqs.Filter(xs, q)
  {
    if |xs| > 0 {
      FilterSame(xs[1..], p, q);
    }
  }
}

=== FILE: accounts.dfy ===
/** Account management by an administrator: `admin_create_user` and `admin_edit_user`
    of the web application, over the user table as a sequence of rows. Password
    hashing is left out: the stored credential is the password as given. */
module Accounts {
  import opened Wrappers
  import opened Text

  datatype Account = Account(id: int, username: string, email: string, role: string,
                             sectionId: Option<int>, password: string)

  /** The posted form. `username`, `email` and `role` are read with `form[...]` and
      are present; `password` and `section_id` may be missing. */
  datatype UserForm = UserForm(username: string, email: string, role: string,
                               password: Option<string>, sectionId: Option<string>)

  const AccessDenied := "Access denied"
  const SectionRequired := "Section is required for student accounts"
  const UsernameExists := "Username already exists"
  const EmailExists := "Email already exists"
  const MissingPassword := "400 Bad Request: password"
  const NotFound := "404 Not Found"
  const BadSection := "ValueError: invalid literal for int()"

  /** Ids, usernames and emails are each unique in the table. */
  predicate Unique(us: seq<Account>) {
    forall i, j :: 0 <= i < j < |us| ==>
      us[i].id != us[j].id && us[i].username != us[j].username && us[i].email != us[j].email
  }

  /** Every student has a section and no one else has one. */
  predicate SectionsConsistent(us: seq<Account>) {
    forall i :: 0 <= i < |us| ==> (us[i].role == "student" <==> us[i].sectionId.Some?)
  }

  /** `not request.form.get('section_id')`: missing or empty. */
  predicate Blank(field: Option<string>) {
    field.None? || field.value == ""
  }

  /** A row other than `except` already uses the name. */
  predicate UsernameTaken(us: seq<Account>, name: string, except: Option<int>) {
    exists i :: 0 <= i < |us| && us[i].username == name && (except.None? || us[i].id != except.value)
  }

  predicate EmailTaken(us: seq<Account>, email: string, except: Option<int>) {
    exists i :: 0 <= i < |us| && us[i].email == email && (except.None? || us[i].id != except.value)
  }

  predicate HasId(us: seq<Account>, id: int) {
    exists i :: 0 <= i < |us| && us[i].id == id
  }

  /** The id the database assigns to a new row: one more than the largest. */
  function NextId(us: seq<Account>): (n: int)
    ensures forall i :: 0 <= i < |us| ==> us[i].id < n
  {
    if |us| == 0 then 1
    else
      var m := NextId(us[1..]);
      assert forall i :: 1 <= i < |us| ==> us[i] == us[1..][i - 1];
      if us[0].id + 1 > m then us[0].id + 1 else m
  }

  /** `int(section_id) if section_id else None` for the value the route kept: only a
      student's section is kept. */
  function ParsedSection(form: UserForm): Option<Option<int>> {
    if form.role != "student" || Blank(form.sectionId) then Some(None)
    else match ParseInt(form.sectionId.value)
      case None => None
      case Some(n) => Some(Some(n))
  }

  /** `admin_create_user`: the table with the new account appended. */
  function CreateUser(actorRole: string, us: seq<Account>, form: UserForm): (r: Result<seq<Account>>)
    ensures actorRole != "admin" ==> r == Err(AccessDenied)
    ensures actorRole == "admin" && form.password.Some? && form.role == "student" && Blank(form.sectionId) ==>
              r == Err(SectionRequired)
    ensures r.Ok? <==>
              && actorRole == "admin"
              && form.password.Some?
              && !(form.role == "student" && Blank(form.sectionId))
              && !UsernameTaken(us, form.username, None)
              && !EmailTaken(us, form.email, None)
              && ParsedSection(form).Some?
    ensures r.Ok? ==> |r.value| == |us| + 1 && r.value[..|us|] == us
    ensures r.Ok? ==>
              var a := r.value[|us|];
              && a.username == form.username && a.email == form.email && a.role == form.role
              && a.password == form.password.value
              && (form.role == "student" ==> a.sectionId.Some? && ParseInt(form.sectionId.value) == a.sectionId)
              && (form.role != "student" ==> a.sectionId.None?)
    ensures r.Ok? && Unique(us) ==> Unique(r.value)
    ensures r.Ok? && SectionsConsistent(us) ==> SectionsConsistent(r.value)
  {
    if actorRole != "admin" then Err(AccessDenied)
    else if form.password.None? then Err(MissingPassword)
    else if form.role == "student" && Blank(form.sectionId) then Err(SectionRequired)
    else if UsernameTaken(us, form.username, None) then Err(UsernameExists)
    else if EmailTaken(us, form.email, None) then Err(EmailExists)
    else match ParsedSection(form)
      case None => Err(BadSection)
      case Some(section) =>
        var a := Account(NextId(us), form.username, form.email, form.role, section, form.password.value);
        var r := us + [a];
        assert r[..|us|] == us;
        Ok(r)
  }

  /** The row after an edit: every field from the form, except that a missing or
      empty password keeps the old one. */
  function Edited(a: Account, form: UserForm, section: Option<int>): Account {
    var pw := if form.password.Some? && form.password.value != "" then form.password.value else a.password;
    Account(a.id, form.username, form.email, form.role, section, pw)
  }

  /** `admin_edit_user`: the table with the row of `userId` updated. */
  function EditUser(actorRole: string, us: seq<Account>, userId: int, form: UserForm): (r: Result<seq<Account>>)
    ensures actorRole != "admin" ==> r == Err(AccessDenied)
    ensures actorRole == "admin" && form.role == "student" && Blank(form.sectionId) ==> r == Err(SectionRequired)
    ensures actorRole == "admin" && !(form.role == "student" && Blank(form.sectionId)) && !HasId(us, userId) ==>
              r == Err(NotFound)
    ensures r.Ok? <==>
              && actorRole == "admin"
              && !(form.role == "student" && Blank(form.sectionId))
              && HasId(us, userId)
              && !UsernameTaken(us, form.username, Some(userId))
              && !EmailTaken(us, form.email, Some(userId))
              && ParsedSection(form).Some?
    ensures r.Ok? ==> |r.value| == |us|
    ensures r.Ok? ==> forall i :: 0 <= i < |us| && us[i].id != userId ==> r.value[i] == us[i]
    ensures r.Ok? ==> forall i :: 0 <= i < |us| && us[i].id == userId ==>
              && r.value[i].id == userId
              && r.value[i].username == form.username && r.value[i].email == form.email
              && r.value[i].role == form.role
              && (form.role != "student" ==> r.value[i].sectionId.None?)
              && (form.role == "student" ==>
                    r.value[i].sectionId.Some? && ParseInt(form.sectionId.value) == r.value[i].sectionId)
              && (r.value[i].password == us[i].password <==>
                    form.password.None? || form.password.value == "" || form.password.value == us[i].password)
    ensures r.Ok? && Unique(us) ==> Unique(r.value)
    ensures r.Ok? && SectionsConsistent(us) ==> SectionsConsistent(r.value)
  {
    if actorRole != "admin" then Err(AccessDenied)
    else if form.role == "student" && Blank(form.sectionId) then Err(SectionRequired)
    else if !HasId(us, userId) then Err(NotFound)
    else if UsernameTaken(us, form.username, Some(userId)) then Err(UsernameExists)
    else if EmailTaken(us, form.email, Some(userId)) then Err(EmailExists)
    else match ParsedSection(form)
      case None => Err(BadSection)
      case Some(section) =>
        var r := seq(|us|, i requires 0 <= i < |us| =>
                       if us[i].id == userId then Edited(us[i], form, section) else us[i]);
        Ok(r)
  }

  /** Saving a row unchanged is always allowed: the row's own name and email do not
      count as taken, so the edit form can be resubmitted as is. */
  lemma {:induction false} ResubmitAccepted(us: seq<Account>, k: nat)
    requires Unique(us) && SectionsConsistent(us) && k < |us|
    ensures var a := us[k];
            var form := UserForm(a.username, a.email, a.role, None,
                                 if a.sectionId.Some? then Some(IntToString(a.sectionId.value)) else None);
            EditUser("admin", us, a.id, form) == Ok(us)
  {
    var a := us[k];
    var form := UserForm(a.username, a.email, a.role, None,
                         if a.sectionId.Some? then Some(IntToString(a.sectionId.value)) else None);
    assert HasId(us, a.id);
    assert !UsernameTaken(us, form.username, Some(a.id));
    assert !EmailTaken(us, form.email, Some(a.id));
    if a.role == "student" {
      ParseIntOfIntToString(a.sectionId.value);
    }
    assert ParsedSection(form) == Some(a.sectionId);
    assert EditUser("admin", us, a.id, form).Ok?;
    var r := EditUser("admin", us, a.id, form).value;
    assert |r| == |us|;
    forall i | 0 <= i < |us| ensures r[i] == us[i] {
      if us[i].id == a.id {
        assert i == k;
        assert r[i] == Edited(us[i], form, a.sectionId);
      }
    }
    assert r == us;
  }
}

=== FILE: activities.dfy ===
/** The "recent activities" feed of the two admin dashboards (`admin_dashboard` of the
    web application, `admin_dashboard` of the JSON API): the five newest rows of each
    log, joined with their user and content, merged and cut to the ten newest.

    The quiz entries show `int(score / total_points * 100)` with no guard against a
    quiz worth no points. `QuizPercentAsWritten` and the `AsWritten` feeds model that
    division (a zero divisor is the `ZeroDivisionError` the page fails with);
    `QuizPercent` and the feeds without suffix use the `total_points > 0` guard that
    every other percentage of the application has. */
module Activities {
  import opened Wrappers
  import opened Records
  import Seqs

  /** What an activity line shows besides its time and user. */
  datatype Details = QuizScore(quizTitle: string, percent: int) | ContentTitle(title: string)

  datatype Action = QuizCompleted | LessonCreated | LessonViewed

  datatype Activity = Activity(time: Timestamp, user: string, action: Action, details: Details)

  function TimeKey(a: Activity): real {
    a.time.Instant() as real
  }

  /** A `QuizAttempt` with the username of its student and the title of its quiz, each
      absent when the row it refers to does not exist. */
  datatype AttemptLog = AttemptLog(completedAt: Timestamp, student: Option<string>,
                                   quiz: Option<string>, score: int, totalPoints: int)

  /** A `Lesson` with the username of its teacher. */
  datatype LessonLog = LessonLog(createdAt: Timestamp, teacher: Option<string>, title: string)

  /** A `lesson_view` interaction with its student's username and the lesson's title. */
  datatype ViewLog = ViewLog(timestamp: Timestamp, student: Option<string>, lesson: Option<string>)

  function AttemptKey(a: AttemptLog): real { a.completedAt.Instant() as real }
  function LessonKey(l: LessonLog): real { l.createdAt.Instant() as real }
  function ViewKey(v: ViewLog): real { v.timestamp.Instant() as real }

  const QueryLimit: nat := 5
  const FeedLimit: nat := 10

  /** Python's `int(x)` of the quotient `a / b`: rounds toward zero. */
  function TruncDiv(a: int, b: int): (q: int)
    requires b > 0
    ensures a >= 0 ==> q * b <= a < (q + 1) * b
    ensures a < 0 ==> (q - 1) * b < a <= q * b
  {
    if a >= 0 then a / b else -((-a) / b)
  }

  /** `int((score / total_points) * 100)` as the dashboards write it. */
  function QuizPercentAsWritten(score: int, totalPoints: int): (r: Result<int>)
    ensures r.Err? <==> totalPoints == 0
    ensures totalPoints > 0 ==> r == Ok(TruncDiv(score * 100, totalPoints))
  {
    if totalPoints == 0 then Err("ZeroDivisionError: division by zero")
    else if totalPoints > 0 then Ok(TruncDiv(score * 100, totalPoints))
    else Ok(-TruncDiv(score * 100, -totalPoints))
  }

  /** The guarded percentage: whole percent, 0 for a quiz worth no points. */
  function QuizPercent(score: int, totalPoints: int): (p: int)
    ensures totalPoints <= 0 ==> p == 0
    ensures 0 <= score <= totalPoints ==> 0 <= p <= 100
    ensures totalPoints > 0 ==> QuizPercentAsWritten(score, totalPoints) == Ok(p)
  {
    if totalPoints > 0 then TruncDiv(score * 100, totalPoints) else 0
  }

  // ---- the three sources ----

  /** An attempt whose student and quiz both exist: the inner joins keep it. */
  predicate Joined(a: AttemptLog) {
    a.student.Some? && a.quiz.Some?
  }

  function AttemptEntry(a: AttemptLog): Activity
    requires Joined(a)
  {
    Activity(a.completedAt, a.student.value, QuizCompleted,
             QuizScore(a.quiz.value, QuizPercent(a.score, a.totalPoints)))
  }

  /** The quiz entries of the given attempts: one per joined attempt, in order, with
      its completion time, student, quiz title and guarded percentage. */
  function AttemptActivities(xs: seq<AttemptLog>): (r: seq<Activity>)
    ensures |r| == |Seqs.Filter(xs, Joined)|
    ensures forall i :: 0 <= i < |r| ==> r[i] == AttemptEntry(Seqs.Filter(xs, Joined)[i])
  {
    if |xs| == 0 then []
    else
      var rest := AttemptActivities(xs[1..]);
      Seqs.FilterHead(xs, Joined);
      if Joined(xs[0]) then
        Seqs.MapCons(AttemptEntry, xs[0], Seqs.Filter(xs[1..], Joined), rest);
        [AttemptEntry(xs[0])] + rest
      else rest
  }

  /** The same loop with the unguarded percentage: the first joined attempt out of no
      points aborts the page. */
  function AttemptActivitiesAsWritten(xs: seq<AttemptLog>): (r: Result<seq<Activity>>)
  {
    if |xs| == 0 then Ok([])
    else
      var a := xs[0];
      if a.student.Some? && a.quiz.Some? then
        match QuizPercentAsWritten(a.score, a.totalPoints)
        case Err(e) => Err(e)
        case Ok(p) =>
          match AttemptActivitiesAsWritten(xs[1..])
          case Err(e) => Err(e)
          case Ok(rest) =>
            Ok([Activity(a.completedAt, a.student.value, QuizCompleted, QuizScore(a.quiz.value, p))] + rest)
      else AttemptActivitiesAsWritten(xs[1..])
  }

  /** Some joined attempt is out of no points. */
  predicate ZeroPointQuiz(xs: seq<AttemptLog>) {
    exists i :: 0 <= i < |xs| && Joined(xs[i]) && xs[i].totalPoints == 0
  }

  /** The written loop fails exactly when a joined attempt is out of no points, and
      otherwise gives one entry per joined attempt. */
  lemma {:induction false} AsWrittenFailsIffZero(xs: seq<AttemptLog>)
    ensures AttemptActivitiesAsWritten(xs).Err? <==> ZeroPointQuiz(xs)
    ensures AttemptActivitiesAsWritten(xs).Ok? ==>
              |AttemptActivitiesAsWritten(xs).value| == |AttemptActivities(xs)|
  {
    if |xs| > 0 {
      AsWrittenFailsIffZero(xs[1..]);
      assert forall i :: 1 <= i < |xs| ==> xs[1..][i - 1] == xs[i];
      if !(Joined(xs[0]) && xs[0].totalPoints == 0) {
        assert ZeroPointQuiz(xs) <==> ZeroPointQuiz(xs[1..]);
      }
    }
  }

  /** For non-negative totals the written loop, when it does not fail, produces what
      the guarded loop produces. */
  lemma {:induction false} AsWrittenAgreesUnlessZero(xs: seq<AttemptLog>)
    requires forall i :: 0 <= i < |xs| ==> xs[i].totalPoints >= 0
    ensures AttemptActivitiesAsWritten(xs).Err? <==>
              exists i :: 0 <= i < |xs| && Joined(xs[i]) && xs[i].totalPoints == 0
    ensures AttemptActivitiesAsWritten(xs).Ok? ==> AttemptActivitiesAsWritten(xs).value == AttemptActivities(xs)
  {
    AsWrittenFailsIffZero(xs);
    if |xs| > 0 {
      AsWrittenAgreesUnlessZero(xs[1..]);
      assert forall i :: 1 <= i < |xs[1..]| ==> xs[1..][i] == xs[i + 1];
    }
  }

  /** A lesson whose teacher exists. */
  predicate Taught(l: LessonLog) {
    l.teacher.Some?
  }

  function LessonEntry(l: LessonLog): Activity
    requires Taught(l)
  {
    Activity(l.createdAt, l.teacher.value, LessonCreated, ContentTitle(l.title))
  }

  /** A lesson view whose student and lesson both exist. */
  predicate Seen(v: ViewLog) {
    v.student.Some? && v.lesson.Some?
  }

  function ViewEntry(v: ViewLog): Activity
    requires Seen(v)
  {
    Activity(v.timestamp, v.student.value, LessonViewed, ContentTitle(v.lesson.value))
  }

  /** The creation entries of the given lessons: one per lesson whose teacher exists,
      in order, with its creation time, teacher and title. */
  function LessonActivities(xs: seq<LessonLog>): (r: seq<Activity>)
    ensures |r| == |Seqs.Filter(xs, Taught)|
    ensures forall i :: 0 <= i < |r| ==> r[i] == LessonEntry(Seqs.Filter(xs, Taught)[i])
  {
    if |xs| == 0 then []
    else
      var rest := LessonActivities(xs[1..]);
      Seqs.FilterHead(xs, Taught);
      if Taught(xs[0]) then
        Seqs.MapCons(LessonEntry, xs[0], Seqs.Filter(xs[1..], Taught), rest);
        [LessonEntry(xs[0])] + rest
      else rest
  }

  /** The view entries of the given views: one per view whose student and lesson
      exist, in order, with its time, student and lesson title. */
  function ViewActivities(xs: seq<ViewLog>): (r: seq<Activity>)
    ensures |r| == |Seqs.Filter(xs, Seen)|
    ensures forall i :: 0 <= i < |r| ==> r[i] == ViewEntry(Seqs.Filter(xs, Seen)[i])
  {
    if |xs| == 0 then []
    else
      var rest := ViewActivities(xs[1..]);
      Seqs.FilterHead(xs, Seen);
      if Seen(xs[0]) then
        Seqs.MapCons(ViewEntry, xs[0], Seqs.Filter(xs[1..], Seen), rest);
        [ViewEntry(xs[0])] + rest
      else rest
  }

  // ---- the feeds ----

  /** `recent_activities.sort(key=time, reverse=True)[:10]`. */
  function Newest(candidates: seq<Activity>): (r: seq<Activity>)
    ensures |r| == Seqs.Min(FeedLimit, |candidates|)
    ensures Seqs.SortedDesc(r, TimeKey)
    ensures multiset(r) <= multiset(candidates)
  {
    Seqs.TopK(candidates, FeedLimit, TimeKey)
  }

  /** Nothing the feed drops is newer than anything it keeps. */
  lemma NewestIsNewest(candidates: seq<Activity>, dropped: Activity, j: nat)
    requires dropped in multiset(candidates) - multiset(Newest(candidates))
    requires j < |Newest(candidates)|
    ensures TimeKey(dropped) <= TimeKey(Newest(candidates)[j])
  {
    Seqs.TopKMaximal(candidates, FeedLimit, TimeKey, dropped);
  }

  /** The candidates of the web dashboard: the five newest attempts, lesson creations
      and lesson views, each joined with the rows it names. */
  function WebCandidates(attempts: seq<AttemptLog>, lessons: seq<LessonLog>,
                         views: seq<ViewLog>): (c: seq<Activity>)
    ensures |c| <= 3 * QueryLimit
  {
    AttemptActivities(Seqs.TopK(attempts, QueryLimit, AttemptKey)) +
    LessonActivities(Seqs.TopK(lessons, QueryLimit, LessonKey)) +
    ViewActivities(Seqs.TopK(views, QueryLimit, ViewKey))
  }

  /** `recent_activities` of the web dashboard with the guarded percentage: at most
      ten entries, newest first, each one of the candidates. */
  function WebRecentActivities(attempts: seq<AttemptLog>, lessons: seq<LessonLog>,
                               views: seq<ViewLog>): (r: seq<Activity>)
    ensures |r| <= FeedLimit
    ensures |r| == Seqs.Min(FeedLimit, |WebCandidates(attempts, lessons, views)|)
    ensures Seqs.SortedDesc(r, TimeKey)
    ensures multiset(r) <= multiset(WebCandidates(attempts, lessons, views))
    ensures forall x, j ::
              x in multiset(WebCandidates(attempts, lessons, views)) - multiset(r) && 0 <= j < |r| ==>
                TimeKey(x) <= TimeKey(r[j])
  {
    var c := WebCandidates(attempts, lessons, views);
    var r := Newest(c);
    assert forall x, j :: x in multiset(c) - multiset(r) && 0 <= j < |r| ==> TimeKey(x) <= TimeKey(r[j]) by {
      forall x, j | x in multiset(c) - multiset(r) && 0 <= j < |r| ensures TimeKey(x) <= TimeKey(r[j]) {
        NewestIsNewest(c, x, j);
      }
    }
    r
  }

  /** The web dashboard as written: it fails when a joined attempt among the five
      newest is out of no points. */
  function WebRecentActivitiesAsWritten(attempts: seq<AttemptLog>, lessons: seq<LessonLog>,
                                        views: seq<ViewLog>): (r: Result<seq<Activity>>)
    ensures r.Ok? ==> |r.value| <= FeedLimit && Seqs.SortedDesc(r.value, TimeKey)
    ensures r.Err? <==> ZeroPointQuiz(Seqs.TopK(attempts, QueryLimit, AttemptKey))
    ensures r.Ok? ==> |r.value| == Seqs.Min(FeedLimit, |WebCandidates(attempts, lessons, views)|)
  {
    var top := Seqs.TopK(attempts, QueryLimit, AttemptKey);
    AsWrittenFailsIffZero(top);
    match AttemptActivitiesAsWritten(top)
    case Err(e) => Err(e)
    case Ok(qs) =>
      Ok(Newest(qs + LessonActivities(Seqs.TopK(lessons, QueryLimit, LessonKey)) +
                ViewActivities(Seqs.TopK(views, QueryLimit, ViewKey))))
  }

  /** A single attempt at a quiz with no questions takes the web dashboard down. */
  lemma EmptyQuizBreaksWebDashboard(t: Timestamp)
    ensures var a := AttemptLog(t, Some("student1"), Some("Empty quiz"), 0, 0);
            WebRecentActivitiesAsWritten([a], [], []).Err?
  {
    var a := AttemptLog(t, Some("student1"), Some("Empty quiz"), 0, 0);
    assert Seqs.TopK([a], QueryLimit, AttemptKey) == [a] by {
      var r := Seqs.TopK([a], QueryLimit, AttemptKey);
      assert |r| == 1;
      assert r[0] in multiset([a]);
    }
    assert ZeroPointQuiz([a]) by { assert Joined([a][0]); }
  }

  /** The guarded feed agrees with the written one whenever the written one renders. */
  lemma WebGuardAgrees(attempts: seq<AttemptLog>, lessons: seq<LessonLog>, views: seq<ViewLog>)
    requires forall i :: 0 <= i < |attempts| ==> attempts[i].totalPoints >= 0
    requires WebRecentActivitiesAsWritten(attempts, lessons, views).Ok?
    ensures WebRecentActivitiesAsWritten(attempts, lessons, views).value ==
              WebRecentActivities(attempts, lessons, views)
  {
    var top := Seqs.TopK(attempts, QueryLimit, AttemptKey);
    forall i | 0 <= i < |top| ensures top[i].totalPoints >= 0 {
      assert top[i] in multiset(attempts);
    }
    AsWrittenAgreesUnlessZero(top);
  }

  /** The candidates of the JSON dashboard: attempts and lesson creations only. */
  function MobileCandidates(attempts: seq<AttemptLog>, lessons: seq<LessonLog>): (c: seq<Activity>)
    ensures |c| <= FeedLimit
  {
    AttemptActivities(Seqs.TopK(attempts, QueryLimit, AttemptKey)) +
    LessonActivities(Seqs.TopK(lessons, QueryLimit, LessonKey))
  }

  /** `recent_activities` of the JSON dashboard with the guarded percentage: with at
      most five entries from each of two sources, the cut to ten drops nothing, so
      the feed is a reordering of all candidates. */
  function MobileRecentActivities(attempts: seq<AttemptLog>, lessons: seq<LessonLog>): (r: seq<Activity>)
    ensures Seqs.SortedDesc(r, TimeKey)
    ensures multiset(r) == multiset(MobileCandidates(attempts, lessons))
  {
    var c := MobileCandidates(attempts, lessons);
    var r := Newest(c);
    assert |r| == |c|;
    PermutationOfSubmultiset(r, c);
    r
  }

  lemma PermutationOfSubmultiset<T>(r: seq<T>, c: seq<T>)
    requires multiset(r) <= multiset(c) && |r| == |c|
    ensures multiset(r) == multiset(c)
  {
    var d := multiset(c) - multiset(r);
    assert multiset(c) == multiset(r) + d;
    assert |multiset(c)| == |multiset(r)| + |d|;
  }

  /** The JSON dashboard as written, with the same unguarded division. */
  function MobileRecentActivitiesAsWritten(attempts: seq<AttemptLog>, lessons: seq<LessonLog>): (r: Result<seq<Activity>>)
    ensures r.Ok? ==> Seqs.SortedDesc(r.value, TimeKey)
    ensures r.Err? <==> ZeroPointQuiz(Seqs.TopK(attempts, QueryLimit, AttemptKey))
    ensures r.Ok? ==> |r.value| == |MobileCandidates(attempts, lessons)|
  {
    var top := Seqs.TopK(attempts, QueryLimit, AttemptKey);
    AsWrittenFailsIffZero(top);
    match AttemptActivitiesAsWritten(top)
    case Err(e) => Err(e)
    case Ok(qs) => Ok(Newest(qs + LessonActivities(Seqs.TopK(lessons, QueryLimit, LessonKey))))
  }

  /** The guarded JSON feed agrees with the written one whenever the written one
      renders. */
  lemma MobileGuardAgrees(attempts: seq<AttemptLog>, lessons: seq<LessonLog>)
    requires forall i :: 0 <= i < |attempts| ==> attempts[i].totalPoints >= 0
    requires MobileRecentActivitiesAsWritten(attempts, lessons).Ok?
    ensures MobileRecentActivitiesAsWritten(attempts, lessons).value ==
              MobileRecentActivities(attempts, lessons)
  {
    var top := Seqs.TopK(attempts, QueryLimit, AttemptKey);
    forall i | 0 <= i < |top| ensures top[i].totalPoints >= 0 {
      assert top[i] in multiset(attempts);
    }
    AsWrittenAgreesUnlessZero(top);
  }

  lemma EmptyQuizBreaksMobileDashboard(t: Timestamp)
    ensures var a := AttemptLog(t, Some("student1"), Some("Empty quiz"), 0, 0);
            MobileRecentActivitiesAsWritten([a], []).Err?
  {
    var a := AttemptLog(t, Some("student1"), Some("Empty quiz"), 0, 0);
    assert Seqs.TopK([a], QueryLimit, AttemptKey) == [a] by {
      var r := Seqs.TopK([a], QueryLimit, AttemptKey);
      assert |r| == 1;
      assert r[0] in multiset([a]);
    }
    assert ZeroPointQuiz([a]) by { assert Joined([a][0]); }
  }
}

=== FILE: cohort.dfy ===
/** Cohort analytics: `analyze_class_performance` and its helpers, from the per-student
    feature rows to distribution buckets, clusters, at-risk students, top performers,
    engagement buckets and class-level advice. The k-means labels are an input. */
module Cohort {
  import opened Stats
  import opened Records
  import Seqs
  import Text
  import StudentAnalysis

  /** One entry of `all_students_data`, with the two library-computed values its
      single-student analysis needs (see `StudentAnalysis.AnalyzeStudent`). */
  datatype StudentData = StudentData(
    id: int,
    interactions: seq<Interaction>,
    attempts: seq<Attempt>,
    cv: real,
    fit: real)

  predicate ValidCohort(students: seq<StudentData>) {
    forall i :: 0 <= i < |students| ==> students[i].cv >= 0.0
  }

  /** A row of `class_df`. */
  datatype ClassRow = ClassRow(
    studentId: int,
    avgScore: real,
    engagement: real,
    progressRate: real,
    quizCount: nat,
    lessonViews: nat,
    cluster: nat)

  /** Clustering needs at least three students. */
  const MinStudentsForClustering: nat := 3
  const ClusterCount: nat := 3

  /** A k-means labelling usable for a cohort of `n` students. */
  predicate ValidLabels(labels: seq<nat>, n: nat) {
    n >= MinStudentsForClustering ==>
      |labels| == n && forall i :: 0 <= i < |labels| ==> labels[i] < ClusterCount
  }

  function LessonViews(xs: seq<Interaction>): (n: nat)
    ensures n <= |xs|
  {
    if |xs| == 0 then 0
    else (if xs[0].kind == "lesson_view" then 1 else 0) + LessonViews(xs[1..])
  }

  /** `analyze_student_performance` for every student, in order. */
  function Analyses(students: seq<StudentData>): (as_: seq<StudentAnalysis.Analysis>)
    requires ValidCohort(students)
    ensures |as_| == |students|
  {
    seq(|students|, i requires 0 <= i < |students| =>
      StudentAnalysis.AnalyzeStudent(students[i].interactions, students[i].attempts,
                                     students[i].cv, students[i].fit))
  }

  /** One row of `_extract_class_features`: score, engagement and slope from the
      student's analysis, counts from the raw data. */
  function FeatureRow(s: StudentData, a: StudentAnalysis.Analysis, cluster: nat): ClassRow {
    ClassRow(s.id, a.metrics.averageScore, a.engagement, a.progress.slope,
             |s.attempts|, LessonViews(s.interactions), cluster)
  }

  /** The `cluster` column: the k-means label with three or more students, group 0
      otherwise. */
  function ClusterColumn(n: nat, labels: seq<nat>): (cs: seq<nat>)
    requires ValidLabels(labels, n)
    ensures |cs| == n
    ensures forall i :: 0 <= i < n ==> cs[i] < ClusterCount
    ensures n < MinStudentsForClustering ==> forall i :: 0 <= i < n ==> cs[i] == 0
    ensures n >= MinStudentsForClustering ==> cs == labels
  {
    if n >= MinStudentsForClustering then labels else seq(n, i => 0)
  }

  /** One feature row per student, in order, from the students' analyses and cluster
      labels. */
  function FeatureRows(students: seq<StudentData>, analyses: seq<StudentAnalysis.Analysis>,
                       clusters: seq<nat>): (rows: seq<ClassRow>)
    requires |analyses| == |students| && |clusters| == |students|
    ensures |rows| == |students|
    ensures forall i :: 0 <= i < |rows| ==>
              && rows[i].studentId == students[i].id
              && rows[i].quizCount == |students[i].attempts|
              && rows[i].cluster == clusters[i]
  {
    if |students| == 0 then []
    else
      var n := |students| - 1;
      FeatureRows(students[..n], analyses[..n], clusters[..n])
        + [FeatureRow(students[n], analyses[n], clusters[n])]
  }

  lemma {:induction false} FeatureRowAt(students: seq<StudentData>, analyses: seq<StudentAnalysis.Analysis>,
                                        clusters: seq<nat>, i: nat)
    requires |analyses| == |students| && |clusters| == |students|
    requires i < |students|
    ensures FeatureRows(students, analyses, clusters)[i] == FeatureRow(students[i], analyses[i], clusters[i])
  {
    var n := |students| - 1;
    if i < n {
      FeatureRowAt(students[..n], analyses[..n], clusters[..n], i);
    }
  }

  /** The feature table `_extract_class_features` builds, with its `cluster` column. */
  function ClassRows(students: seq<StudentData>, labels: seq<nat>): (rows: seq<ClassRow>)
    requires ValidCohort(students)
    requires ValidLabels(labels, |students|)
    ensures |rows| == |students|
    ensures forall i :: 0 <= i < |rows| ==>
              rows[i].studentId == students[i].id && rows[i].quizCount == |students[i].attempts|
    ensures forall i :: 0 <= i < |rows| ==> rows[i].cluster < ClusterCount
    ensures |students| < MinStudentsForClustering ==>
              forall i :: 0 <= i < |rows| ==> rows[i].cluster == 0
    ensures |students| >= MinStudentsForClustering ==>
              forall i :: 0 <= i < |rows| ==> rows[i].cluster == labels[i]
  {
    FeatureRows(students, Analyses(students), ClusterColumn(|students|, labels))
  }

  /** Row `i` of the feature table carries student `i`'s average score, engagement score
      and trend slope. */
  lemma ClassRowOfStudent(students: seq<StudentData>, labels: seq<nat>, i: nat)
    requires ValidCohort(students)
    requires ValidLabels(labels, |students|)
    requires i < |students|
    ensures var a := StudentAnalysis.AnalyzeStudent(students[i].interactions, students[i].attempts,
                                                    students[i].cv, students[i].fit);
            var r := ClassRows(students, labels)[i];
            && r.avgScore == a.metrics.averageScore
            && r.engagement == a.engagement
            && r.progressRate == a.progress.slope
            && r.lessonViews == LessonViews(students[i].interactions)
  {
    FeatureRowAt(students, Analyses(students), ClusterColumn(|students|, labels), i);
  }

  function Scores(rows: seq<ClassRow>): (xs: seq<real>)
    ensures |xs| == |rows| && forall i :: 0 <= i < |rows| ==> xs[i] == rows[i].avgScore
  {
    seq(|rows|, i requires 0 <= i < |rows| => rows[i].avgScore)
  }

  function Engagements(rows: seq<ClassRow>): (xs: seq<real>)
    ensures |xs| == |rows| && forall i :: 0 <= i < |rows| ==> xs[i] == rows[i].engagement
  {
    seq(|rows|, i requires 0 <= i < |rows| => rows[i].engagement)
  }

  function CountRows(rows: seq<ClassRow>, p: ClassRow -> bool): (n: nat)
    ensures n <= |rows|
  {
    if |rows| == 0 then 0 else (if p(rows[0]) then 1 else 0) + CountRows(rows[1..], p)
  }

  function SumQuizCounts(rows: seq<ClassRow>): nat {
    if |rows| == 0 then 0 else rows[0].quizCount + SumQuizCounts(rows[1..])
  }

  function SumLessonViews(rows: seq<ClassRow>): nat {
    if |rows| == 0 then 0 else rows[0].lessonViews + SumLessonViews(rows[1..])
  }

  // ---- overview ----

  datatype Overview = Overview(
    totalStudents: nat,
    averageScore: real,
    averageEngagement: real,
    totalQuizAttempts: nat,
    totalLessonViews: nat)

  /** `_calculate_class_overview`. */
  function ClassOverview(rows: seq<ClassRow>): (o: Overview)
    ensures o.totalStudents == |rows|
    ensures |rows| > 0 ==> Minimum(Scores(rows)) <= o.averageScore <= Maximum(Scores(rows))
    ensures |rows| > 0 ==>
              Minimum(Engagements(rows)) <= o.averageEngagement <= Maximum(Engagements(rows))
    ensures |rows| == 0 ==> o == Overview(0, 0.0, 0.0, 0, 0)
    ensures o.totalQuizAttempts == SumQuizCounts(rows) && o.totalLessonViews == SumLessonViews(rows)
    ensures |rows| > 0 ==>
              o.averageScore == Mean(Scores(rows)) && o.averageEngagement == Mean(Engagements(rows))
  {
    if |rows| == 0 then Overview(0, 0.0, 0.0, 0, 0)
    else
      MeanBetweenExtremes(Scores(rows));
      MeanBetweenExtremes(Engagements(rows));
      Overview(|rows|, Mean(Scores(rows)), Mean(Engagements(rows)),
               SumQuizCounts(rows), SumLessonViews(rows))
  }

  /** The two totals are sums over the students: the overview of two classes taken
      together counts the attempts and views of both. */
  lemma {:induction false} OverviewTotalsAdd(a: seq<ClassRow>, b: seq<ClassRow>)
    ensures ClassOverview(a + b).totalStudents == ClassOverview(a).totalStudents + ClassOverview(b).totalStudents
    ensures ClassOverview(a + b).totalQuizAttempts ==
            ClassOverview(a).totalQuizAttempts + ClassOverview(b).totalQuizAttempts
    ensures ClassOverview(a + b).totalLessonViews ==
            ClassOverview(a).totalLessonViews + ClassOverview(b).totalLessonViews
  {
    SumsAdd(a, b);
  }

  lemma {:induction false} SumsAdd(a: seq<ClassRow>, b: seq<ClassRow>)
    ensures SumQuizCounts(a + b) == SumQuizCounts(a) + SumQuizCounts(b)
    ensures SumLessonViews(a + b) == SumLessonViews(a) + SumLessonViews(b)
  {
    if |a| > 0 {
      assert (a + b)[1..] == a[1..] + b;
      SumsAdd(a[1..], b);
    } else {
      assert a + b == b;
    }
  }

  // ---- performance distribution ----

  predicate Excellent(r: ClassRow) { r.avgScore >= 90.0 }
  predicate Good(r: ClassRow) { 80.0 <= r.avgScore < 90.0 }
  predicate Satisfactory(r: ClassRow) { 70.0 <= r.avgScore < 80.0 }
  predicate NeedsImprovement(r: ClassRow) { r.avgScore < 70.0 }

  datatype Distribution = Distribution(excellent: nat, good: nat, satisfactory: nat, needsImprovement: nat) {
    function Total(): nat { excellent + good + satisfactory + needsImprovement }
  }

  lemma {:induction false} DistributionPartition(rows: seq<ClassRow>)
    ensures CountRows(rows, Excellent) + CountRows(rows, Good)
          + CountRows(rows, Satisfactory) + CountRows(rows, NeedsImprovement) == |rows|
  {
    if |rows| > 0 {
      DistributionPartition(rows[1..]);
    }
  }

  /** `_analyze_performance_distribution`: the four score buckets split the class. */
  function PerformanceDistribution(rows: seq<ClassRow>): (d: Distribution)
    ensures d.Total() == |rows|
    ensures d.excellent == CountRows(rows, Excellent)
    ensures d.good == CountRows(rows, Good)
    ensures d.satisfactory == CountRows(rows, Satisfactory)
    ensures d.needsImprovement == CountRows(rows, NeedsImprovement)
  {
    DistributionPartition(rows);
    Distribution(CountRows(rows, Excellent), CountRows(rows, Good),
                 CountRows(rows, Satisfactory), CountRows(rows, NeedsImprovement))
  }

  // ---- engagement buckets ----

  predicate HighlyEngaged(r: ClassRow) { r.engagement >= 70.0 }
  predicate ModeratelyEngaged(r: ClassRow) { 40.0 <= r.engagement < 70.0 }
  predicate LowEngagement(r: ClassRow) { r.engagement < 40.0 }

  datatype EngagementInsights = EngagementInsights(
    highlyEngaged: nat, moderatelyEngaged: nat, lowEngagement: nat, averageEngagement: real)
  {
    function Total(): nat { highlyEngaged + moderatelyEngaged + lowEngagement }
  }

  lemma {:induction false} EngagementPartition(rows: seq<ClassRow>)
    ensures CountRows(rows, HighlyEngaged) + CountRows(rows, ModeratelyEngaged)
          + CountRows(rows, LowEngagement) == |rows|
  {
    if |rows| > 0 {
      EngagementPartition(rows[1..]);
    }
  }

  /** `_analyze_class_engagement`: the three engagement buckets split the class. */
  function ClassEngagement(rows: seq<ClassRow>): (e: EngagementInsights)
    ensures e.Total() == |rows|
    ensures e.highlyEngaged == CountRows(rows, HighlyEngaged)
    ensures e.moderatelyEngaged == CountRows(rows, ModeratelyEngaged)
    ensures e.lowEngagement == CountRows(rows, LowEngagement)
    ensures |rows| > 0 ==> e.averageEngagement == Mean(Engagements(rows))
    ensures |rows| == 0 ==> e == EngagementInsights(0, 0, 0, 0.0)
  {
    EngagementPartition(rows);
    EngagementInsights(CountRows(rows, HighlyEngaged), CountRows(rows, ModeratelyEngaged),
                       CountRows(rows, LowEngagement),
                       if |rows| == 0 then 0.0 else Mean(Engagements(rows)))
  }

  // ---- student groups ----

  datatype Profile = HighPerformers | GoodButDisengaged | NeedingSupport | AveragePerformers {
    function Description(): string {
      match this
      case HighPerformers => "High performers with strong engagement"
      case GoodButDisengaged => "Good performers but low engagement"
      case NeedingSupport => "Students needing additional support"
      case AveragePerformers => "Average performers"
    }
  }

  /** `_describe_cluster`: the first matching rule on the group's mean score and mean
      engagement. */
  function DescribeCluster(avgScore: real, avgEngagement: real): (p: Profile)
    ensures p == HighPerformers <==> avgScore >= 80.0 && avgEngagement >= 70.0
    ensures p == GoodButDisengaged <==>
              !(avgScore >= 80.0 && avgEngagement >= 70.0) && avgScore >= 70.0 && avgEngagement < 50.0
    ensures p == NeedingSupport <==> avgScore < 60.0
    ensures p == AveragePerformers ==> 60.0 <= avgScore
  {
    if avgScore >= 80.0 && avgEngagement >= 70.0 then HighPerformers
    else if avgScore >= 70.0 && avgEngagement < 50.0 then GoodButDisengaged
    else if avgScore < 60.0 then NeedingSupport
    else AveragePerformers
  }

  datatype Group = Group(cluster: nat, size: nat, avgScore: real, avgEngagement: real, profile: Profile)

  function Clusters(rows: seq<ClassRow>): (cs: seq<nat>)
    ensures |cs| == |rows| && forall i :: 0 <= i < |rows| ==> cs[i] == rows[i].cluster
  {
    seq(|rows|, i requires 0 <= i < |rows| => rows[i].cluster)
  }

  /** The rows of cluster `c`, in table order. */
  function Members(rows: seq<ClassRow>, c: nat): (ms: seq<ClassRow>)
    ensures |ms| <= |rows|
    ensures forall m :: m in ms ==> m in rows && m.cluster == c
  {
    if |rows| == 0 then []
    else
      var n := |rows| - 1;
      Members(rows[..n], c) + (if rows[n].cluster == c then [rows[n]] else [])
  }

  /** A cluster has as many members as rows carrying its label. */
  lemma {:induction false} MembersCount(rows: seq<ClassRow>, c: nat)
    ensures |Members(rows, c)| == Seqs.Count(Clusters(rows), c)
  {
    if |rows| > 0 {
      var n := |rows| - 1;
      MembersCount(rows[..n], c);
      assert Clusters(rows)[..n] == Clusters(rows[..n]);
    }
  }

  function GroupOf(rows: seq<ClassRow>, c: nat): (g: Group)
    requires c in Clusters(rows)
    ensures g.cluster == c && g.size == Seqs.Count(Clusters(rows), c) && g.size > 0
    ensures g.size == |Members(rows, c)|
    ensures g.avgScore == Mean(Scores(Members(rows, c)))
    ensures g.avgEngagement == Mean(Engagements(Members(rows, c)))
    ensures g.profile == DescribeCluster(g.avgScore, g.avgEngagement)
  {
    var ms := Members(rows, c);
    MembersCount(rows, c);
    var score, engagement := Mean(Scores(ms)), Mean(Engagements(ms));
    Group(c, |ms|, score, engagement, DescribeCluster(score, engagement))
  }

  function SumSizes(gs: seq<Group>): nat {
    if |gs| == 0 then 0 else SumSizes(gs[..|gs| - 1]) + gs[|gs| - 1].size
  }

  /** One group per label of `cs`, in that order. */
  function GroupsOf(rows: seq<ClassRow>, cs: seq<nat>): (gs: seq<Group>)
    requires forall c :: c in cs ==> c in Clusters(rows)
    ensures |gs| == |cs|
    ensures forall k :: 0 <= k < |cs| ==>
              gs[k].cluster == cs[k] && gs[k].size == Seqs.Count(Clusters(rows), cs[k]) && gs[k].size > 0
    ensures forall k :: 0 <= k < |cs| ==> gs[k] == GroupOf(rows, cs[k])
  {
    seq(|cs|, k requires 0 <= k < |cs| => GroupOf(rows, cs[k]))
  }

  /** The group sizes add up to the rows counted under the labels `cs`. */
  lemma {:induction false} GroupSizes(rows: seq<ClassRow>, cs: seq<nat>)
    requires forall c :: c in cs ==> c in Clusters(rows)
    ensures SumSizes(GroupsOf(rows, cs)) == Seqs.SumCounts(Clusters(rows), cs)
  {
    if |cs| > 0 {
      var n := |cs| - 1;
      GroupSizes(rows, cs[..n]);
      assert GroupsOf(rows, cs)[..n] == GroupsOf(rows, cs[..n]);
    }
  }

  /** Every cluster label present in the table has a group. */
  lemma {:induction false} GroupsCover(rows: seq<ClassRow>, cs: seq<nat>, gs: seq<Group>)
    requires forall c :: c in cs ==> c in Clusters(rows)
    requires forall c :: c in Clusters(rows) ==> c in cs
    requires gs == GroupsOf(rows, cs)
    ensures forall c :: c in Clusters(rows) <==> exists k :: 0 <= k < |gs| && gs[k].cluster == c
  {
    forall c | c in Clusters(rows) ensures exists k :: 0 <= k < |gs| && gs[k].cluster == c {
      var k :| 0 <= k < |cs| && cs[k] == c;
      assert gs[k].cluster == c;
    }
    forall k | 0 <= k < |gs| ensures gs[k].cluster in Clusters(rows) {
      assert cs[k] in cs;
    }
  }

  /** `_analyze_student_groups`: one group per cluster label, in order of first
      appearance; the group sizes add up to the number of students. */
  function StudentGroups(rows: seq<ClassRow>): (gs: seq<Group>)
    ensures |gs| == |Seqs.Distinct(Clusters(rows))|
    ensures forall k :: 0 <= k < |gs| ==>
              gs[k].cluster == Seqs.Distinct(Clusters(rows))[k] && gs[k].size > 0
    ensures forall c :: c in Clusters(rows) <==> exists k :: 0 <= k < |gs| && gs[k].cluster == c
    ensures forall k :: 0 <= k < |gs| ==> gs[k].size == Seqs.Count(Clusters(rows), gs[k].cluster)
    ensures SumSizes(gs) == |rows|
    ensures forall k :: 0 <= k < |gs| ==> gs[k] == GroupOf(rows, Seqs.Distinct(Clusters(rows))[k])
  {
    var cs := Seqs.Distinct(Clusters(rows));
    Seqs.SumCountsPartition(Clusters(rows), cs);
    var gs := GroupsOf(rows, cs);
    GroupsCover(rows, cs, gs);
    GroupSizes(rows, cs);
    gs
  }

  // ---- at-risk students and top performers ----

  /** `avg_score < 60 | engagement < 30 | progress_rate < -2`. */
  predicate AtRisk(r: ClassRow) {
    r.avgScore < 60.0 || r.engagement < 30.0 || r.progressRate < -2.0
  }

  /** `avg_score >= 85 & engagement >= 70`. */
  predicate TopCandidate(r: ClassRow) {
    r.avgScore >= 85.0 && r.engagement >= 70.0
  }

  /** The `student_id`, `avg_score`, `engagement` record reported for a student. */
  datatype Summary = Summary(studentId: int, avgScore: real, engagement: real)

  function Summarize(r: ClassRow): Summary {
    Summary(r.studentId, r.avgScore, r.engagement)
  }

  function Summaries(rows: seq<ClassRow>): (ss: seq<Summary>)
    ensures |ss| == |rows| && forall i :: 0 <= i < |rows| ==> ss[i] == Summarize(rows[i])
  {
    seq(|rows|, i requires 0 <= i < |rows| => Summarize(rows[i]))
  }

  /** The rows satisfying `p`, in table order: a boolean-mask selection `df[mask]`. */
  function RowsWhere(rows: seq<ClassRow>, p: ClassRow -> bool): (rs: seq<ClassRow>)
    ensures forall r :: r in rs <==> r in rows && p(r)
    ensures Seqs.Subsequence(rs, rows)
    ensures |rs| == CountRows(rows, p)
  {
    if |rows| == 0 then []
    else
      var rest := RowsWhere(rows[1..], p);
      assert forall r :: r in rows <==> r == rows[0] || r in rows[1..];
      if p(rows[0]) then [rows[0]] + rest else rest
  }

  /** `_identify_at_risk_students`: exactly the students meeting one of the three risk
      conditions, in table order. */
  function AtRiskStudents(rows: seq<ClassRow>): (ss: seq<Summary>)
    ensures |ss| == CountRows(rows, AtRisk)
    ensures forall r :: r in rows && AtRisk(r) ==> Summarize(r) in ss
    ensures forall s :: s in ss ==> exists r :: r in rows && AtRisk(r) && Summarize(r) == s
    ensures ss == Summaries(RowsWhere(rows, AtRisk))
  {
    var rs := RowsWhere(rows, AtRisk);
    assert forall r :: r in rs ==> Summarize(r) in Summaries(rs) by {
      forall r | r in rs ensures Summarize(r) in Summaries(rs) {
        var i :| 0 <= i < |rs| && rs[i] == r;
        assert Summaries(rs)[i] == Summarize(r);
      }
    }
    Summaries(rs)
  }

  function ScoreKey(r: ClassRow): real {
    r.avgScore
  }

  const TopPerformerLimit: nat := 5

  /** The candidate rows `nlargest(5, 'avg_score')` keeps. */
  function TopPerformerRows(rows: seq<ClassRow>): (ts: seq<ClassRow>)
    ensures |ts| == Seqs.Min(TopPerformerLimit, CountRows(rows, TopCandidate))
    ensures forall r :: r in ts ==> r in rows && TopCandidate(r)
    ensures forall i, j :: 0 <= i < j < |ts| ==> ts[i].avgScore >= ts[j].avgScore
    ensures multiset(ts) <= multiset(RowsWhere(rows, TopCandidate))
  {
    var cands := RowsWhere(rows, TopCandidate);
    var ts := Seqs.TopK(cands, TopPerformerLimit, ScoreKey);
    forall r | r in ts ensures r in cands {
      assert r in multiset(ts);
    }
    ts
  }

  /** No candidate left out of the top performers scores higher than one kept. */
  lemma TopPerformersMaximal(rows: seq<ClassRow>, r: ClassRow)
    requires r in multiset(RowsWhere(rows, TopCandidate)) - multiset(TopPerformerRows(rows))
    ensures forall j | 0 <= j < |TopPerformerRows(rows)| ::
              r.avgScore <= TopPerformerRows(rows)[j].avgScore
  {
    Seqs.TopKMaximal(RowsWhere(rows, TopCandidate), TopPerformerLimit, ScoreKey, r);
  }

  /** `_identify_top_performers`: at most five candidates with score >= 85 and
      engagement >= 70, highest score first; no candidate left out scores higher than
      one reported. */
  function TopPerformers(rows: seq<ClassRow>): (ss: seq<Summary>)
    ensures |ss| <= TopPerformerLimit
    ensures |ss| == Seqs.Min(TopPerformerLimit, CountRows(rows, TopCandidate))
    ensures forall s :: s in ss ==> s.avgScore >= 85.0 && s.engagement >= 70.0
    ensures forall i, j :: 0 <= i < j < |ss| ==> ss[i].avgScore >= ss[j].avgScore
    ensures forall s :: s in ss ==> exists r :: r in rows && TopCandidate(r) && Summarize(r) == s
    ensures ss == Summaries(TopPerformerRows(rows))
  {
    var ts := TopPerformerRows(rows);
    var ss := Summaries(ts);
    forall s | s in ss
      ensures s.avgScore >= 85.0 && s.engagement >= 70.0
      ensures exists r :: r in rows && TopCandidate(r) && Summarize(r) == s
    {
      var i :| 0 <= i < |ss| && ss[i] == s;
      assert ts[i] in ts;
    }
    ss
  }

  /** At-risk and top performers can overlap: a student with score 90, engagement 80
      and slope -3 is in both lists. */
  lemma AtRiskAndTopCanOverlap()
    ensures var rows := [ClassRow(1, 90.0, 80.0, -3.0, 0, 0, 0)];
            Summary(1, 90.0, 80.0) in AtRiskStudents(rows) &&
            Summary(1, 90.0, 80.0) in TopPerformers(rows)
  {
    var rows := [ClassRow(1, 90.0, 80.0, -3.0, 0, 0, 0)];
    assert CountRows(rows, TopCandidate) == 1 by {
      assert rows[1..] == [];
    }
    var ts := TopPerformerRows(rows);
    assert |ts| == 1;
    assert ts[0] in rows;
    assert Summaries(ts)[0] == Summary(1, 90.0, 80.0);
  }

  // ---- class recommendations ----

  datatype ClassRecommendation = ReviewCurriculum | IncreaseInteractivity | ProvideSupport(count: nat) {

    function Action(): string {
      match this
      case ReviewCurriculum => "review_curriculum"
      case IncreaseInteractivity => "increase_interactivity"
      case ProvideSupport(_) => "provide_support"
    }

    /** The English `message`; the support message names the number of students. */
    function Message(): string {
      match this
      case ReviewCurriculum =>
        "Class average is below target. Consider reviewing teaching methods or content difficulty."
      case IncreaseInteractivity =>
        "Low class engagement. Consider adding more interactive content."
      case ProvideSupport(n) => Text.NatToString(n) + " students need additional support."
    }
  }

  /** `_generate_class_recommendations`: curriculum review below a 70 class average,
      more interactivity below a 50 mean engagement, support when more than 20% of the
      class is at risk; all high priority, in that order. */
  function ClassRecommendations(rows: seq<ClassRow>): (rs: seq<ClassRecommendation>)
    ensures |rows| == 0 ==> rs == []
    ensures |rows| > 0 ==> (ReviewCurriculum in rs <==> Mean(Scores(rows)) < 70.0)
    ensures |rows| > 0 ==> (IncreaseInteractivity in rs <==> Mean(Engagements(rows)) < 50.0)
    ensures (exists k :: 0 <= k < |rs| && rs[k].ProvideSupport?) <==>
              CountRows(rows, AtRisk) as real > |rows| as real * 0.2
    ensures forall k :: 0 <= k < |rs| && rs[k].ProvideSupport? ==>
              rs[k].count == CountRows(rows, AtRisk) && k == |rs| - 1
    ensures |rs| <= 3
  {
    if |rows| == 0 then []
    else
    var atRisk := CountRows(rows, AtRisk);
      var review := if Mean(Scores(rows)) < 70.0 then [ReviewCurriculum] else [];
    var interact := if Mean(Engagements(rows)) < 50.0 then [IncreaseInteractivity] else [];
    var support := if atRisk as real > |rows| as real * 0.2 then [ProvideSupport(atRisk)] else [];
    var rs := review + interact + support;
    assert forall k :: 0 <= k < |review + interact| ==> !rs[k].ProvideSupport?;
    assert |support| == 1 ==> rs[|rs| - 1].ProvideSupport?;
    rs
  }

  // ---- entry point ----

  datatype ClassAnalysis = ClassAnalysis(
    overview: Overview,
    distribution: Distribution,
    groups: seq<Group>,
    atRisk: seq<Summary>,
    topPerformers: seq<Summary>,
    engagement: EngagementInsights,
    recommendations: seq<ClassRecommendation>)

  /** `_empty_class_analysis`. */
  const EmptyClassAnalysis: ClassAnalysis := ClassAnalysis(
    Overview(0, 0.0, 0.0, 0, 0),
    Distribution(0, 0, 0, 0),
    [], [], [],
    EngagementInsights(0, 0, 0, 0.0),
    [])

  /** Every group carries a label that some row carries. */
  lemma GroupsWithinClusters(rows: seq<ClassRow>)
    requires forall i :: 0 <= i < |rows| ==> rows[i].cluster < ClusterCount
    ensures forall g :: g in StudentGroups(rows) ==> g.cluster < ClusterCount && g.size > 0
  {
    var gs := StudentGroups(rows);
    forall g | g in gs ensures g.cluster < ClusterCount && g.size > 0 {
      var k :| 0 <= k < |gs| && gs[k] == g;
      assert g.cluster in Clusters(rows);
    }
  }

  /** The analysis of a feature table. On an empty table every part takes its zero
      case, which together make up `_empty_class_analysis`. */
  function AnalyzeRows(rows: seq<ClassRow>): (a: ClassAnalysis)
    requires forall i :: 0 <= i < |rows| ==> rows[i].cluster < ClusterCount
    ensures |rows| == 0 ==> a == EmptyClassAnalysis
    ensures a.overview.totalStudents == |rows|
    ensures a.distribution.Total() == |rows|
    ensures a.engagement.Total() == |rows|
    ensures SumSizes(a.groups) == |rows|
    ensures forall g :: g in a.groups ==> g.cluster < ClusterCount && g.size > 0
    ensures |a.atRisk| <= |rows|
    ensures |a.topPerformers| <= TopPerformerLimit
    ensures |a.recommendations| <= 3
    ensures && a.overview == ClassOverview(rows)
            && a.distribution == PerformanceDistribution(rows)
            && a.groups == StudentGroups(rows)
            && a.atRisk == AtRiskStudents(rows)
            && a.topPerformers == TopPerformers(rows)
            && a.engagement == ClassEngagement(rows)
            && a.recommendations == ClassRecommendations(rows)
  {
    var gs := StudentGroups(rows);
    GroupsWithinClusters(rows);
    ClassAnalysis(
      ClassOverview(rows),
      PerformanceDistribution(rows),
      gs,
      AtRiskStudents(rows),
      TopPerformers(rows),
      ClassEngagement(rows),
      ClassRecommendations(rows))
  }

  /** `analyze_class_performance` over the students in dictionary order, `labels` being
      what k-means assigns to them when there are at least three. Every student is
      counted once in the score buckets, once in the engagement buckets and once in the
      groups. */
  function AnalyzeClass(students: seq<StudentData>, labels: seq<nat>): (a: ClassAnalysis)
    requires ValidCohort(students)
    requires ValidLabels(labels, |students|)
    ensures |students| == 0 ==> a == EmptyClassAnalysis
    ensures a.overview.totalStudents == |students|
    ensures a.distribution.Total() == |students|
    ensures a.engagement.Total() == |students|
    ensures SumSizes(a.groups) == |students|
    ensures forall g :: g in a.groups ==> g.cluster < ClusterCount && g.size > 0
    ensures |a.atRisk| <= |students|
    ensures |a.topPerformers| <= TopPerformerLimit
    ensures |a.recommendations| <= 3
    ensures var rows := ClassRows(students, labels);
            && a.overview == ClassOverview(rows)
            && a.distribution == PerformanceDistribution(rows)
            && a.groups == StudentGroups(rows)
            && a.atRisk == AtRiskStudents(rows)
            && a.topPerformers == TopPerformers(rows)
            && a.engagement == ClassEngagement(rows)
            && a.recommendations == ClassRecommendations(rows)
  {
    AnalyzeRows(ClassRows(students, labels))
  }

  /** With fewer than three students there is no clustering: one group holds everybody. */
  lemma SmallClassSingleGroup(students: seq<StudentData>, labels: seq<nat>)
    requires ValidCohort(students)
    requires ValidLabels(labels, |students|)
    requires 0 < |students| < MinStudentsForClustering
    ensures var gs := AnalyzeClass(students, labels).groups;
            |gs| == 1 && gs[0].cluster == 0 && gs[0].size == |students|
  {
    var rows := ClassRows(students, labels);
    AllInGroupZero(rows);
    assert AnalyzeRows(rows).groups == StudentGroups(rows);
  }

  /** Without clustering every student lands in group 0. */
  lemma AllInGroupZero(rows: seq<ClassRow>)
    requires |rows| > 0
    requires forall i :: 0 <= i < |rows| ==> rows[i].cluster == 0
    ensures |StudentGroups(rows)| == 1
    ensures StudentGroups(rows)[0].cluster == 0
    ensures StudentGroups(rows)[0].size == |rows|
  {
    var cs := Clusters(rows);
    var ds := Seqs.Distinct(cs);
    assert 0 in cs;
    assert forall c :: c in ds ==> c == 0;
    assert SumSizes(StudentGroups(rows)) == SumSizes(StudentGroups(rows)[..0]) + StudentGroups(rows)[0].size;
  }
}

=== FILE: excel_import.dfy ===
/** `extract_users_from_excel`: user triples read from a spreadsheet in the Masar
    export layout. The workbook reader is abstracted to the column labels and the rows,
    each cell either missing (`NaN`) or its text as `str()` renders it. */
module ExcelImport {
  import opened Wrappers
  import opened Text
  import Seqs

  type Row = seq<Option<string>>

  datatype Sheet = Sheet(columns: seq<string>, rows: seq<Row>)

  datatype ExcelUser = ExcelUser(username: string, fullName: string, secretCode: string)

  const EmptyFile := "The Excel file is empty"
  const TooFewColumns := "The Excel file does not have enough columns"
  const NoValidRows := "No valid user data found in the Excel file"

  /** The columns read: account name, student name and, fifth, the secret code. */
  const UsernameColumn: nat := 0
  const NameColumn: nat := 1
  const CodeColumn: nat := 4
  const MinColumns: nat := 5

  /** A data frame has a cell for every column in every row. */
  predicate Rectangular(s: Sheet) {
    forall i :: 0 <= i < |s.rows| ==> |s.rows[i]| == |s.columns|
  }

  /** The row is read unless one of its three essential cells is missing. A row of a
      frame with at least five columns always has those cells. */
  predicate Kept(row: Row) {
    |row| >= MinColumns && row[UsernameColumn].Some? && row[NameColumn].Some? && row[CodeColumn].Some?
  }

  /** The user of a kept row: its three essential cells, stripped. */
  function RowUser(row: Row): (u: ExcelUser)
    requires Kept(row)
    ensures u.username == Strip(row[UsernameColumn].value)
    ensures u.fullName == Strip(row[NameColumn].value)
    ensures u.secretCode == Strip(row[CodeColumn].value)
  {
    ExcelUser(Strip(row[0].value), Strip(row[1].value), Strip(row[4].value))
  }

  function KeptRows(rows: seq<Row>): (ks: seq<Row>)
    ensures forall i :: 0 <= i < |ks| ==> Kept(ks[i])
    ensures forall r :: r in ks <==> r in rows && Kept(r)
    ensures Seqs.Subsequence(ks, rows)
  {
    Seqs.FilterSubsequence(rows, Kept);
    Seqs.Filter(rows, Kept)
  }

  /** The loop over `df.iterrows()`: one user per kept row, in row order. */
  function RowUsers(rows: seq<Row>): (us: seq<ExcelUser>)
    ensures |us| == |KeptRows(rows)|
    ensures forall i :: 0 <= i < |us| ==> us[i] == RowUser(KeptRows(rows)[i])
  {
    if |rows| == 0 then []
    else
      var rest := RowUsers(rows[1..]);
      KeptRowsCons(rows);
      if Kept(rows[0]) then
        Seqs.MapCons(RowUser, rows[0], KeptRows(rows[1..]), rest);
        [RowUser(rows[0])] + rest
      else rest
  }

  /** The kept rows of a sheet are its first row, when kept, before the kept rest. */
  lemma KeptRowsCons(rows: seq<Row>)
    requires |rows| > 0
    ensures KeptRows(rows) == (if Kept(rows[0]) then [rows[0]] else []) + KeptRows(rows[1..])
  {
    Seqs.FilterHead(rows, Kept);
  }

  /** `extract_users_from_excel`. */
  function ExtractUsers(sheet: Sheet): (r: Result<seq<ExcelUser>>)
    ensures |sheet.rows| == 0 || |sheet.columns| == 0 ==> r == Err(EmptyFile)
    ensures |sheet.rows| > 0 && 0 < |sheet.columns| < MinColumns ==> r == Err(TooFewColumns)
    ensures r.Ok? <==> |sheet.rows| > 0 && |sheet.columns| >= MinColumns && |KeptRows(sheet.rows)| > 0
    ensures r.Ok? ==> |r.value| > 0 && |r.value| <= |sheet.rows|
    ensures r.Ok? ==> |r.value| == |KeptRows(sheet.rows)|
    ensures r.Ok? ==> forall i :: 0 <= i < |r.value| ==> r.value[i] == RowUser(KeptRows(sheet.rows)[i])
  {
    if |sheet.rows| == 0 || |sheet.columns| == 0 then Err(EmptyFile)
    else if |sheet.columns| < MinColumns then Err(TooFewColumns)
    else
      var us := RowUsers(sheet.rows);
      if |us| == 0 then Err(NoValidRows) else Ok(us)
  }

  /** Every field read has no surrounding whitespace. */
  lemma FieldsAreStripped(sheet: Sheet, i: nat)
    requires ExtractUsers(sheet).Ok? && i < |ExtractUsers(sheet).value|
    ensures var u := ExtractUsers(sheet).value[i];
            && (|u.username| > 0 ==> !IsSpace(u.username[0]) && !IsSpace(u.username[|u.username| - 1]))
            && (|u.fullName| > 0 ==> !IsSpace(u.fullName[0]) && !IsSpace(u.fullName[|u.fullName| - 1]))
            && (|u.secretCode| > 0 ==> !IsSpace(u.secretCode[0]) && !IsSpace(u.secretCode[|u.secretCode| - 1]))
  {
  }

  /** A row missing one of its essential cells does not change the users, wherever it
      stands. */
  lemma SkippedRowIgnored(a: seq<Row>, row: Row, b: seq<Row>)
    requires !Kept(row)
    ensures RowUsers(a + [row] + b) == RowUsers(a + b)
  {
    Seqs.FilterSkips(a, row, b, Kept);
  }

  /** A sheet whose every row lacks an essential cell is refused, never read as an
      empty list. */
  lemma NoKeptRowIsAnError(sheet: Sheet)
    requires |sheet.rows| > 0 && |sheet.columns| >= MinColumns
    requires forall i :: 0 <= i < |sheet.rows| ==> !Kept(sheet.rows[i])
    ensures ExtractUsers(sheet) == Err(NoValidRows)
  {
  }
}

=== FILE: grading.dfy ===
/** Quiz grading shared by the web form (`submit_quiz` of the web application) and
    the mobile API (`submit_quiz` of the JSON API), the question payload of
    `get_quiz_detail`, the pass/fail statistics of `quiz_results`, and the average of
    `get_student_analytics`. */
module Grading {
  import opened Wrappers
  import opened Text
  import Access

  datatype Question = Question(
    id: nat,
    text: string,
    questionType: string,
    correctAnswer: string,
    points: int,
    options: Option<string>)

  predicate IsChoice(questionType: string) {
    questionType == "multiple_choice" || questionType == "true_false"
  }

  /** Whether `answer` earns the question's points: choice questions compare the
      stripped texts exactly, short answers compare them lower-cased, and any other
      question type never scores. */
  predicate IsCorrect(q: Question, answer: string) {
    if IsChoice(q.questionType) then Strip(answer) == Strip(q.correctAnswer)
    else if q.questionType == "short_answer" then Strip(Lower(answer)) == Strip(Lower(q.correctAnswer))
    else false
  }

  /** Short answers ignore letter case; choice answers do not. */
  lemma ShortAnswerIgnoresCase(q: Question, answer: string)
    requires q.questionType == "short_answer"
    ensures IsCorrect(q, answer) == IsCorrect(q, Lower(answer))
  {
    assert Lower(Lower(answer)) == Lower(answer);
  }

  lemma ChoiceIsCaseSensitive()
    ensures var q := Question(1, "Capital?", "multiple_choice", "A", 1, None);
            IsCorrect(q, "A") && !IsCorrect(q, "a")
  {
    assert Strip("A") == "A" by { assert !IsSpace("A"[0]); StripNoSpace("A"); }
    assert Strip("a") == "a" by { assert !IsSpace("a"[0]); StripNoSpace("a"); }
  }

  /** Surrounding whitespace never changes the verdict. */
  lemma PaddingIgnored(q: Question, answer: string, a: string, b: string)
    requires AllSpace(a) && AllSpace(b)
    ensures IsCorrect(q, a + answer + b) == IsCorrect(q, answer)
  {
    StripIgnoresPadding(a, answer, b);
    LoweredPaddingIgnored(a, answer, b);
  }

  lemma LoweredPaddingIgnored(a: string, answer: string, b: string)
    requires AllSpace(a) && AllSpace(b)
    ensures Strip(Lower(a + answer + b)) == Strip(Lower(answer))
  {
    assert Lower(a + answer + b) == Lower(a) + Lower(answer) + Lower(b);
    LowerKeepsSpaces(a);
    LowerKeepsSpaces(b);
    StripIgnoresPadding(Lower(a), Lower(answer), Lower(b));
  }

  // ---- totals ----

  /** The sum of all question points. */
  function TotalPoints(qs: seq<Question>): int {
    if |qs| == 0 then 0 else TotalPoints(qs[..|qs| - 1]) + qs[|qs| - 1].points
  }

  predicate NonNegativePoints(qs: seq<Question>) {
    forall i :: 0 <= i < |qs| ==> qs[i].points >= 0
  }

  /** Whether each answer `ans[i]` earns the points of question `qs[i]`. */
  function Verdicts(qs: seq<Question>, ans: seq<string>): (vs: seq<bool>)
    requires |ans| == |qs|
    ensures |vs| == |qs|
    ensures forall i :: 0 <= i < |qs| ==> vs[i] == IsCorrect(qs[i], ans[i])
  {
    seq(|qs|, i requires 0 <= i < |qs| => IsCorrect(qs[i], ans[i]))
  }

  /** The points of the questions judged correct: the running `score += points`. */
  function Earned(qs: seq<Question>, vs: seq<bool>): (score: int)
    requires |vs| == |qs|
    ensures NonNegativePoints(qs) ==> 0 <= score <= TotalPoints(qs)
  {
    if |qs| == 0 then 0
    else
      var n := |qs| - 1;
      assert NonNegativePoints(qs) ==> NonNegativePoints(qs[..n]) by {
        assert forall i :: 0 <= i < n ==> qs[..n][i] == qs[i];
      }
      Earned(qs[..n], vs[..n]) + (if vs[n] then qs[n].points else 0)
  }

  /** The points earned by the answers `ans[i]` to the questions `qs[i]`. */
  function Score(qs: seq<Question>, ans: seq<string>): (score: int)
    requires |ans| == |qs|
    ensures NonNegativePoints(qs) ==> 0 <= score <= TotalPoints(qs)
  {
    Earned(qs, Verdicts(qs, ans))
  }

  /** All answers right earn every point; all wrong earn none. */
  lemma {:induction false} EarnedExtremes(qs: seq<Question>, vs: seq<bool>)
    requires |vs| == |qs|
    ensures (forall i :: 0 <= i < |qs| ==> vs[i]) ==> Earned(qs, vs) == TotalPoints(qs)
    ensures (forall i :: 0 <= i < |qs| ==> !vs[i]) ==> Earned(qs, vs) == 0
  {
    if |qs| > 0 {
      var n := |qs| - 1;
      EarnedExtremes(qs[..n], vs[..n]);
      assert forall i :: 0 <= i < n ==> vs[..n][i] == vs[i];
    }
  }

  /** With positive points, one wrong answer is enough to miss full marks. */
  lemma {:induction false} EarnedBelowTotal(qs: seq<Question>, vs: seq<bool>, k: nat)
    requires |vs| == |qs| && k < |qs| && !vs[k]
    requires forall i :: 0 <= i < |qs| ==> qs[i].points > 0
    ensures Earned(qs, vs) < TotalPoints(qs)
  {
    var n := |qs| - 1;
    var ps, ws := qs[..n], vs[..n];
    assert forall i :: 0 <= i < n ==> ps[i] == qs[i];
    if k < n {
      assert ws[k] == vs[k];
      EarnedBelowTotal(ps, ws, k);
    } else {
      assert NonNegativePoints(ps);
    }
  }

  /** Full marks iff every answer is right (for questions worth at least a point);
      nothing iff every answer is wrong. */
  lemma ScoreExtremes(qs: seq<Question>, ans: seq<string>)
    requires |ans| == |qs|
    ensures (forall i :: 0 <= i < |qs| ==> IsCorrect(qs[i], ans[i])) ==> Score(qs, ans) == TotalPoints(qs)
    ensures (forall i :: 0 <= i < |qs| ==> !IsCorrect(qs[i], ans[i])) ==> Score(qs, ans) == 0
    ensures (forall i :: 0 <= i < |qs| ==> qs[i].points > 0) && Score(qs, ans) == TotalPoints(qs) ==>
              forall i :: 0 <= i < |qs| ==> IsCorrect(qs[i], ans[i])
  {
    var vs := Verdicts(qs, ans);
    EarnedExtremes(qs, vs);
    if (forall i :: 0 <= i < |qs| ==> qs[i].points > 0) && Score(qs, ans) == TotalPoints(qs) {
      forall k | 0 <= k < |qs| ensures IsCorrect(qs[k], ans[k]) {
        if !vs[k] {
          EarnedBelowTotal(qs, vs, k);
        }
      }
    }
  }

  /** `score / total_points if total_points > 0 else 0`: the recorded performance
      score, a fraction in `[0, 1]`. */
  function PerformanceScore(score: int, totalPoints: int): (p: real)
    ensures totalPoints > 0 ==> p * totalPoints as real == score as real
    ensures totalPoints <= 0 ==> p == 0.0
    ensures 0 <= score <= totalPoints ==> 0.0 <= p <= 1.0
  {
    if totalPoints > 0 then score as real / totalPoints as real else 0.0
  }

  /** `(score / total_points * 100) if total_points > 0 else 0`, before rounding. */
  function Percentage(score: int, totalPoints: int): (p: real)
    ensures totalPoints > 0 ==> p * totalPoints as real == 100.0 * score as real
    ensures totalPoints <= 0 ==> p == 0.0
    ensures 0 <= score <= totalPoints ==> 0.0 <= p <= 100.0
  {
    PerformanceScore(score, totalPoints) * 100.0
  }

  // ---- web form submission ----

  /** The JSON key of `q`'s answer: its id as text. */
  function AnswerKey(q: Question): string {
    NatToString(q.id)
  }


  /** The form field holding the answer to `q`: `question_<id>`. */
  function FormKey(q: Question): string {
    "question_" + NatToString(q.id)
  }

  /** Questions with distinct ids read distinct form fields. */
  lemma FormKeysDistinct(p: Question, q: Question)
    requires p.id != q.id
    ensures FormKey(p) != FormKey(q)
  {
    if FormKey(p) == FormKey(q) {
      assert FormKey(p)[9..] == NatToString(p.id);
      assert FormKey(q)[9..] == NatToString(q.id);
      NatToStringInjective(p.id, q.id);
    }
  }

  function Lookup(form: map<string, string>, key: string): Option<string> {
    if key in form then Some(form[key]) else None
  }

  /** `not answer or answer.strip() == ''`. */
  predicate Blank(answer: Option<string>) {
    answer.None? || Strip(answer.value) == ""
  }

  predicate AllAnswered(qs: seq<Question>, form: map<string, string>) {
    forall i :: 0 <= i < |qs| ==> !Blank(Lookup(form, FormKey(qs[i])))
  }

  function FormAnswers(qs: seq<Question>, form: map<string, string>): (ans: seq<string>)
    requires AllAnswered(qs, form)
    ensures |ans| == |qs|
    ensures forall i :: 0 <= i < |qs| ==> Some(ans[i]) == Lookup(form, FormKey(qs[i]))
  {
    seq(|qs|, i requires 0 <= i < |qs| => form[FormKey(qs[i])])
  }

  /** The `answers` dictionary the web route stores with an attempt: each answer
      under the text of its question's id (its JSON serialisation is not modelled);
      a repeated id keeps the later answer. */
  function StoredAnswers(qs: seq<Question>, ans: seq<string>): (m: map<string, string>)
    requires |ans| == |qs|
    ensures |qs| > 0 ==> AnswerKey(qs[|qs| - 1]) in m && m[AnswerKey(qs[|qs| - 1])] == ans[|qs| - 1]
  {
    if |qs| == 0 then map[]
    else
      var n := |qs| - 1;
      StoredAnswers(qs[..n], ans[..n])[AnswerKey(qs[n]) := ans[n]]
  }

  /** The stored keys are exactly the ids of the questions. */
  lemma {:induction false} StoredKeys(qs: seq<Question>, ans: seq<string>)
    requires |ans| == |qs|
    ensures forall k :: k in StoredAnswers(qs, ans) <==> exists i :: 0 <= i < |qs| && AnswerKey(qs[i]) == k
  {
    if |qs| > 0 {
      var n := |qs| - 1;
      StoredKeys(qs[..n], ans[..n]);
      assert forall i :: 0 <= i < n ==> qs[..n][i] == qs[i];
    }
  }

  /** Each question's answer is stored under its id unless a later question has
      the same id. */
  lemma {:induction false} StoredAnswerOf(qs: seq<Question>, ans: seq<string>, i: nat)
    requires |ans| == |qs| && i < |qs|
    requires forall j :: i < j < |qs| ==> qs[j].id != qs[i].id
    ensures AnswerKey(qs[i]) in StoredAnswers(qs, ans) && StoredAnswers(qs, ans)[AnswerKey(qs[i])] == ans[i]
  {
    var n := |qs| - 1;
    if i < n {
      var ps, as' := qs[..n], ans[..n];
      assert ps[i] == qs[i] && as'[i] == ans[i];
      assert forall j :: i < j < n ==> ps[j].id != ps[i].id by {
        assert forall j :: i < j < n ==> ps[j] == qs[j];
      }
      StoredAnswerOf(ps, as', i);
      assert StoredAnswers(qs, ans) == StoredAnswers(ps, as')[AnswerKey(qs[n]) := ans[n]];
      assert qs[n].id != qs[i].id;
      if AnswerKey(qs[n]) == AnswerKey(qs[i]) {
        NatToStringInjective(qs[n].id, qs[i].id);
      }
    }
  }

  /** A graded submission as it is written to the database: `stored` is the
      `answers` dictionary saved with it. */
  datatype Attempt = Attempt(score: int, totalPoints: int, answers: map<string, string>,
                             performanceScore: real)

  function GradeAttempt(qs: seq<Question>, ans: seq<string>, stored: map<string, string>): (a: Attempt)
    requires |ans| == |qs|
    ensures a.totalPoints == TotalPoints(qs)
    ensures a.score == Score(qs, ans)
    ensures a.answers == stored
    ensures a.performanceScore == PerformanceScore(a.score, a.totalPoints)
    ensures NonNegativePoints(qs) ==> 0 <= a.score <= a.totalPoints && 0.0 <= a.performanceScore <= 1.0
  {
    var score, total := Score(qs, ans), TotalPoints(qs);
    Attempt(score, total, stored, PerformanceScore(score, total))
  }

  /** `submit_quiz` of the web application: only students may submit, every
      question must have a non-blank answer, then the answers are graded. */
  function WebSubmitQuiz(role: string, qs: seq<Question>, form: map<string, string>): (r: Result<Attempt>)
    ensures role != "student" ==> r == Err("Access denied")
    ensures role == "student" && !AllAnswered(qs, form) ==>
              r == Err("Please answer all questions before submitting")
    ensures r.Ok? <==> role == "student" && AllAnswered(qs, form)
    ensures r.Ok? ==> r.value == GradeAttempt(qs, FormAnswers(qs, form), StoredAnswers(qs, FormAnswers(qs, form)))
  {
    if role != "student" then Err("Access denied")
    else if !AllAnswered(qs, form) then Err("Please answer all questions before submitting")
    else
      var ans := FormAnswers(qs, form);
      Ok(GradeAttempt(qs, ans, StoredAnswers(qs, ans)))
  }

  /** One whitespace-only answer is enough to refuse the whole form. */
  lemma BlankAnswerRejected(qs: seq<Question>, form: map<string, string>, k: nat)
    requires k < |qs| && FormKey(qs[k]) in form && AllSpace(form[FormKey(qs[k])])
    ensures WebSubmitQuiz("student", qs, form) == Err("Please answer all questions before submitting")
  {
    assert Blank(Lookup(form, FormKey(qs[k])));
  }

  // ---- mobile API submission ----

  /** Index of the first question whose key is missing from `answers`. */
  function FirstUnanswered(qs: seq<Question>, answers: map<string, string>): (k: Option<nat>)
    ensures k.None? <==> forall i :: 0 <= i < |qs| ==> AnswerKey(qs[i]) in answers
    ensures k.Some? ==> k.value < |qs| && AnswerKey(qs[k.value]) !in answers &&
                        forall i :: 0 <= i < k.value ==> AnswerKey(qs[i]) in answers
  {
    if |qs| == 0 then None
    else if AnswerKey(qs[0]) !in answers then Some(0)
    else
      match FirstUnanswered(qs[1..], answers)
      case None => None
      case Some(j) => Some(j + 1)
  }

  function JsonAnswers(qs: seq<Question>, answers: map<string, string>): (ans: seq<string>)
    ensures |ans| == |qs|
    ensures forall i :: 0 <= i < |qs| && AnswerKey(qs[i]) in answers ==> ans[i] == answers[AnswerKey(qs[i])]
    ensures forall i :: 0 <= i < |qs| && AnswerKey(qs[i]) !in answers ==> ans[i] == ""
  {
    seq(|qs|, i requires 0 <= i < |qs| =>
      if AnswerKey(qs[i]) in answers then answers[AnswerKey(qs[i])] else "")
  }

  /** What the endpoint returns besides storing the attempt. */
  datatype Submitted = Submitted(attempt: Attempt, percentage: real)

  /** `submit_quiz` of the JSON API, after `token_required`: students only, the quiz
      must be published and, for a student with a section, of that section; every
      question id must be a key of `answers` (blank answers are accepted); then the
      same grading as the web form. */
  function MobileSubmitQuiz(u: Access.User, quiz: Access.Item, qs: seq<Question>,
                            answers: map<string, string>): (r: Response<Submitted>)
    ensures u.role != "student" ==> r == Refuse(403, "Insufficient permissions")
    ensures u.role == "student" && !quiz.published ==> r == Refuse(403, "Quiz not available")
    ensures r.Reply? <==> u.role == "student" && Access.DetailAccess(u, quiz, Access.QuizKind).Reply? &&
                          forall i :: 0 <= i < |qs| ==> AnswerKey(qs[i]) in answers
    ensures (u.role == "student" && Access.DetailAccess(u, quiz, Access.QuizKind).Reply? &&
             exists i :: 0 <= i < |qs| && AnswerKey(qs[i]) !in answers) ==> r.Refuse? && r.status == 400
    ensures r.Refuse? && r.status == 400 ==>
              exists k :: 0 <= k < |qs| && AnswerKey(qs[k]) !in answers &&
                (forall i :: 0 <= i < k ==> AnswerKey(qs[i]) in answers) &&
                r.error == "Question " + NatToString(qs[k].id) + " not answered"
    ensures r.Reply? ==> r.value.attempt == GradeAttempt(qs, JsonAnswers(qs, answers), answers)
    ensures r.Reply? ==> r.value.attempt.answers == answers
    ensures r.Reply? ==> r.value.percentage == Percentage(r.value.attempt.score, r.value.attempt.totalPoints)
  {
    match Access.RoleRequired(u, ["student"])
    case Refuse(s, e) => Refuse(s, e)
    case Reply(_) =>
      if !quiz.published then Refuse(403, "Quiz not available")
      else if Access.HasSection(u) && quiz.sectionId != u.sectionId then Refuse(403, "Access denied")
      else
        match FirstUnanswered(qs, answers)
        case Some(k) => Refuse(400, "Question " + NatToString(qs[k].id) + " not answered")
        case None =>
          var a := GradeAttempt(qs, JsonAnswers(qs, answers), answers);
          Reply(Submitted(a, Percentage(a.score, a.totalPoints)))
  }

  /** The two submission routes grade alike: a form the web route accepts, sent as
      JSON with the same answers, earns the same score. */
  lemma {:induction false} WebAndMobileAgree(qs: seq<Question>, form: map<string, string>,
                                              answers: map<string, string>)
    requires AllAnswered(qs, form)
    requires forall i :: 0 <= i < |qs| ==>
               (AnswerKey(qs[i]) in answers && answers[AnswerKey(qs[i])] == form[FormKey(qs[i])])
    ensures FormAnswers(qs, form) == JsonAnswers(qs, answers)
    ensures Score(qs, FormAnswers(qs, form)) == Score(qs, JsonAnswers(qs, answers))
  {
  }

  /** The mobile route stores the submitted dictionary itself, extra keys included;
      what the web route would store for the same answers is part of it. */
  lemma {:induction false} StoredWithinSubmitted(qs: seq<Question>, answers: map<string, string>)
    requires forall i :: 0 <= i < |qs| ==> AnswerKey(qs[i]) in answers
    ensures forall k :: k in StoredAnswers(qs, JsonAnswers(qs, answers)) ==>
              k in answers && StoredAnswers(qs, JsonAnswers(qs, answers))[k] == answers[k]
  {
    if |qs| > 0 {
      var n := |qs| - 1;
      var ps := qs[..n];
      assert JsonAnswers(qs, answers)[..n] == JsonAnswers(ps, answers);
      StoredWithinSubmitted(ps, answers);
    }
  }

  /** The mobile route accepts a blank answer that the web form refuses. */
  lemma MobileAcceptsBlank(u: Access.User, quiz: Access.Item)
    requires u.role == "student" && quiz.published && !Access.HasSection(u)
    ensures var q := Question(1, "Q", "short_answer", "yes", 1, None);
            && MobileSubmitQuiz(u, quiz, [q], map["1" := " "]).Reply?
            && WebSubmitQuiz("student", [q], map["question_1" := " "]).Err?
  {
    var q := Question(1, "Q", "short_answer", "yes", 1, None);
    assert AnswerKey(q) == "1";
    assert FormKey(q) == "question_1";
    assert Blank(Lookup(map["question_1" := " "], FormKey([q][0])));
  }

  // ---- quiz detail ----

  /** The per-question payload of `get_quiz_detail`. `parse` stands for
      `json.loads` of the stored options (`None` when it raises). */
  datatype QuestionData = QuestionData(
    id: nat,
    text: string,
    questionType: string,
    points: int,
    options: Option<seq<string>>,
    correctAnswer: Option<string>)

  function QuestionView(u: Access.User, q: Question, parse: string -> Option<seq<string>>): (d: QuestionData)
    ensures d.correctAnswer.Some? <==> u.role != "student"
    ensures d.correctAnswer.Some? ==> d.correctAnswer.value == q.correctAnswer
    ensures d.options.Some? <==> q.questionType == "multiple_choice" && q.options.Some? && q.options.value != ""
    ensures d.options.Some? && parse(q.options.value).None? ==> d.options.value == []
    ensures d.options.Some? && parse(q.options.value).Some? ==> d.options.value == parse(q.options.value).value
    ensures (d.id, d.text, d.questionType, d.points) == (q.id, q.text, q.questionType, q.points)
  {
    var options :=
      if q.questionType == "multiple_choice" && q.options.Some? && q.options.value != "" then
        Some(parse(q.options.value).GetOr([]))
      else None;
    QuestionData(q.id, q.text, q.questionType, q.points, options,
                 if u.role != "student" then Some(q.correctAnswer) else None)
  }

  // ---- quiz_results ----

  /** A stored attempt's score and the points it was out of. */
  datatype Mark = Mark(score: int, totalPoints: int)

  function MarkPercentage(m: Mark): real {
    Percentage(m.score, m.totalPoints)
  }

  predicate Passed(m: Mark) {
    MarkPercentage(m) >= 50.0
  }

  datatype ResultStats = ResultStats(totalAttempts: nat, passed: nat, failed: nat, averageScore: real)

  function CountPassed(ms: seq<Mark>): (n: nat)
    ensures n <= |ms|
  {
    if |ms| == 0 then 0 else CountPassed(ms[..|ms| - 1]) + (if Passed(ms[|ms| - 1]) then 1 else 0)
  }

  function SumPercentages(ms: seq<Mark>): real {
    if |ms| == 0 then 0.0 else SumPercentages(ms[..|ms| - 1]) + MarkPercentage(ms[|ms| - 1])
  }

  /** The statistics of `quiz_results` (before rounding the average): only the
      owning teacher may ask; an attempt passes at 50% or more, an attempt out of no
      points counts as 0%. */
  function QuizResults(role: string, userId: int, quizOwner: int, ms: seq<Mark>): (r: Response<ResultStats>)
    ensures role != "teacher" ==> r == Refuse(403, "Access denied")
    ensures r.Reply? <==> role == "teacher" && quizOwner == userId
    ensures r.Reply? ==> r.value.totalAttempts == |ms|
    ensures r.Reply? ==> r.value.passed + r.value.failed == r.value.totalAttempts
    ensures r.Reply? ==> r.value.passed == CountPassed(ms)
    ensures r.Reply? && |ms| == 0 ==> r.value.averageScore == 0.0
    ensures r.Reply? && |ms| > 0 ==> r.value.averageScore * |ms| as real == SumPercentages(ms)
  {
    if role != "teacher" then Refuse(403, "Access denied")
    else if quizOwner != userId then
      Refuse(403, "Access denied - you can only view results for your own quizzes")
    else
      var n := |ms|;
      var passed := CountPassed(ms);
      Reply(ResultStats(n, passed, n - passed, if n > 0 then SumPercentages(ms) / n as real else 0.0))
  }

  /** Every attempt with full marks passes; every attempt out of no points fails. */
  lemma {:induction false} PassCountBounds(ms: seq<Mark>)
    ensures (forall i :: 0 <= i < |ms| ==> ms[i].totalPoints > 0 && ms[i].score == ms[i].totalPoints) ==>
              CountPassed(ms) == |ms|
    ensures (forall i :: 0 <= i < |ms| ==> ms[i].totalPoints <= 0) ==> CountPassed(ms) == 0
  {
    if |ms| > 0 {
      PassCountBounds(ms[..|ms| - 1]);
      var m := ms[|ms| - 1];
      if m.totalPoints > 0 && m.score == m.totalPoints {
        assert MarkPercentage(m) == 100.0;
      }
    }
  }

  // ---- get_student_analytics ----

  function SumScores(ms: seq<Mark>): int {
    if |ms| == 0 then 0 else SumScores(ms[..|ms| - 1]) + ms[|ms| - 1].score
  }

  function SumTotals(ms: seq<Mark>): int {
    if |ms| == 0 then 0 else SumTotals(ms[..|ms| - 1]) + ms[|ms| - 1].totalPoints
  }

  predicate ValidMark(m: Mark) {
    0 <= m.score <= m.totalPoints
  }

  lemma {:induction false} SumsBounded(ms: seq<Mark>)
    requires forall i :: 0 <= i < |ms| ==> ValidMark(ms[i])
    ensures 0 <= SumScores(ms) <= SumTotals(ms)
  {
    if |ms| > 0 {
      SumsBounded(ms[..|ms| - 1]);
    }
  }

  /** `average_percentage` of `get_student_analytics` (before rounding): all
      points earned over all points available, 0 with no attempt or no points. */
  function AveragePercentage(ms: seq<Mark>): (p: real)
    ensures |ms| == 0 ==> p == 0.0
    ensures SumTotals(ms) > 0 ==> p * SumTotals(ms) as real == 100.0 * SumScores(ms) as real
    ensures (forall i :: 0 <= i < |ms| ==> ValidMark(ms[i])) ==> 0.0 <= p <= 100.0
  {
    assert (forall i :: 0 <= i < |ms| ==> ValidMark(ms[i])) ==> 0 <= SumScores(ms) <= SumTotals(ms) by {
      if forall i :: 0 <= i < |ms| ==> ValidMark(ms[i]) {
        SumsBounded(ms);
      }
    }
    if |ms| == 0 then 0.0 else Percentage(SumScores(ms), SumTotals(ms))
  }

  /** The pooled average is not the mean of the per-attempt percentages: 1/1 and
      0/3 pool to 25% although the attempts average 50%. */
  lemma PooledIsNotMeanOfPercentages()
    ensures var ms := [Mark(1, 1), Mark(0, 3)];
            AveragePercentage(ms) == 25.0 && SumPercentages(ms) / 2.0 == 50.0
  {
    var ms := [Mark(1, 1), Mark(0, 3)];
    assert ms[..1] == [Mark(1, 1)];
    assert SumTotals(ms) == 4;
    assert SumScores(ms) == 1;
  }
}

=== FILE: lessons_screen.dfy ===
/** The pure helpers of the mobile lessons list: the search box filter
    (`handleSearch`) and the file-type icon and colour (`getFileTypeIcon`,
    `getFileTypeColor`). Component state, fetching and rendering are outside the model. */
module LessonsScreen {
  import opened Wrappers
  import opened Text
  import Seqs

  /** A lesson as the list endpoint returns it; the search reads only the title and
      the teacher's name. */
  datatype LessonItem = LessonItem(id: int, title: string, teacher: string, section: string,
                                   fileType: Option<string>)

  // ---- handleSearch ----

  /** The lower-cased title or teacher contains the lower-cased query as typed. */
  predicate Matches(query: string, l: LessonItem) {
    Contains(Lower(l.title), Lower(query)) || Contains(Lower(l.teacher), Lower(query))
  }

  /** `handleSearch`: a query that `trim()` empties shows every lesson, any other keeps
      the matching ones in list order. */
  function Search(lessons: seq<LessonItem>, query: string): (r: seq<LessonItem>)
    ensures JsBlank(query) ==> r == lessons
    ensures Seqs.Subsequence(r, lessons)
    ensures !JsBlank(query) ==> forall l :: l in r <==> l in lessons && Matches(query, l)
  {
    if JsBlank(query) then
      Seqs.SubsequenceRefl(lessons);
      lessons
    else
      var r := Seqs.Filter(lessons, l => Matches(query, l));
      assert forall l :: l in r <==> l in lessons && Matches(query, l);
      Seqs.FilterSubsequence(lessons, l => Matches(query, l));
      r
  }

  /** The query is not trimmed: a lesson titled "Algebra" is found by "Algebra" but
      not by " Algebra". */
  lemma QueryNotTrimmed(l: LessonItem)
    requires l == LessonItem(1, "Algebra", "amal", "A", None)
    ensures Search([l], "Algebra") == [l] && Search([l], " Algebra") == []
  {
    PlainQueryFinds(l);
    PaddedQueryMisses(l);
  }

  lemma PlainQueryFinds(l: LessonItem)
    requires l == LessonItem(1, "Algebra", "amal", "A", None)
    ensures Search([l], "Algebra") == [l]
  {
    assert Matches("Algebra", l) by {
      assert Lower("Algebra") == "algebra";
      assert "algebra" <= "algebra"[0..];
    }
    assert !JsSpace("Algebra"[0]);
    Seqs.FilterHead([l], (x: LessonItem) => Matches("Algebra", x));
    assert [l][1..] == [];
  }

  lemma PaddedQueryMisses(l: LessonItem)
    requires l == LessonItem(1, "Algebra", "amal", "A", None)
    ensures Search([l], " Algebra") == []
  {
    assert !Matches(" Algebra", l) by {
      assert |Lower(" Algebra")| == 8;
      assert |Lower("Algebra")| == 7 && |Lower("amal")| == 4;
    }
    assert !JsSpace(" Algebra"[1]);
  }

  /** The case of the query does not matter. */
  lemma {:induction false} SearchIgnoresCase(lessons: seq<LessonItem>, q1: string, q2: string)
    requires Lower(q1) == Lower(q2)
    ensures Search(lessons, q1) == Search(lessons, q2)
  {
    LowerKeepsSpaces(q1);
    LowerKeepsSpaces(q2);
    if !JsBlank(q1) {
      Seqs.FilterAgree(lessons, l => Matches(q1, l), l => Matches(q2, l));
    }
  }

  /** Typing more characters narrows the list: the lessons found for the longer query
      are found, in the same order, for its beginning. */
  lemma {:induction false} LongerQueryNarrows(lessons: seq<LessonItem>, query: string, more: string)
    ensures Seqs.Subsequence(Search(lessons, query + more), Search(lessons, query))
  {
    if !JsBlank(query) {
      if JsBlank(query + more) {
        assert forall i :: 0 <= i < |query| ==> (query + more)[i] == query[i];
      }
      LowerConcat(query, more);
      forall l | Matches(query + more, l) ensures Matches(query, l) {
        if Contains(Lower(l.title), Lower(query + more)) {
          ContainsPrefix(Lower(l.title), Lower(query), Lower(more));
        } else {
          ContainsPrefix(Lower(l.teacher), Lower(query), Lower(more));
        }
      }
      Seqs.FilterMonotone(lessons, l => Matches(query + more, l), l => Matches(query, l));
    }
  }

  // ---- getFileTypeIcon / getFileTypeColor ----

  /** The file types both helpers recognise, lower-case. */
  const KnownTypes: set<string> :=
    {"pdf", "ppt", "pptx", "doc", "docx", "jpg", "jpeg", "png", "mp4", "webm", "ogg"}

  const DefaultIcon := "insert-drive-file"
  const DefaultColor := "#666"

  /** `getFileTypeIcon`: the switch on `fileType?.toLowerCase()`. */
  function Icon(fileType: Option<string>): string {
    if fileType.None? then DefaultIcon
    else
      var t := Lower(fileType.value);
      if t == "pdf" then "picture-as-pdf"
      else if t == "ppt" || t == "pptx" then "slideshow"
      else if t == "doc" || t == "docx" then "description"
      else if t == "jpg" || t == "jpeg" || t == "png" then "image"
      else if t == "mp4" || t == "webm" || t == "ogg" then "play-circle-filled"
      else DefaultIcon
  }

  /** `getFileTypeColor`: the same switch with colours. */
  function Color(fileType: Option<string>): string {
    if fileType.None? then DefaultColor
    else
      var t := Lower(fileType.value);
      if t == "pdf" then "#f44336"
      else if t == "ppt" || t == "pptx" then "#ff9800"
      else if t == "doc" || t == "docx" then "#2196f3"
      else if t == "jpg" || t == "jpeg" || t == "png" then "#4caf50"
      else if t == "mp4" || t == "webm" || t == "ogg" then "#9c27b0"
      else DefaultColor
  }

  /** The kinds of file the two helpers tell apart. */
  datatype Kind = PdfKind | SlidesKind | DocumentKind | ImageKind | VideoKind | OtherKind

  /** A reference grouping of the file types, independent of the two switches. */
  function KindOf(fileType: Option<string>): (k: Kind)
    ensures k == OtherKind <==> fileType.None? || Lower(fileType.value) !in KnownTypes
  {
    if fileType.None? then OtherKind
    else
      var t := Lower(fileType.value);
      if t in {"pdf"} then PdfKind
      else if t in {"ppt", "pptx"} then SlidesKind
      else if t in {"doc", "docx"} then DocumentKind
      else if t in {"jpg", "jpeg", "png"} then ImageKind
      else if t in {"mp4", "webm", "ogg"} then VideoKind
      else OtherKind
  }

  function KindIcon(k: Kind): string {
    match k
    case PdfKind => "picture-as-pdf"
    case SlidesKind => "slideshow"
    case DocumentKind => "description"
    case ImageKind => "image"
    case VideoKind => "play-circle-filled"
    case OtherKind => DefaultIcon
  }

  function KindColor(k: Kind): string {
    match k
    case PdfKind => "#f44336"
    case SlidesKind => "#ff9800"
    case DocumentKind => "#2196f3"
    case ImageKind => "#4caf50"
    case VideoKind => "#9c27b0"
    case OtherKind => DefaultColor
  }

  /** The icon switch follows the grouping: unknown and missing types get the default. */
  lemma IconByKind(fileType: Option<string>)
    ensures Icon(fileType) == KindIcon(KindOf(fileType))
    ensures Icon(fileType) == DefaultIcon <==> fileType.None? || Lower(fileType.value) !in KnownTypes
  {
  }

  /** So does the colour switch. */
  lemma ColorByKind(fileType: Option<string>)
    ensures Color(fileType) == KindColor(KindOf(fileType))
    ensures Color(fileType) == DefaultColor <==> fileType.None? || Lower(fileType.value) !in KnownTypes
  {
  }

  /** The icon tells the kinds apart, so two types with the same icon get the same
      colour, and conversely. */
  lemma SameIconSameColor(a: Option<string>, b: Option<string>)
    ensures Icon(a) == Icon(b) <==> KindOf(a) == KindOf(b)
    ensures Icon(a) == Icon(b) <==> Color(a) == Color(b)
  {
    IconByKind(a);
    IconByKind(b);
    ColorByKind(a);
    ColorByKind(b);
  }

  /** Upper- and lower-case spellings of a type get the same icon and colour. */
  lemma TypeIgnoresCase(a: string, b: string)
    requires Lower(a) == Lower(b)
    ensures Icon(Some(a)) == Icon(Some(b)) && Color(Some(a)) == Color(Some(b))
  {
  }
}

=== FILE: patterns.dfy ===
/** Learning patterns and the engagement score: `_analyze_learning_patterns`,
    `_calculate_engagement_score`, `_calculate_consistency_score` and
    `_calculate_variety_score`. */
module Patterns {
  import opened Stats
  import opened Records
  import Seqs

  /** The readable name of the modal hour of activity. */
  datatype TimeOfDay = Morning | Afternoon | Evening | Night

  const NoData: string := "No data"

  datatype LearningPatterns = LearningPatterns(
    preferredTime: TimeOfDay,
    sessionDuration: real,
    contentPreference: string,
    learningConsistency: real)
  | NoPatterns

  // ---- preferred time ----

  function Hours(rows: seq<InteractionRow>): (hs: seq<int>)
    ensures |hs| == |rows|
    ensures forall i :: 0 <= i < |rows| ==> hs[i] == rows[i].timestamp.Hour() && 0 <= hs[i] < 24
  {
    seq(|rows|, i requires 0 <= i < |rows| => rows[i].timestamp.Hour())
  }

  function ModalHourFrom(hs: seq<int>, h: int, best: int): (m: int)
    requires 0 <= best < h <= 24
    requires forall k :: 0 <= k < h ==> Seqs.Count(hs, k) <= Seqs.Count(hs, best)
    requires forall k :: 0 <= k < best ==> Seqs.Count(hs, k) < Seqs.Count(hs, best)
    ensures 0 <= m < 24
    ensures forall k :: 0 <= k < 24 ==> Seqs.Count(hs, k) <= Seqs.Count(hs, m)
    ensures forall k :: 0 <= k < m ==> Seqs.Count(hs, k) < Seqs.Count(hs, m)
    decreases 24 - h
  {
    if h == 24 then best
    else if Seqs.Count(hs, h) > Seqs.Count(hs, best) then ModalHourFrom(hs, h + 1, h)
    else ModalHourFrom(hs, h + 1, best)
  }

  /** `hour.mode().iloc[0]`: the smallest of the most frequent hours. */
  function ModalHour(hs: seq<int>): (m: int)
    requires |hs| > 0
    requires forall i :: 0 <= i < |hs| ==> 0 <= hs[i] < 24
    ensures m in hs
    ensures forall k :: 0 <= k < 24 ==> Seqs.Count(hs, k) <= Seqs.Count(hs, m)
    ensures forall k :: 0 <= k < m ==> Seqs.Count(hs, k) < Seqs.Count(hs, m)
  {
    var m := ModalHourFrom(hs, 1, 0);
    assert Seqs.Count(hs, hs[0]) > 0;
    m
  }

  /** Morning 6-11, Afternoon 12-17, Evening 18-21, Night otherwise. */
  function TimeBucket(hour: int): (t: TimeOfDay)
    ensures t == Morning <==> 6 <= hour < 12
    ensures t == Afternoon <==> 12 <= hour < 18
    ensures t == Evening <==> 18 <= hour < 22
    ensures t == Night <==> hour < 6 || hour >= 22
  {
    if 6 <= hour < 12 then Morning
    else if 12 <= hour < 18 then Afternoon
    else if 18 <= hour < 22 then Evening
    else Night
  }

  // ---- content preference ----

  function Kinds(rows: seq<InteractionRow>): (ks: seq<string>)
    ensures |ks| == |rows|
    ensures forall i :: 0 <= i < |rows| ==> ks[i] == rows[i].kind
  {
    seq(|rows|, i requires 0 <= i < |rows| => rows[i].kind)
  }

  /** The first candidate whose count in `kinds` is largest. */
  function FirstMostFrequent(kinds: seq<string>, cands: seq<string>): (k: string)
    requires |cands| > 0
    ensures k in cands
    ensures forall c :: c in cands ==> Seqs.Count(kinds, c) <= Seqs.Count(kinds, k)
  {
    if |cands| == 1 then cands[0]
    else
      var b := FirstMostFrequent(kinds, cands[1..]);
      assert forall c :: c in cands ==> c == cands[0] || c in cands[1..];
      if Seqs.Count(kinds, cands[0]) >= Seqs.Count(kinds, b) then cands[0] else b
  }

  /** `value_counts().index[0]`: a most frequent interaction type. */
  function ContentPreference(kinds: seq<string>): (k: string)
    requires |kinds| > 0
    ensures k in kinds
    ensures forall x :: x in kinds ==> Seqs.Count(kinds, x) <= Seqs.Count(kinds, k)
  {
    FirstMostFrequent(kinds, Seqs.Distinct(kinds))
  }

  // ---- durations ----

  function Durations(rows: seq<InteractionRow>): (ds: seq<real>)
    ensures |ds| == |rows|
    ensures forall i :: 0 <= i < |rows| ==> ds[i] == rows[i].duration as real
  {
    seq(|rows|, i requires 0 <= i < |rows| => rows[i].duration as real)
  }

  predicate NonNegativeDurations(rows: seq<InteractionRow>) {
    forall i :: 0 <= i < |rows| ==> rows[i].duration >= 0
  }

  // ---- learning consistency ----

  /** The calendar days with at least one interaction (`timestamp.dt.date`). */
  function ActiveDays(rows: seq<InteractionRow>): set<int> {
    set r | r in rows :: r.timestamp.day
  }

  function LatestInstant(rows: seq<InteractionRow>): (t: int)
    requires |rows| > 0
    ensures forall i :: 0 <= i < |rows| ==> rows[i].timestamp.Instant() <= t
    ensures exists i :: 0 <= i < |rows| && rows[i].timestamp.Instant() == t
  {
    if |rows| == 1 then rows[0].timestamp.Instant()
    else
      var t := LatestInstant(rows[..|rows| - 1]);
      var u := rows[|rows| - 1].timestamp.Instant();
      assert forall i :: 0 <= i < |rows| - 1 ==> rows[..|rows| - 1][i] == rows[i];
      if u > t then u else t
  }

  function EarliestInstant(rows: seq<InteractionRow>): (t: int)
    requires |rows| > 0
    ensures forall i :: 0 <= i < |rows| ==> t <= rows[i].timestamp.Instant()
    ensures exists i :: 0 <= i < |rows| && rows[i].timestamp.Instant() == t
  {
    if |rows| == 1 then rows[0].timestamp.Instant()
    else
      var t := EarliestInstant(rows[..|rows| - 1]);
      var u := rows[|rows| - 1].timestamp.Instant();
      assert forall i :: 0 <= i < |rows| - 1 ==> rows[..|rows| - 1][i] == rows[i];
      if u < t then u else t
  }

  /** `(max - min).days`: whole days between the first and the last interaction,
      rounded down as `timedelta.days` does. */
  function SpanDays(rows: seq<InteractionRow>): (d: nat)
    requires |rows| > 0
  {
    (LatestInstant(rows) - EarliestInstant(rows)) / MicrosPerDay
  }

  /** Distinct active days over `span + 1`, as a percentage (the share of the days of
      the span with an interaction); 0 with no interaction. */
  function LearningConsistency(rows: seq<InteractionRow>): (c: real)
    ensures |rows| == 0 ==> c == 0.0
    ensures |rows| > 0 ==> c > 0.0
    ensures |rows| > 0 ==>
              IsPercentOf(c, |ActiveDays(rows)| as real, (SpanDays(rows) + 1) as real)
  {
    if |rows| == 0 then 0.0
    else
      assert rows[0].timestamp.day in ActiveDays(rows);
      Percent(|ActiveDays(rows)| as real, (SpanDays(rows) + 1) as real)
  }

  /** `c` is `n` out of `d`, as a percentage. */
  predicate IsPercentOf(c: real, n: real, d: real) {
    c * d == n * 100.0
  }

  /** `n / d * 100`. */
  function Percent(n: real, d: real): (c: real)
    requires d > 0.0
    ensures IsPercentOf(c, n, d)
    ensures n > 0.0 ==> c > 0.0
  {
    assert n / d * d == n;
    n / d * 100.0
  }

  /** The days `lo..hi`. */
  function DayRange(lo: int, hi: int): (r: set<int>)
    ensures forall x :: x in r <==> lo <= x <= hi
    ensures lo <= hi + 1 ==> |r| == hi - lo + 1
    decreases hi - lo
  {
    if lo > hi then {} else DayRange(lo, hi - 1) + {hi}
  }

  /** A set of days inside `[lo, hi]` has at most `hi - lo + 1` members. */
  lemma DaysInRange(days: set<int>, lo: int, hi: int)
    requires lo <= hi
    requires forall d :: d in days ==> lo <= d <= hi
    ensures |days| <= hi - lo + 1
  {
    var all := DayRange(lo, hi);
    assert all == days + (all - days);
    assert |all| == |days| + |all - days|;
  }

  /** The distinct calendar days can outnumber `span + 1` by one (two interactions an
      hour either side of midnight span 0 whole days but 2 dates), never by more, so
      the consistency is at most 200. */
  lemma ConsistencyAtMostTwoHundred(rows: seq<InteractionRow>)
    ensures LearningConsistency(rows) <= 200.0
  {
    if |rows| > 0 {
      ActiveDaysWithinSpan(rows);
      RatioAtMostTwo(|ActiveDays(rows)| as real, (SpanDays(rows) + 1) as real);
    }
  }

  /** Every active day lies between the days of the earliest and the latest instant. */
  lemma ActiveDaysWithinSpan(rows: seq<InteractionRow>)
    requires |rows| > 0
    ensures |ActiveDays(rows)| <= SpanDays(rows) + 2
  {
    var lo, hi := EarliestInstant(rows), LatestInstant(rows);
    var dlo, dhi := lo / MicrosPerDay, hi / MicrosPerDay;
    forall d | d in ActiveDays(rows) ensures dlo <= d <= dhi {
      var r :| r in rows && r.timestamp.day == d;
      var i :| 0 <= i < |rows| && rows[i] == r;
      assert lo <= r.timestamp.Instant() <= hi;
      DayOfInstant(r.timestamp);
    }
    assert rows[0].timestamp.day in ActiveDays(rows);
    DaysInRange(ActiveDays(rows), dlo, dhi);
  }

  lemma RatioAtMostTwo(n: real, d: real)
    requires d >= 1.0 && n <= d + 1.0
    ensures n / d * 100.0 <= 200.0
  {
    assert n <= 2.0 * d;
    assert n / d <= 2.0;
  }

  /** The consistency is not bounded by 100: interactions at 23:00 and at 01:00 the
      next day give 200. */
  lemma ConsistencyCanExceedHundred()
    ensures var rows := [
              InteractionRow(Timestamp(0, 23 * 3600, 0), "lesson_view", 1, 0, 0.0),
              InteractionRow(Timestamp(1, 1 * 3600, 0), "lesson_view", 1, 0, 0.0)];
            LearningConsistency(rows) == 200.0
  {
    var rows := [
      InteractionRow(Timestamp(0, 23 * 3600, 0), "lesson_view", 1, 0, 0.0),
      InteractionRow(Timestamp(1, 1 * 3600, 0), "lesson_view", 1, 0, 0.0)];
    assert |ActiveDays(rows)| == 2 by { assert ActiveDays(rows) == {0, 1}; }
    assert SpanDays(rows) == 0;
    assert Percent(2.0, 1.0) == 200.0;
  }

  /** The span counts whole days of elapsed time, microseconds included: from half a
      second past midnight to the next midnight is not a whole day, so two dates in a
      span of 0 days give 200. */
  lemma SpanRoundsDownBelowOneDay()
    ensures var rows := [
              InteractionRow(Timestamp(0, 0, 500000), "lesson_view", 1, 0, 0.0),
              InteractionRow(Timestamp(1, 0, 0), "lesson_view", 1, 0, 0.0)];
            SpanDays(rows) == 0 && LearningConsistency(rows) == 200.0
  {
    var rows := [
      InteractionRow(Timestamp(0, 0, 500000), "lesson_view", 1, 0, 0.0),
      InteractionRow(Timestamp(1, 0, 0), "lesson_view", 1, 0, 0.0)];
    assert |ActiveDays(rows)| == 2 by { assert ActiveDays(rows) == {0, 1}; }
    assert SpanDays(rows) == 0;
    assert Percent(2.0, 1.0) == 200.0;
  }

  /** `_analyze_learning_patterns`. */
  function AnalyzeLearningPatterns(rows: seq<InteractionRow>): (p: LearningPatterns)
    ensures |rows| == 0 <==> p == NoPatterns
    ensures p.LearningPatterns? ==>
              && p.preferredTime == TimeBucket(ModalHour(Hours(rows)))
              && p.contentPreference == ContentPreference(Kinds(rows))
              && p.contentPreference in Kinds(rows)
              && p.sessionDuration == Mean(Durations(rows))
              && p.learningConsistency == LearningConsistency(rows)
  {
    if |rows| == 0 then NoPatterns
    else
      LearningPatterns(
        TimeBucket(ModalHour(Hours(rows))),
        Mean(Durations(rows)),
        ContentPreference(Kinds(rows)),
        LearningConsistency(rows))
  }

  // ---- engagement ----

  /** `min(n / 10, 1) * 30`. */
  function FrequencyPoints(n: nat): (f: real)
    ensures 0.0 <= f <= 30.0
    ensures n >= 10 <==> f == 30.0
  {
    MinReal(n as real / 10.0, 1.0) * 30.0
  }

  /** `min(mean_duration / 300, 1) * 25`. */
  function DurationPoints(meanDuration: real): (d: real)
    ensures d <= 25.0
    ensures meanDuration >= 0.0 ==> d >= 0.0
    ensures meanDuration >= 300.0 <==> d == 25.0
  {
    MinReal(meanDuration / 300.0, 1.0) * 25.0
  }

  /** `_calculate_consistency_score`: 1 for a single active day, otherwise
      `max(0, 1 - cv)`, where `cv` is the coefficient of variation of the daily
      interaction counts (a square root, taken as an input). */
  function ConsistencyScore(rows: seq<InteractionRow>, cv: real): (c: real)
    requires cv >= 0.0
    ensures 0.0 <= c <= 1.0
    ensures |rows| == 0 ==> c == 0.0
    ensures |ActiveDays(rows)| == 1 ==> c == 1.0
    ensures |ActiveDays(rows)| > 1 ==> c == MaxReal(0.0, 1.0 - cv)
  {
    var days := |ActiveDays(rows)|;
    if days > 1 then MaxReal(0.0, 1.0 - cv)
    else if days == 1 then 1.0
    else 0.0
  }

  /** `_calculate_variety_score`: distinct interaction types over 3, capped at 1. */
  function VarietyScore(rows: seq<InteractionRow>): (v: real)
    ensures 0.0 <= v <= 1.0
    ensures |Seqs.Distinct(Kinds(rows))| >= 3 <==> v == 1.0
  {
    MinReal(|Seqs.Distinct(Kinds(rows))| as real / 3.0, 1.0)
  }

  /** `_calculate_engagement_score`: frequency (max 30) + duration (max 25) +
      consistency (max 25) + variety (max 20), capped at 100; 0 with no interaction. */
  function EngagementScore(rows: seq<InteractionRow>, cv: real): (e: real)
    requires cv >= 0.0
    ensures |rows| == 0 ==> e == 0.0
    ensures e <= 100.0
    ensures NonNegativeDurations(rows) ==> e >= 0.0
    ensures |rows| > 0 ==>
              e == MinReal(
                FrequencyPoints(|rows|) + DurationPoints(Mean(Durations(rows)))
                + ConsistencyScore(rows, cv) * 25.0 + VarietyScore(rows) * 20.0,
                100.0)
  {
    if |rows| == 0 then 0.0
    else
      var ds := Durations(rows);
      assert NonNegativeDurations(rows) ==> Mean(ds) >= 0.0 by {
        if NonNegativeDurations(rows) {
          MeanBounds(ds, 0.0, Maximum(ds));
        }
      }
      MinReal(
        FrequencyPoints(|rows|) + DurationPoints(Mean(ds))
        + ConsistencyScore(rows, cv) * 25.0 + VarietyScore(rows) * 20.0,
        100.0)
  }

  /** Ten or more interactions averaging at least five minutes, all on one day and of
      at least three types, reach the full 100 points. */
  lemma FullEngagement(rows: seq<InteractionRow>, cv: real)
    requires cv >= 0.0
    requires |rows| >= 10
    requires Mean(Durations(rows)) >= 300.0
    requires |ActiveDays(rows)| == 1
    requires |Seqs.Distinct(Kinds(rows))| >= 3
    ensures EngagementScore(rows, cv) == 100.0
  {
  }
}

=== FILE: pdf_import.dfy ===
/** `extract_users_from_pdf`: user triples read from the form fields of an uploaded
    PDF. The reader is abstracted to whether the document has an AcroForm and its
    fields in dictionary order, each with its `/V` entry already converted to text. */
module PdfImport {
  import opened Wrappers
  import opened Text
  import Seqs

  datatype Field = Field(name: string, entry: Option<string>)

  datatype PdfForm = PdfForm(hasAcroForm: bool, fields: seq<Field>)

  datatype PdfUser = PdfUser(fullName: string, username: string, secretCode: string)

  /** A group is named by the integer before the first dot, or by the whole field
      name when that prefix is not an integer. The two never collide: in Python an
      `int` key never equals a `str` key. */
  datatype GroupKey = IntKey(n: int) | NameKey(name: string)

  const NoAcroForm := "The PDF does not contain form fields"
  const NoFields := "No form fields found in the PDF"

  /** The field's `/V` entry, or `""` without one. */
  function FieldValue(f: Field): (v: string)
    ensures f.entry.Some? ==> v == f.entry.value
    ensures f.entry.None? ==> v == ""
  {
    f.entry.GetOr("")
  }

  /** The group of a field, `None` for a name without a dot (such a field is skipped). */
  function KeyOf(name: string): (k: Option<GroupKey>)
    ensures k.None? <==> '.' !in name
    ensures k.Some? && k.value.NameKey? ==>
              k.value.name == name && ParseInt(name[..IndexOf(name, '.')]).None?
    ensures k.Some? && k.value.IntKey? ==> ParseInt(name[..IndexOf(name, '.')]) == Some(k.value.n)
  {
    if '.' !in name then None
    else match ParseInt(name[..IndexOf(name, '.')])
      case Some(n) => Some(IntKey(n))
      case None => Some(NameKey(name))
  }

  /** A field reduced to what the grouping looks at: its group, if any, and its value. */
  datatype Tagged = Tagged(key: Option<GroupKey>, value: string)

  function Tag(fs: seq<Field>): (ts: seq<Tagged>)
    ensures |ts| == |fs|
    ensures forall i :: 0 <= i < |fs| ==> ts[i] == Tagged(KeyOf(fs[i].name), FieldValue(fs[i]))
  {
    seq(|fs|, i requires 0 <= i < |fs| => Tagged(KeyOf(fs[i].name), FieldValue(fs[i])))
  }

  /** The group key of every dotted field, in field order. */
  function Keys(ts: seq<Tagged>): (ks: seq<GroupKey>)
    ensures |ks| <= |ts|
  {
    if |ts| == 0 then []
    else
      var rest := Keys(ts[..|ts| - 1]);
      match ts[|ts| - 1].key
      case Some(k) => rest + [k]
      case None => rest
  }

  /** The groups, in the order their first field appears (`field_groups` is a dict). */
  function Groups(ts: seq<Tagged>): (gs: seq<GroupKey>)
    ensures Seqs.NoDup(gs)
    ensures forall k :: k in gs <==> k in Keys(ts)
  {
    Seqs.Distinct(Keys(ts))
  }

  /** `field_groups[k]`: the values of the fields of group `k`, in field order. */
  function GroupValues(ts: seq<Tagged>, k: GroupKey): seq<string> {
    if |ts| == 0 then []
    else
      var t := ts[|ts| - 1];
      GroupValues(ts[..|ts| - 1], k) + (if t.key == Some(k) then [t.value] else [])
  }

  /** A group holds as many values as its key occurs among the keys. */
  lemma {:induction false} GroupSize(ts: seq<Tagged>, k: GroupKey)
    ensures |GroupValues(ts, k)| == Seqs.Count(Keys(ts), k)
  {
    if |ts| > 0 {
      var init := ts[..|ts| - 1];
      GroupSize(init, k);
      var t := ts[|ts| - 1];
      if t.key.Some? {
        Seqs.CountAppend(Keys(init), t.key.value, k);
      }
    }
  }

  /** The user a group yields: its first three values, if it has three. */
  function UserOf(vs: seq<string>): (u: Option<PdfUser>)
    ensures u.Some? <==> |vs| >= 3
    ensures u.Some? ==> u.value.fullName == vs[0] && u.value.username == vs[1] && u.value.secretCode == vs[2]
  {
    if |vs| >= 3 then Some(PdfUser(vs[0], vs[1], vs[2])) else None
  }

  /** One user per group of at least three values, in group order. */
  function Users(ts: seq<Tagged>, gs: seq<GroupKey>): (us: seq<PdfUser>)
    ensures |us| <= |gs|
  {
    if |gs| == 0 then []
    else
      var rest := Users(ts, gs[..|gs| - 1]);
      match UserOf(GroupValues(ts, gs[|gs| - 1]))
      case Some(u) => rest + [u]
      case None => rest
  }

  /** Every user takes three values of its own group. */
  lemma {:induction false} UsersBound(ts: seq<Tagged>, gs: seq<GroupKey>)
    ensures 3 * |Users(ts, gs)| <= Seqs.SumCounts(Keys(ts), gs)
  {
    if |gs| > 0 {
      UsersBound(ts, gs[..|gs| - 1]);
      GroupSize(ts, gs[|gs| - 1]);
    }
  }

  /** Every group of at least three values yields its user. */
  lemma {:induction false} UsersComplete(ts: seq<Tagged>, gs: seq<GroupKey>, k: GroupKey)
    requires k in gs && |GroupValues(ts, k)| >= 3
    ensures UserOf(GroupValues(ts, k)).value in Users(ts, gs)
  {
    var init := gs[..|gs| - 1];
    if gs[|gs| - 1] != k {
      assert k in init by {
        var i :| 0 <= i < |gs| && gs[i] == k;
        assert init[i] == k;
      }
      UsersComplete(ts, init, k);
    }
  }

  /** The groups with at least three values, in group order: the ones that yield a user. */
  function FullGroups(ts: seq<Tagged>, gs: seq<GroupKey>): seq<GroupKey> {
    Seqs.Filter(gs, g => |GroupValues(ts, g)| >= 3)
  }

  /** `Users` yields exactly one user per full group, the i-th user from the i-th full
      group, and nothing for the smaller groups. */
  lemma {:induction false} UsersOfFullGroups(ts: seq<Tagged>, gs: seq<GroupKey>)
    ensures |Users(ts, gs)| == |FullGroups(ts, gs)|
    ensures forall i :: 0 <= i < |Users(ts, gs)| ==>
              |GroupValues(ts, FullGroups(ts, gs)[i])| >= 3 &&
              Users(ts, gs)[i] == UserOf(GroupValues(ts, FullGroups(ts, gs)[i])).value
  {
    if |gs| > 0 {
      var init, g := gs[..|gs| - 1], gs[|gs| - 1];
      UsersOfFullGroups(ts, init);
      assert gs == init + [g];
      Seqs.FilterSnoc(init, g, g' => |GroupValues(ts, g')| >= 3);
    }
  }

  /** `extract_users_from_pdf`. */
  function ExtractUsers(form: PdfForm): (r: Result<seq<PdfUser>>)
    ensures !form.hasAcroForm ==> r == Err(NoAcroForm)
    ensures form.hasAcroForm && |form.fields| == 0 ==> r == Err(NoFields)
    ensures r.Ok? <==> form.hasAcroForm && |form.fields| > 0
    ensures r.Ok? ==> |r.value| <= |Groups(Tag(form.fields))|
    ensures r.Ok? ==> 3 * |r.value| <= |form.fields|
    ensures r.Ok? ==> forall k :: k in Groups(Tag(form.fields)) && |GroupValues(Tag(form.fields), k)| >= 3 ==>
              UserOf(GroupValues(Tag(form.fields), k)).value in r.value
    ensures r.Ok? ==> r.value == Users(Tag(form.fields), Groups(Tag(form.fields)))
    ensures r.Ok? ==> |r.value| == |FullGroups(Tag(form.fields), Groups(Tag(form.fields)))|
    ensures r.Ok? ==> forall i :: 0 <= i < |r.value| ==>
              var vs := GroupValues(Tag(form.fields), FullGroups(Tag(form.fields), Groups(Tag(form.fields)))[i]);
              |vs| >= 3 && r.value[i] == PdfUser(vs[0], vs[1], vs[2])
  {
    if !form.hasAcroForm then Err(NoAcroForm)
    else if |form.fields| == 0 then Err(NoFields)
    else
      var ts := Tag(form.fields);
      var gs := Groups(ts);
      Seqs.SumCountsPartition(Keys(ts), gs);
      UsersBound(ts, gs);
      forall k | k in gs && |GroupValues(ts, k)| >= 3 ensures UserOf(GroupValues(ts, k)).value in Users(ts, gs) {
        UsersComplete(ts, gs, k);
      }
      UsersOfFullGroups(ts, gs);
      Ok(Users(ts, gs))
  }

  predicate DistinctNames(fs: seq<Field>) {
    forall i, j :: 0 <= i < j < |fs| ==> fs[i].name != fs[j].name
  }

  /** No field named `n`, no value in the group keyed by the name `n`. */
  lemma {:induction false} NameGroupEmpty(fs: seq<Field>, n: string)
    requires forall i :: 0 <= i < |fs| ==> fs[i].name != n
    ensures GroupValues(Tag(fs), NameKey(n)) == []
  {
    if |fs| > 0 {
      var init := fs[..|fs| - 1];
      NameGroupEmpty(init, n);
      assert Tag(fs)[..|fs| - 1] == Tag(init);
    }
  }

  /** With distinct field names, a group keyed by a name holds at most that one field,
      so it never yields a user: only integer prefixes can gather three values. */
  lemma {:induction false} NameGroupsAreSingletons(fs: seq<Field>, n: string)
    requires DistinctNames(fs)
    ensures |GroupValues(Tag(fs), NameKey(n))| <= 1
    ensures UserOf(GroupValues(Tag(fs), NameKey(n))).None?
  {
    if |fs| > 0 {
      var init := fs[..|fs| - 1];
      assert Tag(fs)[..|fs| - 1] == Tag(init);
      if fs[|fs| - 1].name == n {
        NameGroupEmpty(init, n);
      } else {
        NameGroupsAreSingletons(init, n);
      }
    }
  }

  /** Removing an entry without a group changes neither the keys nor any group. */
  lemma {:induction false} UngroupedIgnored(a: seq<Tagged>, t: Tagged, b: seq<Tagged>, k: GroupKey)
    requires t.key.None?
    ensures Keys(a + [t] + b) == Keys(a + b)
    ensures GroupValues(a + [t] + b, k) == GroupValues(a + b, k)
  {
    if |b| == 0 {
      assert a + [t] + b == a + [t];
      assert (a + [t])[..|a|] == a;
      assert a + b == a;
    } else {
      var b' := b[..|b| - 1];
      UngroupedIgnored(a, t, b', k);
      var x := b[|b| - 1];
      var l := a + [t] + b;
      var r := a + b;
      assert l[..|l| - 1] == a + [t] + b' && l[|l| - 1] == x;
      assert r[..|r| - 1] == a + b' && r[|r| - 1] == x;
      var tail := if x.key.Some? then [x.key.value] else [];
      assert Keys(l) == Keys(a + [t] + b') + tail;
      assert Keys(r) == Keys(a + b') + tail;
      var vtail := if x.key == Some(k) then [x.value] else [];
      assert GroupValues(l, k) == GroupValues(a + [t] + b', k) + vtail;
      assert GroupValues(r, k) == GroupValues(a + b', k) + vtail;
    }
  }

  lemma {:induction false} UsersDependOnGroupsOnly(ts: seq<Tagged>, us: seq<Tagged>, ks: seq<GroupKey>)
    requires forall k :: GroupValues(ts, k) == GroupValues(us, k)
    ensures Users(ts, ks) == Users(us, ks)
  {
    if |ks| > 0 {
      UsersDependOnGroupsOnly(ts, us, ks[..|ks| - 1]);
    }
  }

  lemma TagConcat(a: seq<Field>, b: seq<Field>)
    ensures Tag(a + b) == Tag(a) + Tag(b)
  {
  }

  /** The users read from a PDF do not depend on its dotless fields. */
  lemma DotlessFieldsDoNotMatter(h: bool, a: seq<Field>, f: Field, b: seq<Field>)
    requires '.' !in f.name && |a + b| > 0
    ensures ExtractUsers(PdfForm(h, a + [f] + b)) == ExtractUsers(PdfForm(h, a + b))
  {
    var t := Tagged(KeyOf(f.name), FieldValue(f));
    var l := Tag(a) + [t] + Tag(b);
    var r := Tag(a) + Tag(b);
    assert Tag(a + [f] + b) == l by {
      TagConcat(a + [f], b);
      TagConcat(a, [f]);
    }
    TagConcat(a, b);
    forall k ensures GroupValues(l, k) == GroupValues(r, k) {
      UngroupedIgnored(Tag(a), t, Tag(b), k);
    }
    UngroupedIgnored(Tag(a), t, Tag(b), IntKey(0));
    UsersDependOnGroupsOnly(l, r, Groups(r));
  }

  /** A name made of a number, a dot and anything is keyed by that number. */
  lemma NumberedKey(n: nat, suffix: string)
    ensures KeyOf(NatToString(n) + "." + suffix) == Some(IntKey(n))
  {
    var d := NatToString(n);
    var name := d + "." + suffix;
    assert name[|d|] == '.';
    var i := IndexOf(name, '.');
    assert i == |d| by {
      assert forall p :: 0 <= p < |d| ==> name[p] == d[p];
    }
    assert name[..i] == d;
    ParseIntOfNatToString(n);
  }

  /** Entries that all belong to group `k`: every key is `k`, and the group holds
      every value in order. */
  lemma {:induction false} AllInOneGroup(ts: seq<Tagged>, k: GroupKey)
    requires forall i :: 0 <= i < |ts| ==> ts[i].key == Some(k)
    ensures |Keys(ts)| == |ts| && forall i :: 0 <= i < |ts| ==> Keys(ts)[i] == k
    ensures |GroupValues(ts, k)| == |ts| && forall i :: 0 <= i < |ts| ==> GroupValues(ts, k)[i] == ts[i].value
  {
    if |ts| > 0 {
      var init := ts[..|ts| - 1];
      AllInOneGroup(init, k);
      assert Keys(ts) == Keys(init) + [k];
      assert GroupValues(ts, k) == GroupValues(init, k) + [ts[|ts| - 1].value];
    }
  }

  /** The distinct elements of a non-empty sequence holding one value repeated. */
  lemma {:induction false} DistinctOfRepeated(xs: seq<GroupKey>, k: GroupKey)
    requires |xs| > 0 && forall i :: 0 <= i < |xs| ==> xs[i] == k
    ensures Seqs.Distinct(xs) == [k]
    decreases |xs|
  {
    var init := xs[..|xs| - 1];
    if |init| > 0 {
      assert forall i :: 0 <= i < |init| ==> init[i] == xs[i];
      DistinctOfRepeated(init, k);
    }
  }

  /** Entries that all share one group make exactly one user, from the first three
      values in order. */
  lemma OneGroupOneUser(ts: seq<Tagged>, k: GroupKey)
    requires |ts| >= 3
    requires forall i :: 0 <= i < |ts| ==> ts[i].key == Some(k)
    ensures Users(ts, Groups(ts)) == [PdfUser(ts[0].value, ts[1].value, ts[2].value)]
  {
    OnlyGroup(ts, k);
    UsersOfOnlyGroup(ts, k);
  }

  lemma UsersOfOnlyGroup(ts: seq<Tagged>, k: GroupKey)
    requires |ts| >= 3
    requires forall i :: 0 <= i < |ts| ==> ts[i].key == Some(k)
    ensures Users(ts, [k]) == [PdfUser(ts[0].value, ts[1].value, ts[2].value)]
  {
    AllInOneGroup(ts, k);
    assert [k][..0] == [];
  }

  lemma OnlyGroup(ts: seq<Tagged>, k: GroupKey)
    requires |ts| > 0
    requires forall i :: 0 <= i < |ts| ==> ts[i].key == Some(k)
    ensures Groups(ts) == [k]
  {
    AllInOneGroup(ts, k);
    DistinctOfRepeated(Keys(ts), k);
  }

  /** A document whose fields all share one numbered prefix gives exactly one user. */
  lemma OneNumberedGroup(fs: seq<Field>, n: int)
    requires |fs| >= 3
    requires forall i :: 0 <= i < |fs| ==> KeyOf(fs[i].name) == Some(IntKey(n))
    ensures ExtractUsers(PdfForm(true, fs)) ==
              Ok([PdfUser(FieldValue(fs[0]), FieldValue(fs[1]), FieldValue(fs[2]))])
  {
    var ts := Tag(fs);
    OneGroupOneUser(ts, IntKey(n));
  }
}

=== FILE: performance.dfy ===
/** Per-student performance: `_calculate_performance_metrics`,
    `_calculate_improvement_rate` and `_identify_difficulty_areas`. */
module Performance {
  import opened Stats
  import opened Records
  import Seqs

  datatype Metrics = Metrics(
    averageScore: real,
    highestScore: real,
    lowestScore: real,
    totalAttempts: nat,
    improvementRate: real)

  const NoMetrics: Metrics := Metrics(0.0, 0.0, 0.0, 0, 0.0)

  /** Mean of the last `n/2` percentages minus mean of the first `n/2` (floor
      division), so the middle attempt of an odd count belongs to neither half. */
  function ImprovementRate(ps: seq<real>): (r: real)
    ensures |ps| < 2 ==> r == 0.0
  {
    if |ps| < 2 then 0.0
    else
      var h := |ps| / 2;
      Mean(ps[|ps| - h..]) - Mean(ps[..h])
  }

  /** With an odd number of attempts the middle one has no influence. */
  lemma ImprovementIgnoresMiddle(ps: seq<real>, qs: seq<real>)
    requires |ps| == |qs| && |ps| % 2 == 1
    requires forall i :: 0 <= i < |ps| && i != |ps| / 2 ==> ps[i] == qs[i]
    ensures ImprovementRate(ps) == ImprovementRate(qs)
  {
    if |ps| >= 2 {
      var n, h := |ps|, |ps| / 2;
      assert ps[n - h..] == qs[n - h..];
      assert ps[..h] == qs[..h];
    }
  }

  /** Scores that never go down give a non-negative improvement rate. */
  lemma NondecreasingScoresImprove(ps: seq<real>)
    requires forall i, j :: 0 <= i < j < |ps| ==> ps[i] <= ps[j]
    ensures ImprovementRate(ps) >= 0.0
  {
    if |ps| >= 2 {
      var n, h := |ps|, |ps| / 2;
      var pivot := ps[h - 1];
      MeanBounds(ps[..h], ps[0], pivot);
      MeanBounds(ps[n - h..], pivot, ps[n - 1]);
    }
  }

  /** Scores that never go up give a non-positive improvement rate. */
  lemma NonincreasingScoresDecline(ps: seq<real>)
    requires forall i, j :: 0 <= i < j < |ps| ==> ps[i] >= ps[j]
    ensures ImprovementRate(ps) <= 0.0
  {
    if |ps| >= 2 {
      var n, h := |ps|, |ps| / 2;
      var pivot := ps[h - 1];
      MeanBounds(ps[..h], pivot, ps[0]);
      MeanBounds(ps[n - h..], ps[n - 1], pivot);
    }
  }

  /** `_calculate_performance_metrics` over the attempt table: all zeros when there is
      no attempt, otherwise the mean, maximum and minimum percentage, the count and the
      improvement rate. */
  function PerformanceMetrics(rows: seq<AttemptRow>): (m: Metrics)
    ensures |rows| == 0 ==> m == NoMetrics
    ensures m.totalAttempts == |rows|
    ensures |rows| > 0 ==> m.lowestScore <= m.averageScore <= m.highestScore
    ensures forall i :: 0 <= i < |rows| ==>
              m.lowestScore <= rows[i].percentage <= m.highestScore
    ensures |rows| > 0 ==>
              (exists i :: 0 <= i < |rows| && rows[i].percentage == m.highestScore) &&
              (exists j :: 0 <= j < |rows| && rows[j].percentage == m.lowestScore)
    ensures m.improvementRate == ImprovementRate(Percentages(rows))
  {
    if |rows| == 0 then NoMetrics
    else
      var ps := Percentages(rows);
      MeanBetweenExtremes(ps);
      Metrics(Mean(ps), Maximum(ps), Minimum(ps), |rows|, ImprovementRate(ps))
  }

  // ---- difficulty areas ----

  datatype DifficultyArea = DifficultyArea(quizId: int, averageScore: real, attempts: nat)

  function QuizIds(rows: seq<AttemptRow>): (ids: seq<int>)
    ensures |ids| == |rows|
    ensures forall i :: 0 <= i < |rows| ==> ids[i] == rows[i].quizId
  {
    seq(|rows|, i requires 0 <= i < |rows| => rows[i].quizId)
  }

  /** The percentages of the attempts at quiz `q`, in table order. */
  function QuizPercentages(rows: seq<AttemptRow>, q: int): (ps: seq<real>)
    ensures |ps| == Seqs.Count(QuizIds(rows), q)
  {
    if |rows| == 0 then []
    else
      var init := rows[..|rows| - 1];
      var last := rows[|rows| - 1];
      assert QuizIds(rows)[..|rows| - 1] == QuizIds(init);
      QuizPercentages(init, q) + (if last.quizId == q then [last.percentage] else [])
  }

  /** Strictly increasing. */
  predicate Increasing(s: seq<int>) {
    forall i, j :: 0 <= i < j < |s| ==> s[i] < s[j]
  }

  function InsertId(x: int, s: seq<int>): (r: seq<int>)
    requires Increasing(s)
    ensures Increasing(r)
    ensures forall y :: y in r <==> y == x || y in s
  {
    if |s| == 0 then [x]
    else if x < s[0] then [x] + s
    else if x == s[0] then s
    else
      assert s == [s[0]] + s[1..];
      var rest := InsertId(x, s[1..]);
      assert forall y :: y in rest ==> s[0] < y;
      var r := [s[0]] + rest;
      assert forall y :: y in r <==> y == s[0] || y in rest;
      assert forall j :: 0 < j < |r| ==> r[j] == rest[j - 1] && r[j] in rest;
      r
  }

  /** The distinct ids in ascending order, as `groupby` lists its keys. */
  function SortedIds(ids: seq<int>): (r: seq<int>)
    ensures Increasing(r)
    ensures forall y :: y in r <==> y in ids
  {
    if |ids| == 0 then []
    else
      assert forall y :: y in ids <==> y == ids[0] || y in ids[1..];
      InsertId(ids[0], SortedIds(ids[1..]))
  }

  /** `avg_score < overall_avg * 0.8`. */
  predicate IsDifficult(quizMean: real, overall: real) {
    quizMean < overall * 0.8
  }

  function AreaFor(rows: seq<AttemptRow>, q: int): DifficultyArea
    requires q in QuizIds(rows)
  {
    var ps := QuizPercentages(rows, q);
    DifficultyArea(q, Mean(ps), |ps|)
  }

  /** The area record of each listed quiz, in list order (the `groupby` aggregate). */
  function AreasOf(rows: seq<AttemptRow>, ids: seq<int>): (as_: seq<DifficultyArea>)
    requires forall q :: q in ids ==> q in QuizIds(rows)
    ensures |as_| == |ids|
    ensures forall i :: 0 <= i < |ids| ==> as_[i] == AreaFor(rows, ids[i])
  {
    seq(|ids|, i requires 0 <= i < |ids| => AreaFor(rows, ids[i]))
  }

  /** Quiz ids strictly increase along the sequence. */
  predicate IncreasingIds(as_: seq<DifficultyArea>) {
    forall i, j :: 0 <= i < j < |as_| ==> as_[i].quizId < as_[j].quizId
  }

  /** The areas whose mean is below 80% of `overall`, keeping their order. */
  function AreasAmong(areas: seq<DifficultyArea>, overall: real): (r: seq<DifficultyArea>)
    ensures forall a :: a in r <==> a in areas && IsDifficult(a.averageScore, overall)
    ensures IncreasingIds(areas) ==> IncreasingIds(r)
  {
    if |areas| == 0 then []
    else
      var rest := AreasAmong(areas[1..], overall);
      assert forall a :: a in areas <==> a == areas[0] || a in areas[1..];
      if IsDifficult(areas[0].averageScore, overall) then
        FirstIdSmallest(areas);
        [areas[0]] + rest
      else
        rest
  }

  /** With increasing ids the first area's id is below every later one. */
  lemma FirstIdSmallest(areas: seq<DifficultyArea>)
    requires |areas| > 0
    ensures IncreasingIds(areas) ==> IncreasingIds(areas[1..])
    ensures IncreasingIds(areas) ==> forall a :: a in areas[1..] ==> areas[0].quizId < a.quizId
  {
    if IncreasingIds(areas) {
      forall a | a in areas[1..] ensures areas[0].quizId < a.quizId {
        var k :| 0 <= k < |areas[1..]| && areas[1..][k] == a;
        assert areas[k + 1] == a;
      }
    }
  }

  /** `_identify_difficulty_areas`: one entry per quiz, in ascending quiz id, whose mean
      percentage is below 80% of the student's overall mean; each entry carries that
      mean and the number of attempts at the quiz. */
  function DifficultyAreas(rows: seq<AttemptRow>): (r: seq<DifficultyArea>)
    ensures |rows| == 0 ==> r == []
    ensures forall i, j :: 0 <= i < j < |r| ==> r[i].quizId < r[j].quizId
    ensures forall a :: a in r ==>
              && a.quizId in QuizIds(rows)
              && a.attempts == Seqs.Count(QuizIds(rows), a.quizId)
              && a.attempts > 0
              && a.averageScore == Mean(QuizPercentages(rows, a.quizId))
              && IsDifficult(a.averageScore, Mean(Percentages(rows)))
    ensures forall q :: (q in QuizIds(rows) &&
                         IsDifficult(Mean(QuizPercentages(rows, q)), Mean(Percentages(rows)))) ==>
                        exists a :: a in r && a.quizId == q
  {
    if |rows| == 0 then []
    else
      var overall := Mean(Percentages(rows));
      var ids := SortedIds(QuizIds(rows));
      var areas := AreasOf(rows, ids);
      var r := AreasAmong(areas, overall);
      assert forall a :: a in areas ==> a.quizId in QuizIds(rows) && a == AreaFor(rows, a.quizId);
      forall q | q in QuizIds(rows) && IsDifficult(Mean(QuizPercentages(rows, q)), overall)
        ensures AreaFor(rows, q) in r
      {
        var i :| 0 <= i < |ids| && ids[i] == q;
        assert areas[i] == AreaFor(rows, q);
      }
      r
  }
}

=== FILE: quiz_timer.dfy ===
/** The quiz countdown of the web client (`QuizTimer` in the site script): the
    `formatTime` rendering and the once-a-second `update` tick. The clock, the DOM
    element, the notification and the form submission are outside the model: the
    tick receives the current time and reports what it would show and trigger. */
module QuizTimer {
  import opened Wrappers
  import opened Text

  // ---- formatTime ----

  /** JavaScript's `%`: the remainder takes the sign of the dividend. */
  function JsRem(a: int, b: int): (r: int)
    requires b > 0
    ensures a >= 0 ==> r == a % b
    ensures -b < r < b
  {
    if a >= 0 then a % b else -((-a) % b)
  }

  /** `n.toString().padStart(2, '0')`. */
  function Pad2(t: string): (r: string)
    ensures |r| == if |t| < 2 then 2 else |t|
    ensures r[|r| - |t|..] == t
    ensures forall i :: 0 <= i < |r| - |t| ==> r[i] == '0'
  {
    if |t| == 0 then "00" else if |t| == 1 then "0" + t else t
  }

  /** The three numbers `formatTime` shows: `Math.floor(s / 3600)`,
      `Math.floor((s % 3600) / 60)` and `s % 60`. */
  datatype Clock = Clock(hours: int, minutes: int, secs: int)

  function ClockOf(seconds: int): (c: Clock)
    ensures seconds >= 0 ==>
              && c.hours >= 0 && 0 <= c.minutes < 60 && 0 <= c.secs < 60
              && c.hours * 3600 + c.minutes * 60 + c.secs == seconds
    ensures c.hours > 0 <==> seconds >= 3600
  {
    Clock(seconds / 3600, JsRem(seconds, 3600) / 60, JsRem(seconds, 60))
  }

  /** `formatTime`: `H:MM:SS` from one hour on, `M:SS` below. */
  function FormatTime(seconds: int): (t: string)
    ensures seconds >= 3600 ==> |Split(t, ':')| == 3
    ensures 0 <= seconds < 3600 ==> |Split(t, ':')| == 2
  {
    var c := ClockOf(seconds);
    if c.hours > 0 then
      var parts := [IntToString(c.hours), Pad2(IntToString(c.minutes)), Pad2(IntToString(c.secs))];
      NoColonInNumbers(seconds);
      SplitJoin(parts, ':');
      Join(parts, ':')
    else
      var parts := [IntToString(c.minutes), Pad2(IntToString(c.secs))];
      NoColonInNumbers(seconds);
      SplitJoin(parts, ':');
      Join(parts, ':')
  }

  /** The minutes and seconds after a colon always show two digits (`padStart(2, '0')`);
      only the leading field is unpadded. */
  lemma FormatPadded(seconds: nat)
    ensures var parts := Split(FormatTime(seconds), ':');
            seconds >= 3600 ==> |parts| == 3 && |parts[1]| == 2 && |parts[2]| == 2
    ensures var parts := Split(FormatTime(seconds), ':');
            seconds < 3600 ==> |parts| == 2 && |parts[1]| == 2
  {
    if seconds >= 3600 {
      PaddedHours(seconds);
    } else {
      PaddedMinutes(seconds);
    }
  }

  lemma PaddedHours(seconds: nat)
    requires seconds >= 3600
    ensures var parts := Split(FormatTime(seconds), ':');
            |parts| == 3 && |parts[1]| == 2 && |parts[2]| == 2
  {
    var c := ClockOf(seconds);
    assert c.hours > 0 && 0 <= c.minutes < 60 && 0 <= c.secs < 60;
    PaddedFields3(c.hours, c.minutes, c.secs);
  }

  lemma PaddedMinutes(seconds: nat)
    requires seconds < 3600
    ensures var parts := Split(FormatTime(seconds), ':');
            |parts| == 2 && |parts[1]| == 2
  {
    var c := ClockOf(seconds);
    assert c.hours == 0 && 0 <= c.secs < 60;
    PaddedFields2(c.minutes, c.secs);
  }

  lemma PaddedFields3(h: int, m: int, x: int)
    requires 0 <= m < 60 && 0 <= x < 60
    ensures var parts := [IntToString(h), Pad2(IntToString(m)), Pad2(IntToString(x))];
            Split(Join(parts, ':'), ':') == parts && |parts[1]| == 2 && |parts[2]| == 2
  {
    var parts := [IntToString(h), Pad2(IntToString(m)), Pad2(IntToString(x))];
    TwoDigits(m);
    TwoDigits(x);
    NoColonInInt(h);
    NoColonInInt(m);
    NoColonInInt(x);
    SplitThree(parts[0], parts[1], parts[2]);
  }

  lemma PaddedFields2(m: int, x: int)
    requires 0 <= x < 60
    ensures var parts := [IntToString(m), Pad2(IntToString(x))];
            Split(Join(parts, ':'), ':') == parts && |parts[1]| == 2
  {
    var parts := [IntToString(m), Pad2(IntToString(x))];
    TwoDigits(x);
    NoColonInInt(m);
    NoColonInInt(x);
    SplitTwo(parts[0], parts[1]);
  }

  /** `Split` undoes `Join` on two or three colon-free fields. */
  lemma SplitTwo(a: string, b: string)
    requires ':' !in a && ':' !in b
    ensures Split(Join([a, b], ':'), ':') == [a, b]
  {
    SplitJoin([a, b], ':');
  }

  lemma SplitThree(a: string, b: string, d: string)
    requires ':' !in a && ':' !in b && ':' !in d
    ensures Split(Join([a, b, d], ':'), ':') == [a, b, d]
  {
    SplitJoin([a, b, d], ':');
  }

  /** A minute or second count pads to exactly two digits. */
  lemma TwoDigits(n: int)
    requires 0 <= n < 60
    ensures |Pad2(IntToString(n))| == 2
  {
    if n >= 10 {
      assert NatToString(n) == NatToString(n / 10) + [DigitChar(n % 10)];
    }
  }

  lemma NoColonInNumbers(seconds: int)
    ensures var c := ClockOf(seconds);
            && ':' !in IntToString(c.hours) && ':' !in IntToString(c.minutes) && ':' !in IntToString(c.secs)
            && ':' !in Pad2(IntToString(c.minutes)) && ':' !in Pad2(IntToString(c.secs))
  {
    var c := ClockOf(seconds);
    NoColonInInt(c.hours);
    NoColonInInt(c.minutes);
    NoColonInInt(c.secs);
  }

  lemma NoColonInInt(n: int)
    ensures ':' !in IntToString(n)
    ensures ':' !in Pad2(IntToString(n))
  {
    var d := NatToString(if n < 0 then -n else n);
    assert forall i :: 0 <= i < |d| ==> IsDigit(d[i]);
    assert ':' !in d;
    var t := IntToString(n);
    assert forall i :: 0 <= i < |t| ==> t[i] == '-' || IsDigit(t[i]);
  }

  /** Splitting a join of separator-free pieces gives the pieces back. */
  lemma {:induction false} SplitJoin(parts: seq<string>, c: char)
    requires |parts| >= 1
    requires forall k :: 0 <= k < |parts| ==> c !in parts[k]
    ensures Split(Join(parts, c), c) == parts
    decreases |parts|
  {
    if |parts| > 1 {
      var rest := parts[1..];
      assert forall k :: 0 <= k < |rest| ==> c !in rest[k] by {
        forall k | 0 <= k < |rest| ensures c !in rest[k] { assert rest[k] == parts[k + 1]; }
      }
      SplitJoin(rest, c);
      assert Join(parts, c) == parts[0] + [c] + Join(rest, c);
      SplitAtFirst(parts[0], Join(rest, c), c);
      assert parts == [parts[0]] + rest;
    } else {
      assert c !in parts[0];
    }
  }

  /** The first separator of `p + [c] + t` is the one after a separator-free `p`. */
  lemma SplitAtFirst(p: string, t: string, c: char)
    requires c !in p
    ensures Split(p + [c] + t, c) == [p] + Split(t, c)
  {
    var s := p + [c] + t;
    assert s[|p|] == c;
    assert forall q :: 0 <= q < |p| ==> s[q] == p[q];
    var i := IndexOf(s, c);
    assert i == |p|;
    assert s[..i] == p;
    assert s[i + 1..] == t;
  }

  function Seconds(hours: nat, minutes: nat, secs: nat): nat {
    hours * 3600 + minutes * 60 + secs
  }

  /** Reads `H:MM:SS` or `M:SS` back into seconds. */
  function ParseTime(t: string): (r: Option<nat>)
  {
    var parts := Split(t, ':');
    if |parts| == 3 && AllDigits(parts[0]) && AllDigits(parts[1]) && AllDigits(parts[2]) then
      Some(Seconds(DigitsValue(parts[0]), DigitsValue(parts[1]), DigitsValue(parts[2])))
    else if |parts| == 2 && AllDigits(parts[0]) && AllDigits(parts[1]) then
      Some(Seconds(0, DigitsValue(parts[0]), DigitsValue(parts[1])))
    else None
  }

  /** A leading zero does not change the value of a digit string. */
  lemma {:induction false} LeadingZero(d: string)
    requires AllDigits(d)
    ensures AllDigits("0" + d) && DigitsValue("0" + d) == DigitsValue(d)
    decreases |d|
  {
    var z := "0" + d;
    if |d| > 0 {
      LeadingZero(d[..|d| - 1]);
      assert z[..|z| - 1] == "0" + d[..|d| - 1];
    } else {
      assert z[..0] == [];
    }
  }

  /** A padded rendering of a natural number reads back as the number. */
  lemma PaddedValue(n: nat)
    ensures AllDigits(Pad2(IntToString(n))) && DigitsValue(Pad2(IntToString(n))) == n
  {
    var d := NatToString(n);
    DigitsValueOfNatToString(n);
    if |d| < 2 {
      assert Pad2(d) == "0" + d;
      LeadingZero(d);
    }
  }

  /** `formatTime` loses nothing: the text reads back as the number of seconds. */
  lemma FormatRoundTrip(seconds: nat)
    ensures ParseTime(FormatTime(seconds)) == Some(seconds)
  {
    if seconds >= 3600 {
      RoundTripHours(seconds);
    } else {
      RoundTripMinutes(seconds);
    }
  }

  lemma RoundTripHours(seconds: nat)
    requires seconds >= 3600
    ensures ParseTime(FormatTime(seconds)) == Some(seconds)
  {
    var c := ClockOf(seconds);
    NoColonInNumbers(seconds);
    var h, m, x := IntToString(c.hours), Pad2(IntToString(c.minutes)), Pad2(IntToString(c.secs));
    PlainValue(c.hours);
    PaddedValue(c.minutes);
    PaddedValue(c.secs);
    assert Seconds(c.hours, c.minutes, c.secs) == seconds;
    ParseThree(h, m, x);
    assert FormatTime(seconds) == Join([h, m, x], ':');
  }

  lemma RoundTripMinutes(seconds: nat)
    requires seconds < 3600
    ensures ParseTime(FormatTime(seconds)) == Some(seconds)
  {
    var c := ClockOf(seconds);
    NoColonInNumbers(seconds);
    var m, x := IntToString(c.minutes), Pad2(IntToString(c.secs));
    PlainValue(c.minutes);
    PaddedValue(c.secs);
    assert c.hours == 0;
    assert Seconds(0, c.minutes, c.secs) == seconds;
    ParseTwo(m, x);
    assert FormatTime(seconds) == Join([m, x], ':');
  }

  lemma ParseTwo(m: string, x: string)
    requires AllDigits(m) && AllDigits(x) && ':' !in m && ':' !in x
    ensures ParseTime(Join([m, x], ':')) == Some(Seconds(0, DigitsValue(m), DigitsValue(x)))
  {
    var t := Join([m, x], ':');
    SplitJoin([m, x], ':');
    ParseOfTwo(t, m, x);
  }

  lemma ParseThree(h: string, m: string, x: string)
    requires AllDigits(h) && AllDigits(m) && AllDigits(x) && ':' !in h && ':' !in m && ':' !in x
    ensures ParseTime(Join([h, m, x], ':')) == Some(Seconds(DigitsValue(h), DigitsValue(m), DigitsValue(x)))
  {
    var t := Join([h, m, x], ':');
    SplitJoin([h, m, x], ':');
    ParseOfThree(t, h, m, x);
  }

  /** `ParseTime` reads the pieces between the colons. */
  lemma ParseOfTwo(t: string, m: string, x: string)
    requires Split(t, ':') == [m, x] && AllDigits(m) && AllDigits(x)
    ensures ParseTime(t) == Some(Seconds(0, DigitsValue(m), DigitsValue(x)))
  {
  }

  lemma ParseOfThree(t: string, h: string, m: string, x: string)
    requires Split(t, ':') == [h, m, x] && AllDigits(h) && AllDigits(m) && AllDigits(x)
    ensures ParseTime(t) == Some(Seconds(DigitsValue(h), DigitsValue(m), DigitsValue(x)))
  {
  }

  /** An unpadded rendering of a natural number reads back as the number. */
  lemma PlainValue(n: nat)
    ensures AllDigits(IntToString(n)) && DigitsValue(IntToString(n)) == n
  {
    DigitsValueOfNatToString(n);
  }

  /** Different numbers of seconds are displayed differently. */
  lemma FormatInjective(a: nat, b: nat)
    requires FormatTime(a) == FormatTime(b)
    ensures a == b
  {
    FormatRoundTrip(a);
    FormatRoundTrip(b);
  }

  // ---- update ----

  /** The fields of a `QuizTimer`. `running` is false once `clearInterval` was called. */
  datatype Timer = Timer(duration: Option<int>, startTime: int, warningShown: bool, running: bool)

  /** What a tick writes into the timer element: its text and, when it sets it, whether
      the class is `text-danger`. */
  datatype Display = Display(text: string, danger: Option<bool>)

  datatype Tick = Tick(timer: Timer, display: Option<Display>, warned: bool, timeUp: bool)

  function NewTimer(duration: Option<int>, now: int): Timer {
    Timer(duration, now, false, true)
  }

  /** `if (this.duration)`: `null` and `0` mean no limit. */
  predicate Limited(t: Timer) {
    t.duration.Some? && t.duration.value != 0
  }

  /** `Math.floor((Date.now() - this.startTime) / 1000)`. */
  function Elapsed(t: Timer, now: int): int {
    (now - t.startTime) / 1000
  }

  function Remaining(t: Timer, now: int): int
    requires Limited(t)
  {
    t.duration.value - Elapsed(t, now)
  }

  /** `update`, one interval tick. A stopped timer no longer ticks. */
  function Update(t: Timer, now: int): (r: Tick)
    ensures !t.running ==> r == Tick(t, None, false, false)
    ensures r.timer.duration == t.duration && r.timer.startTime == t.startTime
    ensures r.timeUp <==> t.running && Limited(t) && Remaining(t, now) <= 0
    ensures r.timeUp ==> !r.timer.running && r.display.None? && !r.warned
    ensures r.warned <==> t.running && Limited(t) && 0 < Remaining(t, now) <= 300 && !t.warningShown
    ensures r.timer.warningShown == (t.warningShown || r.warned)
    ensures t.running && Limited(t) && Remaining(t, now) > 0 ==>
              r.timer.running && r.display == Some(Display(FormatTime(Remaining(t, now)), Some(Remaining(t, now) <= 60)))
    ensures t.running && !Limited(t) ==>
              r.timer.running && r.display == Some(Display(FormatTime(Elapsed(t, now)), None))
  {
    if !t.running then Tick(t, None, false, false)
    else if Limited(t) then
      var remaining := Remaining(t, now);
      if remaining <= 0 then
        Tick(t.(running := false), None, false, true)
      else
        var warn := remaining <= 300 && !t.warningShown;
        Tick(t.(warningShown := t.warningShown || warn),
             Some(Display(FormatTime(remaining), Some(remaining <= 60))), warn, false)
    else
      Tick(t, Some(Display(FormatTime(Elapsed(t, now)), None)), false, false)
  }

  /** The ticks at the given times, in order: the final timer, how many warnings were
      shown and how many times the quiz was submitted for time. */
  datatype Run = Run(timer: Timer, warnings: nat, timeUps: nat)

  function RunTicks(t: Timer, nows: seq<int>): (r: Run)
    ensures r.timer.warningShown == (t.warningShown || r.warnings > 0)
    ensures !t.running ==> !r.timer.running && r.timeUps == 0
    ensures r.timeUps > 0 ==> !r.timer.running
    decreases |nows|
  {
    if |nows| == 0 then Run(t, 0, 0)
    else
      var tick := Update(t, nows[0]);
      var rest := RunTicks(tick.timer, nows[1..]);
      Run(rest.timer, rest.warnings + (if tick.warned then 1 else 0),
          rest.timeUps + (if tick.timeUp then 1 else 0))
  }

  /** However the clock moves, the five-minute warning is shown at most once, and
      never again once shown; the quiz is submitted for time at most once. */
  lemma {:induction false} AtMostOnce(t: Timer, nows: seq<int>)
    ensures RunTicks(t, nows).warnings <= 1
    ensures t.warningShown ==> RunTicks(t, nows).warnings == 0
    ensures RunTicks(t, nows).timeUps <= 1
    decreases |nows|
  {
    if |nows| > 0 {
      var tick := Update(t, nows[0]);
      AtMostOnce(tick.timer, nows[1..]);
    }
  }

  /** A timer without a limit never warns and never ends the quiz. */
  lemma {:induction false} UnlimitedNeverEnds(t: Timer, nows: seq<int>)
    requires !Limited(t)
    ensures RunTicks(t, nows).warnings == 0 && RunTicks(t, nows).timeUps == 0
    decreases |nows|
  {
    if |nows| > 0 {
      UnlimitedNeverEnds(Update(t, nows[0]).timer, nows[1..]);
    }
  }
}

=== FILE: recommend.dfy ===
/** Rule-based advice for one student: `_generate_recommendations`. */
module Recommend {
  import opened Stats
  import opened Records
  import Patterns

  datatype Priority = High | Medium | Low

  /** The four rules, in the order they are evaluated. */
  datatype Recommendation = ReviewLessons | AdvancedContent | IncreaseActivity | ScheduleStudy {

    /** The `type` field. */
    function Kind(): string {
      match this
      case ReviewLessons => "performance"
      case AdvancedContent => "performance"
      case IncreaseActivity => "engagement"
      case ScheduleStudy => "consistency"
    }

    function Priority(): Priority {
      match this
      case ReviewLessons => High
      case AdvancedContent => Low
      case IncreaseActivity => Medium
      case ScheduleStudy => Medium
    }

    /** The machine-readable `action` tag. */
    function Action(): string {
      match this
      case ReviewLessons => "review_lessons"
      case AdvancedContent => "advanced_content"
      case IncreaseActivity => "increase_activity"
      case ScheduleStudy => "schedule_study"
    }

    /** The English `message`. */
    function Message(): string {
      match this
      case ReviewLessons => "Consider reviewing lesson materials before taking quizzes"
      case AdvancedContent => "Excellent performance! Try more challenging content"
      case IncreaseActivity => "Try to engage more regularly with the platform"
      case ScheduleStudy => "Try to maintain a more consistent study schedule"
    }

    /** Position of the rule in evaluation order. */
    function Rank(): nat {
      match this
      case ReviewLessons => 0
      case AdvancedContent => 1
      case IncreaseActivity => 2
      case ScheduleStudy => 3
    }
  }

  /** Rules 1 and 2 (an if/elif on the mean percentage); nothing without attempts. */
  function PerformanceAdvice(attempts: seq<AttemptRow>): (r: seq<Recommendation>)
    ensures |r| <= 1
    ensures forall x :: x in r ==> x == ReviewLessons || x == AdvancedContent
    ensures ReviewLessons in r <==> |attempts| > 0 && Mean(Percentages(attempts)) < 60.0
    ensures AdvancedContent in r <==> |attempts| > 0 && Mean(Percentages(attempts)) > 85.0
  {
    if |attempts| == 0 then []
    else
      var avg := Mean(Percentages(attempts));
      if avg < 60.0 then [ReviewLessons]
      else if avg > 85.0 then [AdvancedContent]
      else []
  }

  /** Rule 3: too little engagement, judged only when there are interactions. */
  function EngagementAdvice(interactions: seq<InteractionRow>, cv: real): (r: seq<Recommendation>)
    requires cv >= 0.0
    ensures r == [] || r == [IncreaseActivity]
    ensures IncreaseActivity in r <==>
              |interactions| > 0 && Patterns.EngagementScore(interactions, cv) < 40.0
  {
    if |interactions| > 0 && Patterns.EngagementScore(interactions, cv) < 40.0
    then [IncreaseActivity] else []
  }

  /** Rule 4: study days spread too thinly over the active span. */
  function ConsistencyAdvice(interactions: seq<InteractionRow>): (r: seq<Recommendation>)
    ensures r == [] || r == [ScheduleStudy]
    ensures ScheduleStudy in r <==> Patterns.LearningConsistency(interactions) < 50.0
  {
    if Patterns.LearningConsistency(interactions) < 50.0 then [ScheduleStudy] else []
  }

  /** `_generate_recommendations`: the advice that applies, in rule order. The
      consistency rule also fires when there is no interaction at all, because the
      consistency of an empty log is 0. */
  function GenerateRecommendations(
    interactions: seq<InteractionRow>, attempts: seq<AttemptRow>, cv: real): (r: seq<Recommendation>)
    requires cv >= 0.0
    ensures ReviewLessons in r <==> |attempts| > 0 && Mean(Percentages(attempts)) < 60.0
    ensures AdvancedContent in r <==> |attempts| > 0 && Mean(Percentages(attempts)) > 85.0
    ensures !(ReviewLessons in r && AdvancedContent in r)
    ensures IncreaseActivity in r <==>
              |interactions| > 0 && Patterns.EngagementScore(interactions, cv) < 40.0
    ensures ScheduleStudy in r <==> Patterns.LearningConsistency(interactions) < 50.0
    ensures |interactions| == 0 ==> ScheduleStudy in r
    ensures |r| <= 3
    ensures forall i, j :: 0 <= i < j < |r| ==> r[i].Rank() < r[j].Rank()
  {
    var perf := PerformanceAdvice(attempts);
    var engagement := EngagementAdvice(interactions, cv);
    var consistency := ConsistencyAdvice(interactions);
    JoinInOrder(perf, engagement, consistency);
    perf + engagement + consistency
  }

  /** The three groups of advice, each at most one rule, joined in rule order. */
  lemma JoinInOrder(perf: seq<Recommendation>, engagement: seq<Recommendation>,
                    consistency: seq<Recommendation>)
    requires |perf| <= 1 && forall x :: x in perf ==> x.Rank() <= 1
    requires engagement == [] || engagement == [IncreaseActivity]
    requires consistency == [] || consistency == [ScheduleStudy]
    ensures |perf + engagement + consistency| <= 3
    ensures var r := perf + engagement + consistency;
            forall i, j :: 0 <= i < j < |r| ==> r[i].Rank() < r[j].Rank()
  {
    var r := perf + engagement + consistency;
    if |perf| == 1 {
      assert r[0] == perf[0] && r[0] in perf;
    }
    assert forall i :: |perf| <= i < |perf| + |engagement| ==> r[i] == IncreaseActivity;
    assert forall i :: |perf| + |engagement| <= i < |r| ==> r[i] == ScheduleStudy;
  }
}

=== FILE: records.dfy ===
/** The two kinds of logged record the analytics consume (`StudentInteraction` and
    `QuizAttempt` rows) and the feature extractor that turns them into the normalised
    tables of `_interactions_to_dataframe` and `_attempts_to_dataframe`. */
module Records {
  import opened Wrappers
  import Seqs

  const SecondsPerHour: int := 3600
  const MicrosPerSecond: int := 1000000
  const MicrosPerDay: int := 86400000000

  type SecondOfDay = s: int | 0 <= s < 86400
  type MicroOfSecond = m: int | 0 <= m < 1000000

  /** A `datetime`: a calendar day number, the second within that day and the
      microsecond within that second. */
  datatype Timestamp = Timestamp(day: int, second: SecondOfDay, micro: MicroOfSecond) {

    /** Microseconds since midnight of the same day. */
    function MicroOfDay(): (m: int)
      ensures 0 <= m < MicrosPerDay
    {
      second * MicrosPerSecond + micro
    }

    /** Microseconds since day 0 at midnight; orders timestamps as `datetime` does,
        and differences of two are `timedelta`s in microseconds. */
    function Instant(): int {
      day * MicrosPerDay + MicroOfDay()
    }

    /** `timestamp.hour`. */
    function Hour(): (h: int)
      ensures 0 <= h < 24
    {
      second / SecondsPerHour
    }
  }

  /** A `StudentInteraction`: `duration` and `performance_score` are nullable columns. */
  datatype Interaction = Interaction(
    kind: string,
    contentId: int,
    duration: Option<int>,
    performanceScore: Option<real>,
    timestamp: Timestamp)

  /** The calendar day of an instant is its day number (`timestamp.date()`). */
  lemma DayOfInstant(t: Timestamp)
    ensures t.Instant() / MicrosPerDay == t.day
  {
  }

  /** Instants order timestamps lexicographically by day, second and microsecond. */
  lemma InstantOrder(a: Timestamp, b: Timestamp)
    ensures a.Instant() < b.Instant() <==>
              a.day < b.day || (a.day == b.day && (a.second < b.second ||
                                 (a.second == b.second && a.micro < b.micro)))
  {
  }

  /** A `QuizAttempt`. */
  datatype Attempt = Attempt(quizId: int, score: real, totalPoints: int, completedAt: Timestamp)

  /** One row of the interaction table, missing values replaced by 0. */
  datatype InteractionRow = InteractionRow(
    timestamp: Timestamp,
    kind: string,
    contentId: int,
    duration: int,
    performanceScore: real)

  /** One row of the attempt table. */
  datatype AttemptRow = AttemptRow(
    completedAt: Timestamp,
    score: real,
    totalPoints: int,
    percentage: real,
    quizId: int)

  /** `score / total_points * 100`, or 0 when the quiz is worth no points. */
  function ScorePercentage(score: real, totalPoints: int): (p: real)
    ensures totalPoints <= 0 ==> p == 0.0
    ensures totalPoints > 0 ==> p * totalPoints as real == score * 100.0
    ensures 0.0 <= score <= totalPoints as real ==> 0.0 <= p <= 100.0
  {
    if totalPoints > 0 then score / totalPoints as real * 100.0 else 0.0
  }

  function ToInteractionRow(x: Interaction): InteractionRow {
    InteractionRow(x.timestamp, x.kind, x.contentId, x.duration.GetOr(0), x.performanceScore.GetOr(0.0))
  }

  /** `_interactions_to_dataframe`: one row per interaction, in input order, with a
      missing duration or performance score read as 0. */
  function InteractionTable(xs: seq<Interaction>): (rows: seq<InteractionRow>)
    ensures |rows| == |xs|
    ensures forall i :: 0 <= i < |xs| ==>
              && rows[i].timestamp == xs[i].timestamp
              && rows[i].kind == xs[i].kind
              && (xs[i].duration.None? ==> rows[i].duration == 0)
              && (xs[i].duration.Some? ==> rows[i].duration == xs[i].duration.value)
    ensures forall i :: 0 <= i < |xs| ==>
              && rows[i].contentId == xs[i].contentId
              && (xs[i].performanceScore.None? ==> rows[i].performanceScore == 0.0)
              && (xs[i].performanceScore.Some? ==>
                    rows[i].performanceScore == xs[i].performanceScore.value)
  {
    seq(|xs|, i requires 0 <= i < |xs| => ToInteractionRow(xs[i]))
  }

  function ToAttemptRow(a: Attempt): AttemptRow {
    AttemptRow(a.completedAt, a.score, a.totalPoints, ScorePercentage(a.score, a.totalPoints), a.quizId)
  }

  function AttemptRows(xs: seq<Attempt>): seq<AttemptRow> {
    seq(|xs|, i requires 0 <= i < |xs| => ToAttemptRow(xs[i]))
  }

  function CompletionKey(r: AttemptRow): real {
    -(r.completedAt.Instant() as real)
  }

  predicate SortedByCompletion(rows: seq<AttemptRow>) {
    forall i, j :: 0 <= i < j < |rows| ==> rows[i].completedAt.Instant() <= rows[j].completedAt.Instant()
  }

  /** `_attempts_to_dataframe`: every attempt becomes one row carrying its score
      percentage, and the rows are put in order of completion time. */
  function AttemptTable(xs: seq<Attempt>): (rows: seq<AttemptRow>)
    ensures |rows| == |xs|
    ensures multiset(rows) == multiset(AttemptRows(xs))
    ensures SortedByCompletion(rows)
    ensures forall r :: r in rows ==>
              r.percentage == ScorePercentage(r.score, r.totalPoints)
  {
    var rows := Seqs.SortDesc(AttemptRows(xs), CompletionKey);
    assert forall r :: r in rows ==> r in multiset(AttemptRows(xs));
    rows
  }

  function Percentages(rows: seq<AttemptRow>): (ps: seq<real>)
    ensures |ps| == |rows|
    ensures forall i :: 0 <= i < |rows| ==> ps[i] == rows[i].percentage
  {
    seq(|rows|, i requires 0 <= i < |rows| => rows[i].percentage)
  }
}

=== FILE: seqs.dfy ===
/** Sequence vocabulary shared by the model: counting, order-preserving filtering,
    distinct keys in first-appearance order (a Python dict's key order, pandas'
    `unique()`), and the stable descending sort behind `list.sort(reverse=True)` and
    `DataFrame.nlargest`. */
module Seqs {

  /** Number of occurrences of `x` in `xs`. */
  function Count<T(==)>(xs: seq<T>, x: T): (n: nat)
    ensures n <= |xs|
    ensures n == 0 <==> x !in xs
  {
    if |xs| == 0 then 0
    else Count(xs[..|xs| - 1], x) + (if xs[|xs| - 1] == x then 1 else 0)
  }

  lemma CountAppend<T>(xs: seq<T>, y: T, x: T)
    ensures Count(xs + [y], x) == Count(xs, x) + (if y == x then 1 else 0)
  {
    assert (xs + [y])[..|xs|] == xs;
  }

  /** No element occurs twice. */
  predicate NoDup<T(==)>(xs: seq<T>) {
    forall i, j :: 0 <= i < j < |xs| ==> xs[i] != xs[j]
  }

  /** An element of a duplicate-free sequence occurs exactly once. */
  lemma {:induction false} CountInNoDup<T>(ks: seq<T>, x: T)
    requires NoDup(ks)
    ensures Count(ks, x) == (if x in ks then 1 else 0)
  {
    if |ks| > 0 {
      var init := ks[..|ks| - 1];
      assert NoDup(init);
      CountInNoDup(init, x);
      assert ks == init + [ks[|ks| - 1]];
      if ks[|ks| - 1] == x {
        assert x !in init;
      }
    }
  }

  /** The distinct elements of `xs`, each at the place of its first occurrence. */
  function Distinct<T(==,!new)>(xs: seq<T>): (ks: seq<T>)
    ensures NoDup(ks)
    ensures forall x :: x in ks <==> x in xs
    ensures |ks| <= |xs|
  {
    if |xs| == 0 then []
    else
      var d := Distinct(xs[..|xs| - 1]);
      var last := xs[|xs| - 1];
      assert xs == xs[..|xs| - 1] + [last];
      if last in d then d else d + [last]
  }

  /** Total number of occurrences in `xs` of the keys `ks`. */
  function SumCounts<T(==)>(xs: seq<T>, ks: seq<T>): nat {
    if |ks| == 0 then 0 else SumCounts(xs, ks[..|ks| - 1]) + Count(xs, ks[|ks| - 1])
  }

  lemma {:induction false} SumCountsAppend<T>(xs: seq<T>, y: T, ks: seq<T>)
    ensures SumCounts(xs + [y], ks) == SumCounts(xs, ks) + Count(ks, y)
  {
    if |ks| > 0 {
      SumCountsAppend(xs, y, ks[..|ks| - 1]);
      CountAppend(xs, y, ks[|ks| - 1]);
    }
  }

  /** Grouping by key partitions: the group sizes over a duplicate-free list of keys
      that covers every element add up to the number of elements. */
  lemma {:induction false} SumCountsPartition<T>(xs: seq<T>, ks: seq<T>)
    requires NoDup(ks)
    requires forall x :: x in xs ==> x in ks
    ensures SumCounts(xs, ks) == |xs|
  {
    if |xs| > 0 {
      var init := xs[..|xs| - 1];
      var last := xs[|xs| - 1];
      assert xs == init + [last];
      SumCountsPartition(init, ks);
      SumCountsAppend(init, last, ks);
      CountInNoDup(ks, last);
    } else {
      SumCountsOfEmpty(xs, ks);
    }
  }

  lemma {:induction false} SumCountsOfEmpty<T>(xs: seq<T>, ks: seq<T>)
    requires |xs| == 0
    ensures SumCounts(xs, ks) == 0
  {
    if |ks| > 0 {
      SumCountsOfEmpty(xs, ks[..|ks| - 1]);
    }
  }

  /** `a` is `b` with some elements removed, the rest kept in order. */
  predicate Subsequence<T(==)>(a: seq<T>, b: seq<T>)
    decreases |b|
  {
    |a| == 0 ||
    (|b| > 0 && ((a[0] == b[0] && Subsequence(a[1..], b[1..])) || Subsequence(a, b[1..])))
  }

  /** Every sequence is a subsequence of itself. */
  lemma {:induction false} SubsequenceRefl<T>(xs: seq<T>)
    ensures Subsequence(xs, xs)
    decreases |xs|
  {
    if |xs| > 0 {
      SubsequenceRefl(xs[1..]);
    }
  }

  /** Python's `[x for x in xs if p(x)]`, JavaScript's `xs.filter(p)`. */
  function Filter<T(==,!new)>(xs: seq<T>, p: T -> bool): (r: seq<T>)
    ensures |r| <= |xs|
    ensures forall x :: x in r <==> x in xs && p(x)
    ensures forall i :: 0 <= i < |r| ==> p(r[i])
  {
    if |xs| == 0 then []
    else
      var rest := Filter(xs[1..], p);
      assert forall x :: x in xs <==> x == xs[0] || x in xs[1..];
      if p(xs[0]) then [xs[0]] + rest else rest
  }

  /** The filter keeps its elements in their original order. */
  lemma {:induction false} FilterSubsequence<T(!new)>(xs: seq<T>, p: T -> bool)
    ensures Subsequence(Filter(xs, p), xs)
    decreases |xs|
  {
    if |xs| > 0 {
      FilterSubsequence(xs[1..], p);
      var rest := Filter(xs[1..], p);
      if p(xs[0]) {
        assert ([xs[0]] + rest)[1..] == rest;
      }
    }
  }

  /** A predicate that holds throughout keeps everything. */
  lemma {:induction false} FilterAll<T(!new)>(xs: seq<T>, p: T -> bool)
    requires forall i :: 0 <= i < |xs| ==> p(xs[i])
    ensures Filter(xs, p) == xs
    decreases |xs|
  {
    if |xs| > 0 {
      FilterAll(xs[1..], p);
    }
  }

  /** Predicates that agree everywhere filter alike. */
  lemma {:induction false} FilterAgree<T(!new)>(xs: seq<T>, p: T -> bool, q: T -> bool)
    requires forall x :: p(x) == q(x)
    ensures Filter(xs, p) == Filter(xs, q)
    decreases |xs|
  {
    if |xs| > 0 {
      FilterAgree(xs[1..], p, q);
    }
  }

  /** Filtering with a stronger predicate keeps a subsequence of what the weaker one
      keeps. */
  lemma {:induction false} FilterMonotone<T(!new)>(xs: seq<T>, p: T -> bool, q: T -> bool)
    requires forall x :: p(x) ==> q(x)
    ensures Subsequence(Filter(xs, p), Filter(xs, q))
    decreases |xs|
  {
    if |xs| > 0 {
      FilterMonotone(xs[1..], p, q);
      var a, b := Filter(xs[1..], p), Filter(xs[1..], q);
      if p(xs[0]) {
        assert Filter(xs, p) == [xs[0]] + a;
        assert Filter(xs, q) == [xs[0]] + b;
        assert ([xs[0]] + a)[1..] == a && ([xs[0]] + b)[1..] == b;
      } else if q(xs[0]) {
        assert Filter(xs, q) == [xs[0]] + b;
        assert ([xs[0]] + b)[1..] == b;
      }
    }
  }

  /** Filtering distributes over concatenation. */
  lemma {:induction false} FilterAppend<T(!new)>(a: seq<T>, b: seq<T>, p: T -> bool)
    ensures Filter(a + b, p) == Filter(a, p) + Filter(b, p)
    decreases |a|
  {
    if |a| == 0 {
      assert a + b == b;
    } else {
      var h := if p(a[0]) then [a[0]] else [];
      var fa, fb := Filter(a[1..], p), Filter(b, p);
      assert Filter(a + b, p) == h + Filter(a[1..] + b, p) by {
        var s := a + b;
        FilterHead(s, p);
        assert s[0] == a[0] && s[1..] == a[1..] + b;
      }
      assert Filter(a, p) == h + fa by {
        FilterHead(a, p);
      }
      FilterAppend(a[1..], b, p);
      AppendAssoc(h, fa, fb);
    }
  }

  lemma AppendAssoc<T>(x: seq<T>, y: seq<T>, z: seq<T>)
    ensures x + (y + z) == (x + y) + z
  {
  }

  /** An element the predicate rejects leaves no trace in the filtered sequence. */
  lemma FilterSkips<T(!new)>(a: seq<T>, x: T, b: seq<T>, p: T -> bool)
    requires !p(x)
    ensures Filter(a + [x] + b, p) == Filter(a + b, p)
  {
    FilterAppend(a + [x], b, p);
    FilterSnoc(a, x, p);
    FilterAppend(a, b, p);
    assert Filter(a, p) + [] == Filter(a, p);
  }

  /** Filtering a sequence extended at the back extends the filtered sequence. */
  lemma FilterSnoc<T(!new)>(xs: seq<T>, x: T, p: T -> bool)
    ensures Filter(xs + [x], p) == Filter(xs, p) + (if p(x) then [x] else [])
  {
    FilterAppend(xs, [x], p);
    FilterHead([x], p);
    assert [x][1..] == [];
  }

  /** One step of the filter: the first element, when kept, before the filtered rest. */
  lemma FilterHead<T(!new)>(s: seq<T>, p: T -> bool)
    requires |s| > 0
    ensures Filter(s, p) == (if p(s[0]) then [s[0]] else []) + Filter(s[1..], p)
  {
  }

  /** Putting `x` in front of `xs` puts `f(x)` in front of the element-wise image `ys`. */
  lemma MapCons<A, B>(f: A --> B, x: A, xs: seq<A>, ys: seq<B>)
    requires f.requires(x) && forall i :: 0 <= i < |xs| ==> f.requires(xs[i])
    requires |ys| == |xs| && forall i :: 0 <= i < |ys| ==> ys[i] == f(xs[i])
    ensures forall i :: 0 <= i < |ys| + 1 ==> f.requires(([x] + xs)[i]) && ([f(x)] + ys)[i] == f(([x] + xs)[i])
  {
  }

  /** Non-increasing by `key`. */
  predicate SortedDesc<T>(s: seq<T>, key: T -> real) {
    forall i, j :: 0 <= i < j < |s| ==> key(s[i]) >= key(s[j])
  }

  /** Inserts `x` before the first element whose key is not larger, so that `x` goes
      ahead of the elements with an equal key. */
  function InsertDesc<T>(x: T, s: seq<T>, key: T -> real): (r: seq<T>)
    requires SortedDesc(s, key)
    ensures SortedDesc(r, key)
    ensures multiset(r) == multiset(s) + multiset{x}
    ensures |r| == |s| + 1
    ensures r[0] == x || (|s| > 0 && r[0] == s[0])
  {
    if |s| == 0 then [x]
    else if key(x) >= key(s[0]) then [x] + s
    else
      var rest := InsertDesc(x, s[1..], key);
      assert s == [s[0]] + s[1..];
      assert key(s[0]) >= key(rest[0]);
      [s[0]] + rest
  }

  /** Stable sort by descending key: Python's `sorted(xs, key=key, reverse=True)`. */
  function SortDesc<T>(xs: seq<T>, key: T -> real): (r: seq<T>)
    ensures SortedDesc(r, key)
    ensures multiset(r) == multiset(xs)
    ensures |r| == |xs|
  {
    if |xs| == 0 then []
    else
      assert xs == [xs[0]] + xs[1..];
      InsertDesc(xs[0], SortDesc(xs[1..], key), key)
  }

  function Min(a: int, b: int): int {
    if a <= b then a else b
  }

  /** The first `k` elements of the stable descending sort: `sorted(...)[:k]`,
      `DataFrame.nlargest(k, key)`. */
  function TopK<T>(xs: seq<T>, k: nat, key: T -> real): (r: seq<T>)
    ensures |r| == Min(k, |xs|)
    ensures SortedDesc(r, key)
    ensures multiset(r) <= multiset(xs)
  {
    var s := SortDesc(xs, key);
    var m := Min(k, |s|);
    assert s == s[..m] + s[m..];
    assert multiset(s) == multiset(s[..m]) + multiset(s[m..]);
    s[..m]
  }

  /** Nothing `TopK` leaves out has a larger key than anything it keeps. */
  lemma TopKMaximal<T>(xs: seq<T>, k: nat, key: T -> real, e: T)
    requires e in multiset(xs) - multiset(TopK(xs, k, key))
    ensures forall j | 0 <= j < |TopK(xs, k, key)| :: key(e) <= key(TopK(xs, k, key)[j])
  {
    var s := SortDesc(xs, key);
    var m := Min(k, |s|);
    assert TopK(xs, k, key) == s[..m];
    var idx := LaterIndex(s, m, e);
    forall j | 0 <= j < m ensures key(e) <= key(s[..m][j]) {
      assert s[..m][j] == s[j];
    }
  }

  /** An element the first `m` do not account for occurs at or after position `m`. */
  lemma LaterIndex<T>(s: seq<T>, m: nat, e: T) returns (idx: nat)
    requires m <= |s| && e in multiset(s) - multiset(s[..m])
    ensures m <= idx < |s| && s[idx] == e
  {
    var top, rest := s[..m], s[m..];
    assert multiset(s) == multiset(top) + multiset(rest) by {
      assert s == top + rest;
    }
    assert e in rest by {
      assert e in multiset(rest);
    }
    var i :| 0 <= i < |rest| && rest[i] == e;
    idx := m + i;
  }
}

=== FILE: stats.dfy ===
/** Exact (rational) versions of the pandas column statistics the analytics use:
    `sum`, `mean`, `max`, `min`, and the clamps written with Python's `min`/`max`. */
module Stats {

  function Sum(xs: seq<real>): real {
    if |xs| == 0 then 0.0 else Sum(xs[..|xs| - 1]) + xs[|xs| - 1]
  }

  lemma {:induction false} SumConcat(a: seq<real>, b: seq<real>)
    ensures Sum(a + b) == Sum(a) + Sum(b)
    decreases |b|
  {
    if |b| > 0 {
      assert (a + b)[..|a + b| - 1] == a + b[..|b| - 1];
      SumConcat(a, b[..|b| - 1]);
    } else {
      assert a + b == a;
    }
  }

  /** Every element within `[lo, hi]` puts the sum within `[n*lo, n*hi]`. */
  lemma {:induction false} SumBounds(xs: seq<real>, lo: real, hi: real)
    requires forall i :: 0 <= i < |xs| ==> lo <= xs[i] <= hi
    ensures |xs| as real * lo <= Sum(xs) <= |xs| as real * hi
  {
    if |xs| > 0 {
      SumBounds(xs[..|xs| - 1], lo, hi);
      assert (|xs| - 1) as real * lo + lo == |xs| as real * lo;
      assert (|xs| - 1) as real * hi + hi == |xs| as real * hi;
    }
  }

  /** pandas' `Series.mean()`; the source never takes the mean of an empty column. */
  function Mean(xs: seq<real>): real
    requires |xs| > 0
  {
    Sum(xs) / |xs| as real
  }

  /** The mean lies within any bounds that hold for every element. */
  lemma MeanBounds(xs: seq<real>, lo: real, hi: real)
    requires |xs| > 0
    requires forall i :: 0 <= i < |xs| ==> lo <= xs[i] <= hi
    ensures lo <= Mean(xs) <= hi
  {
    SumBounds(xs, lo, hi);
    var n := |xs| as real;
    assert Mean(xs) * n == Sum(xs);
  }

  /** pandas' `Series.max()`. */
  function Maximum(xs: seq<real>): (m: real)
    requires |xs| > 0
    ensures m in xs
    ensures forall i :: 0 <= i < |xs| ==> xs[i] <= m
  {
    if |xs| == 1 then xs[0]
    else
      var m := Maximum(xs[..|xs| - 1]);
      assert forall x :: x in xs[..|xs| - 1] ==> x in xs;
      if xs[|xs| - 1] > m then xs[|xs| - 1] else m
  }

  /** pandas' `Series.min()`. */
  function Minimum(xs: seq<real>): (m: real)
    requires |xs| > 0
    ensures m in xs
    ensures forall i :: 0 <= i < |xs| ==> m <= xs[i]
  {
    if |xs| == 1 then xs[0]
    else
      var m := Minimum(xs[..|xs| - 1]);
      assert forall x :: x in xs[..|xs| - 1] ==> x in xs;
      if xs[|xs| - 1] < m then xs[|xs| - 1] else m
  }

  /** The mean lies between the smallest and the largest element. */
  lemma MeanBetweenExtremes(xs: seq<real>)
    requires |xs| > 0
    ensures Minimum(xs) <= Mean(xs) <= Maximum(xs)
  {
    MeanBounds(xs, Minimum(xs), Maximum(xs));
  }

  function MinReal(a: real, b: real): (r: real)
    ensures r <= a && r <= b && (r == a || r == b)
  {
    if a <= b then a else b
  }

  function MaxReal(a: real, b: real): (r: real)
    ensures r >= a && r >= b && (r == a || r == b)
  {
    if a >= b then a else b
  }

  /** `max(lo, min(hi, x))`. */
  function Clamp(x: real, lo: real, hi: real): (r: real)
    requires lo <= hi
    ensures lo <= r <= hi
    ensures lo <= x <= hi ==> r == x
    ensures x < lo ==> r == lo
    ensures x > hi ==> r == hi
  {
    MaxReal(lo, MinReal(hi, x))
  }
}

=== FILE: student.dfy ===
/** The single-student entry point `analyze_student_performance` and its empty result
    `_empty_analysis`. */
module StudentAnalysis {
  import opened Records
  import opened Performance
  import opened Patterns
  import opened Trend
  import opened Recommend

  datatype Analysis = Analysis(
    metrics: Metrics,
    patterns: LearningPatterns,
    engagement: real,
    difficultyAreas: seq<DifficultyArea>,
    progress: ProgressTrend,
    recommendations: seq<Recommendation>,
    prediction: Prediction)

  /** `_empty_analysis`: every field at its default, the trend marked `no_data`. */
  const EmptyAnalysis: Analysis := Analysis(
    NoMetrics, NoPatterns, 0.0, [], ProgressTrend(NoData, 0.0, 0.0), [], InsufficientPrediction)

  /** No interaction has a negative duration. */
  predicate ValidDurations(xs: seq<Interaction>) {
    forall i :: 0 <= i < |xs| ==> xs[i].duration.GetOr(0) >= 0
  }

  /** `analyze_student_performance`. `cv` is the coefficient of variation of the daily
      interaction counts and `fit` the trend regression's r^2; both are computed by
      library code outside the model. */
  function AnalyzeStudent(interactions: seq<Interaction>, attempts: seq<Attempt>, cv: real, fit: real)
    : (a: Analysis)
    requires cv >= 0.0
    ensures (|interactions| == 0 && |attempts| == 0) <==> a.progress.trend == NoData
    ensures |interactions| == 0 && |attempts| == 0 ==> a == EmptyAnalysis
    ensures a.metrics.totalAttempts == |attempts|
    ensures a.engagement <= 100.0
    ensures ValidDurations(interactions) ==> a.engagement >= 0.0
    ensures |interactions| == 0 ==> a.engagement == 0.0 && a.patterns == NoPatterns
    ensures |attempts| == 0 ==> a.difficultyAreas == []
    ensures (|interactions| > 0 || |attempts| > 0) && |attempts| < 2 ==>
              a.progress == ProgressTrend(InsufficientData, 0.0, 0.0)
    ensures |attempts| < 3 ==> a.prediction == InsufficientPrediction
    ensures a.prediction.Confidence() <= 95.0
    ensures |a.recommendations| <= 3
    ensures (|interactions| > 0 || |attempts| > 0) && |interactions| == 0 ==>
              ScheduleStudy in a.recommendations
    ensures |interactions| > 0 || |attempts| > 0 ==>
              var irows, arows := InteractionTable(interactions), AttemptTable(attempts);
              && a.metrics == PerformanceMetrics(arows)
              && a.patterns == AnalyzeLearningPatterns(irows)
              && a.engagement == EngagementScore(irows, cv)
              && a.difficultyAreas == DifficultyAreas(arows)
              && a.progress == CalculateProgressTrend(Percentages(arows), fit)
              && a.recommendations == GenerateRecommendations(irows, arows, cv)
              && a.prediction == PredictFuturePerformance(Percentages(arows), fit)
  {
    if |interactions| == 0 && |attempts| == 0 then EmptyAnalysis
    else
      var irows := InteractionTable(interactions);
      var arows := AttemptTable(attempts);
      var ps := Percentages(arows);
      assert ValidDurations(interactions) ==> NonNegativeDurations(irows);
      Analysis(
        PerformanceMetrics(arows),
        AnalyzeLearningPatterns(irows),
        EngagementScore(irows, cv),
        DifficultyAreas(arows),
        CalculateProgressTrend(ps, fit),
        GenerateRecommendations(irows, arows, cv),
        PredictFuturePerformance(ps, fit))
  }
}

=== FILE: text.dfy ===
/** ASCII string helpers with the semantics of the Python and JavaScript built-ins the
    source calls: `strip`, `trim`, `lower`/`toLowerCase`, `in`/`includes`, `startswith`,
    `split`, `rsplit(_, 1)`, `str(n)` and `int(s)`. Unicode case folding, Unicode
    whitespace and Unicode digits are not modelled. */
module Text {
  import opened Wrappers

  /** The ASCII characters Python's `str.isspace()` accepts, which `str.strip()` and
      `int()` remove: space, tab, line feed, vertical tab, form feed, carriage return
      and the four separators `\x1c`-`\x1f`. */
  predicate IsSpace(c: char) {
    c == ' ' || c == '\t' || c == '\n' || c == '\r' || c == '\U{000B}' || c == '\U{000C}'
    || c == '\U{001C}' || c == '\U{001D}' || c == '\U{001E}' || c == '\U{001F}'
  }

  /** The ASCII characters JavaScript's `String.prototype.trim()` removes: the same
      set without the four separators `\x1c`-`\x1f`. */
  predicate JsSpace(c: char) {
    c == ' ' || c == '\t' || c == '\n' || c == '\r' || c == '\U{000B}' || c == '\U{000C}'
  }

  /** `s.trim() === ''` in JavaScript. */
  predicate JsBlank(s: string) {
    forall i :: 0 <= i < |s| ==> JsSpace(s[i])
  }

  /** A separator character is blank to Python's `strip()` but not to JavaScript's
      `trim()`; otherwise the two agree on ASCII. */
  lemma SpaceSetsDiffer(c: char)
    ensures JsSpace(c) ==> IsSpace(c)
    ensures IsSpace(c) && !JsSpace(c) <==> '\U{001C}' <= c <= '\U{001F}'
  {
  }

  predicate AllSpace(s: string) {
    forall i :: 0 <= i < |s| ==> IsSpace(s[i])
  }

  /** Number of whitespace characters at the start of `s`. */
  function LeadingSpaces(s: string): (n: nat)
    ensures n <= |s|
    ensures forall i :: 0 <= i < n ==> IsSpace(s[i])
    ensures n < |s| ==> !IsSpace(s[n])
  {
    if |s| > 0 && IsSpace(s[0]) then 1 + LeadingSpaces(s[1..]) else 0
  }

  /** Number of whitespace characters at the end of `s`. */
  function TrailingSpaces(s: string): (n: nat)
    ensures n <= |s|
    ensures forall i :: |s| - n <= i < |s| ==> IsSpace(s[i])
    ensures n < |s| ==> !IsSpace(s[|s| - n - 1])
  {
    if |s| > 0 && IsSpace(s[|s| - 1]) then 1 + TrailingSpaces(s[..|s| - 1]) else 0
  }

  /** Drops leading whitespace. */
  function StripLeft(s: string): (r: string)
    ensures |r| <= |s| && r == s[|s| - |r|..]
    ensures forall i :: 0 <= i < |s| - |r| ==> IsSpace(s[i])
    ensures |r| > 0 ==> !IsSpace(r[0])
  {
    s[LeadingSpaces(s)..]
  }

  /** Drops trailing whitespace. */
  function StripRight(s: string): (r: string)
    ensures |r| <= |s| && r == s[..|r|]
    ensures forall i :: |r| <= i < |s| ==> IsSpace(s[i])
    ensures |r| > 0 ==> !IsSpace(r[|r| - 1])
  {
    s[..|s| - TrailingSpaces(s)]
  }

  /** Python's `s.strip()`. */
  function Strip(s: string): (r: string)
    ensures |r| <= |s|
    ensures |r| > 0 ==> !IsSpace(r[0]) && !IsSpace(r[|r| - 1])
    ensures r == "" <==> AllSpace(s)
  {
    StripRight(StripLeft(s))
  }

  lemma {:induction false} StripLeftSpaces(a: string, t: string)
    requires AllSpace(a)
    requires |t| == 0 || !IsSpace(t[0])
    ensures StripLeft(a + t) == t
    decreases |a|
  {
    if |a| == 0 {
      assert a + t == t;
    } else {
      assert (a + t)[0] == a[0];
      assert (a + t)[1..] == a[1..] + t;
      StripLeftSpaces(a[1..], t);
    }
  }

  lemma {:induction false} StripRightSpaces(t: string, b: string)
    requires AllSpace(b)
    requires |t| == 0 || !IsSpace(t[|t| - 1])
    ensures StripRight(t + b) == t
    decreases |b|
  {
    if |b| == 0 {
      assert t + b == t;
    } else {
      var n := |b| - 1;
      assert (t + b)[|t + b| - 1] == b[n];
      assert (t + b)[..|t + b| - 1] == t + b[..n];
      StripRightSpaces(t, b[..n]);
    }
  }

  lemma StripLeftSplit(s: string) returns (a: string)
    ensures AllSpace(a) && s == a + StripLeft(s)
  {
    var k := LeadingSpaces(s);
    a := s[..k];
    assert forall i :: 0 <= i < k ==> a[i] == s[i];
    assert s == s[..k] + s[k..];
  }

  lemma StripRightSplit(s: string) returns (b: string)
    ensures AllSpace(b) && s == StripRight(s) + b
  {
    var k := |s| - TrailingSpaces(s);
    b := s[k..];
    assert AllSpace(b) by {
      forall i | 0 <= i < |b| ensures IsSpace(b[i]) {
        assert b[i] == s[k + i];
      }
    }
    assert StripRight(s) == s[..k];
    assert s == s[..k] + s[k..];
  }

  /** Every string is its stripped core between two runs of whitespace. */
  lemma StripDecompose(s: string) returns (a: string, b: string)
    ensures AllSpace(a) && AllSpace(b)
    ensures s == a + Strip(s) + b
  {
    a := StripLeftSplit(s);
    b := StripRightSplit(StripLeft(s));
  }

  lemma AllSpaceConcat(x: string, y: string)
    requires AllSpace(x) && AllSpace(y)
    ensures AllSpace(x + y)
  {
    forall i | 0 <= i < |x + y| ensures IsSpace((x + y)[i]) {
      if i < |x| {
        assert (x + y)[i] == x[i];
      } else {
        assert (x + y)[i] == y[i - |x|];
      }
    }
  }

  lemma SeqAssoc5(p: string, q: string, r: string, u: string, v: string)
    ensures p + (q + r + u) + v == (p + q) + r + (u + v)
  {
    var x, y := p + (q + r + u) + v, (p + q) + r + (u + v);
    assert |x| == |y|;
    forall i | 0 <= i < |x| ensures x[i] == y[i] {
    }
  }

  /** A core that starts and ends with non-whitespace is what `strip()` leaves of it
      between two runs of whitespace. */
  lemma StripCore(a: string, m: string, b: string)
    requires AllSpace(a) && AllSpace(b)
    requires |m| > 0 && !IsSpace(m[0]) && !IsSpace(m[|m| - 1])
    ensures Strip(a + m + b) == m
  {
    assert a + m + b == a + (m + b);
    assert (m + b)[0] == m[0];
    StripLeftSpaces(a, m + b);
    StripRightSpaces(m, b);
  }

  /** Whitespace added around a string does not survive `strip()`. */
  lemma StripIgnoresPadding(a: string, s: string, b: string)
    requires AllSpace(a) && AllSpace(b)
    ensures Strip(a + s + b) == Strip(s)
  {
    var m := Strip(s);
    var a0, b0 := StripDecompose(s);
    AllSpaceConcat(a, a0);
    AllSpaceConcat(b0, b);
    var a1, b1 := a + a0, b0 + b;
    assert a + s + b == a1 + m + b1 by {
      assert s == a0 + m + b0;
      SeqAssoc5(a, a0, m, b0, b);
    }
    if |m| == 0 {
      AllSpaceConcat(a1, b1);
      assert a1 + m + b1 == a1 + b1;
    } else {
      StripCore(a1, m, b1);
    }
  }

  function LowerChar(c: char): char {
    if 'A' <= c <= 'Z' then (c as int + 32) as char else c
  }

  /** Python's `s.lower()` / JavaScript's `s.toLowerCase()` on ASCII letters. */
  function Lower(s: string): (r: string)
    ensures |r| == |s|
    ensures forall i :: 0 <= i < |s| ==> r[i] == LowerChar(s[i]) && !('A' <= r[i] <= 'Z')
  {
    seq(|s|, i requires 0 <= i < |s| => LowerChar(s[i]))
  }

  /** `sub in s` / `s.includes(sub)`: `sub` occurs somewhere in `s`. */
  predicate Contains(s: string, sub: string) {
    exists i | 0 <= i <= |s| - |sub| :: sub <= s[i..]
  }

  /** Lower-casing works character by character. */
  lemma LowerConcat(a: string, b: string)
    ensures Lower(a + b) == Lower(a) + Lower(b)
  {
  }

  /** Lower-casing twice changes nothing more. */
  lemma LowerIdempotent(s: string)
    ensures Lower(Lower(s)) == Lower(s)
  {
  }

  /** Lower-casing neither creates nor removes whitespace. */
  lemma LowerKeepsSpaces(s: string)
    ensures AllSpace(Lower(s)) <==> AllSpace(s)
    ensures JsBlank(Lower(s)) <==> JsBlank(s)
  {
    assert forall i :: 0 <= i < |s| ==> (IsSpace(Lower(s)[i]) <==> IsSpace(s[i]));
    assert forall i :: 0 <= i < |s| ==> (JsSpace(Lower(s)[i]) <==> JsSpace(s[i]));
  }

  /** A text containing `a + b` contains `a`. */
  lemma ContainsPrefix(s: string, a: string, b: string)
    requires Contains(s, a + b)
    ensures Contains(s, a)
  {
    var i :| 0 <= i <= |s| - |a + b| && a + b <= s[i..];
    assert a <= s[i..];
  }

  /** `s.startswith(p)` / `s.startsWith(p)`. */
  predicate StartsWith(s: string, p: string) {
    p <= s
  }

  /** Position of the first `c` in `s`. */
  function IndexOf(s: string, c: char): (i: nat)
    requires c in s
    ensures i < |s| && s[i] == c && c !in s[..i]
  {
    if s[0] == c then 0
    else
      var j := IndexOf(s[1..], c);
      assert s[..j + 1] == [s[0]] + s[1..][..j];
      j + 1
  }

  /** The last `n` characters of `prefix + t` are the last `n` of `t`. */
  lemma SuffixOfAppend(prefix: string, t: string, n: nat)
    requires n <= |t|
    ensures (prefix + t)[|prefix + t| - n..] == t[|t| - n..]
  {
    var s := prefix + t;
    assert s[|prefix|..] == t;
    assert s[|s| - n..] == s[|prefix|..][|t| - n..];
  }

  /** Position of the last `c` in `s`. */
  function LastIndexOf(s: string, c: char): (i: nat)
    requires c in s
    ensures i < |s| && s[i] == c && c !in s[i + 1..]
  {
    if s[|s| - 1] == c then |s| - 1
    else
      assert c in s[..|s| - 1] by {
        var k :| 0 <= k < |s| && s[k] == c;
        assert s[..|s| - 1][k] == c;
      }
      var j := LastIndexOf(s[..|s| - 1], c);
      assert s[j + 1..] == s[..|s| - 1][j + 1..] + [s[|s| - 1]];
      j
  }

  /** Python's `s.split(c)`: the maximal `c`-free pieces between separators. */
  function Split(s: string, c: char): (parts: seq<string>)
    ensures |parts| >= 1
    ensures forall k :: 0 <= k < |parts| ==> c !in parts[k]
    ensures |parts| > 1 <==> c in s
    ensures c in s ==> parts[0] == s[..IndexOf(s, c)]
    decreases |s|
  {
    if c !in s then [s]
    else
      var i := IndexOf(s, c);
      [s[..i]] + Split(s[i + 1..], c)
  }

  /** Python's `c.join(parts)`. */
  function Join(parts: seq<string>, c: char): string
    requires |parts| >= 1
  {
    if |parts| == 1 then parts[0] else parts[0] + [c] + Join(parts[1..], c)
  }

  /** Joining the pieces of a split with the same separator gives back the text. */
  lemma {:induction false} JoinSplit(s: string, c: char)
    ensures Join(Split(s, c), c) == s
    decreases |s|
  {
    if c in s {
      var i := IndexOf(s, c);
      JoinSplit(s[i + 1..], c);
      assert s == s[..i] + [c] + s[i + 1..];
    }
  }

  predicate IsDigit(c: char) {
    '0' <= c <= '9'
  }

  predicate AllDigits(s: string) {
    forall i :: 0 <= i < |s| ==> IsDigit(s[i])
  }

  function DigitChar(d: nat): (c: char)
    requires d < 10
    ensures IsDigit(c) && c as int - '0' as int == d
  {
    ('0' as int + d) as char
  }

  function DigitValue(c: char): nat
    requires IsDigit(c)
  {
    c as int - '0' as int
  }

  /** Python's `str(n)` / JavaScript's `n.toString()` for a natural number. */
  function NatToString(n: nat): (r: string)
    ensures |r| >= 1 && AllDigits(r)
    ensures |r| == 1 <==> n < 10
    decreases n
  {
    if n < 10 then [DigitChar(n)] else NatToString(n / 10) + [DigitChar(n % 10)]
  }

  /** The number a string of decimal digits denotes (leading zeros allowed). */
  function DigitsValue(s: string): nat
    requires AllDigits(s)
  {
    if |s| == 0 then 0 else DigitsValue(s[..|s| - 1]) * 10 + DigitValue(s[|s| - 1])
  }

  /** Reading back a rendered natural number gives the number. */
  lemma {:induction false} DigitsValueOfNatToString(n: nat)
    ensures DigitsValue(NatToString(n)) == n
    decreases n
  {
    if n >= 10 {
      var s := NatToString(n);
      assert s[..|s| - 1] == NatToString(n / 10);
      DigitsValueOfNatToString(n / 10);
    }
  }

  /** Distinct natural numbers render as distinct strings. */
  lemma NatToStringInjective(m: nat, n: nat)
    requires NatToString(m) == NatToString(n)
    ensures m == n
  {
    DigitsValueOfNatToString(m);
    DigitsValueOfNatToString(n);
  }

  /** Python's `int(s)` on ASCII text: surrounding whitespace, an optional sign and at
      least one decimal digit; anything else raises `ValueError`, modelled as `None`.
      The underscores `int` also accepts between digits are not modelled. */
  function ParseInt(s: string): (r: Option<int>)
    ensures (forall i :: 0 <= i < |s| ==> !IsDigit(s[i])) ==> r == None
  {
    var t := Strip(s);
    assert forall i :: 0 <= i < |t| ==> t[i] in s;
    NoDigitNoNumber(t);
    ParseStripped(t)
  }

  /** `int` after the whitespace is gone: an optional sign, then at least one digit. */
  function ParseStripped(t: string): Option<int> {
    if |t| > 1 && (t[0] == '+' || t[0] == '-') && AllDigits(t[1..]) then
      var v: int := DigitsValue(t[1..]);
      Some(if t[0] == '-' then -v else v)
    else if |t| > 0 && AllDigits(t) then
      Some(DigitsValue(t))
    else
      None
  }

  /** `int(str(n)) == n`. */
  lemma ParseIntOfNatToString(n: nat)
    ensures ParseInt(NatToString(n)) == Some(n)
  {
    var s := NatToString(n);
    assert forall i :: 0 <= i < |s| ==> !IsSpace(s[i]) by {
      forall i | 0 <= i < |s| ensures !IsSpace(s[i]) {
        assert IsDigit(s[i]);
      }
    }
    assert Strip(s) == s;
    assert s[0] != '+' && s[0] != '-' by { assert IsDigit(s[0]); }
    DigitsValueOfNatToString(n);
  }

  /** `str(n)` for any integer: a minus sign before the digits of a negative number. */
  function IntToString(n: int): (r: string)
    ensures |r| >= 1
    ensures n >= 0 <==> r[0] != '-'
  {
    if n < 0 then "-" + NatToString(-n) else NatToString(n)
  }

  /** `int("-" + d) == -d` for a string of digits. */
  lemma ParseNegative(d: string)
    requires |d| >= 1 && AllDigits(d)
    ensures ParseInt("-" + d) == Some(-(DigitsValue(d) as int))
  {
    SignedHasNoSpace(d);
    StripNoSpace("-" + d);
    NegativeStripped(d);
  }

  /** Text without a digit is never a number. */
  lemma NoDigitNoNumber(t: string)
    ensures (forall i :: 0 <= i < |t| ==> !IsDigit(t[i])) ==> ParseStripped(t) == None
  {
    if |t| > 1 {
      assert t[1..][0] == t[1];
    }
  }

  lemma NegativeStripped(d: string)
    requires |d| >= 1 && AllDigits(d)
    ensures ParseStripped("-" + d) == Some(-(DigitsValue(d) as int))
  {
    assert ("-" + d)[1..] == d;
  }

  /** Text without whitespace is its own strip. */
  lemma StripNoSpace(s: string)
    requires forall i :: 0 <= i < |s| ==> !IsSpace(s[i])
    ensures Strip(s) == s
  {
    if |s| > 0 {
      assert !IsSpace(s[0]);
      assert LeadingSpaces(s) == 0;
      assert s[0..] == s;
      assert !IsSpace(s[|s| - 1]);
      assert TrailingSpaces(s) == 0;
      assert s[..|s|] == s;
    }
  }

  /** A minus sign followed by digits holds no whitespace. */
  lemma SignedHasNoSpace(d: string)
    requires AllDigits(d)
    ensures forall i :: 0 <= i < |"-" + d| ==> !IsSpace(("-" + d)[i])
  {
    forall i | 0 <= i < |"-" + d| ensures !IsSpace(("-" + d)[i]) {
      if i > 0 { assert ("-" + d)[i] == d[i - 1]; }
    }
  }

  /** `int(str(n)) == n` for any integer. */
  lemma ParseIntOfIntToString(n: int)
    ensures ParseInt(IntToString(n)) == Some(n)
  {
    if n >= 0 {
      assert IntToString(n) == NatToString(n);
      ParseIntOfNatToString(n);
    } else {
      var d := NatToString(-n);
      DigitsValueOfNatToString(-n);
      ParseNegative(d);
      assert IntToString(n) == "-" + d;
    }
  }
}

=== FILE: trend.dfy ===
/** Progress trend and prediction: `_calculate_progress_trend` and
    `_predict_future_performance`. The least-squares slope of the score percentages
    against the attempt index `0..n-1` is computed in closed form,
    `sum (x - mean x)(y - mean y) / sum (x - mean x)^2`; the coefficient of
    determination reported by the regression is taken as an input. */
module Trend {
  import opened Stats

  /** Mean of the indices `0..n-1`. */
  function IndexMean(n: nat): real
    requires n > 0
  {
    (n - 1) as real / 2.0
  }

  /** `sum_{i<n} (i - xbar)^2`. */
  function Sxx(n: nat, xbar: real): real {
    if n == 0 then 0.0
    else Sxx(n - 1, xbar) + ((n - 1) as real - xbar) * ((n - 1) as real - xbar)
  }

  /** `sum_{i<|ys|} (i - xbar)(ys[i] - ybar)`. */
  function Sxy(ys: seq<real>, xbar: real, ybar: real): real {
    if |ys| == 0 then 0.0
    else Sxy(ys[..|ys| - 1], xbar, ybar) + ((|ys| - 1) as real - xbar) * (ys[|ys| - 1] - ybar)
  }

  lemma {:induction false} SxxAtLeastFirst(n: nat, xbar: real)
    requires n >= 1
    ensures Sxx(n, xbar) >= xbar * xbar
  {
    var d := (n - 1) as real - xbar;
    assert d * d >= 0.0 by {
      if d < 0.0 {
        assert d * d == (-d) * (-d);
      }
    }
    if n > 1 {
      SxxAtLeastFirst(n - 1, xbar);
    } else {
      assert d * d == xbar * xbar;
    }
  }

  /** Two or more distinct indices spread around their mean. */
  lemma SxxPositive(n: nat)
    requires n >= 2
    ensures Sxx(n, IndexMean(n)) > 0.0
  {
    var xbar := IndexMean(n);
    SxxAtLeastFirst(n, xbar);
    assert xbar >= 0.5;
    assert xbar * xbar >= 0.25;
  }

  /** The regression slope `LinearRegression().fit(X, y).coef_[0]` for `X = 0..n-1`. */
  function Slope(ys: seq<real>): real
    requires |ys| >= 2
  {
    SxxPositive(|ys|);
    Sxy(ys, IndexMean(|ys|), Mean(ys)) / Sxx(|ys|, IndexMean(|ys|))
  }

  /** Scores that lie on the line `a + b*i`. */
  predicate OnLine(ys: seq<real>, a: real, b: real) {
    forall i :: 0 <= i < |ys| ==> ys[i] == a + b * i as real
  }

  lemma {:induction false} SumOfLine(ys: seq<real>, a: real, b: real)
    requires OnLine(ys, a, b)
    ensures Sum(ys) == |ys| as real * a + b * (|ys| as real * (|ys| - 1) as real / 2.0)
  {
    if |ys| > 0 {
      var k := |ys| - 1;
      assert OnLine(ys[..k], a, b);
      SumOfLine(ys[..k], a, b);
      assert ys[k] == a + b * k as real;
      assert k as real * (k - 1) as real / 2.0 + k as real == (k + 1) as real * k as real / 2.0;
    }
  }

  lemma {:induction false} SxyOfLine(ys: seq<real>, b: real, xbar: real, ybar: real)
    requires forall i :: 0 <= i < |ys| ==> ys[i] - ybar == b * (i as real - xbar)
    ensures Sxy(ys, xbar, ybar) == b * Sxx(|ys|, xbar)
  {
    if |ys| > 0 {
      var k := |ys| - 1;
      SxyOfLine(ys[..k], b, xbar, ybar);
      var d := k as real - xbar;
      assert ys[k] - ybar == b * d;
      assert d * (b * d) == b * (d * d);
    }
  }

  /** The least-squares slope recovers the slope of scores that lie on a line. */
  lemma SlopeOfLine(ys: seq<real>, a: real, b: real)
    requires |ys| >= 2
    requires OnLine(ys, a, b)
    ensures Slope(ys) == b
  {
    var n := |ys|;
    var xbar := IndexMean(n);
    SumOfLine(ys, a, b);
    var ybar := Mean(ys);
    assert ybar == a + b * xbar by {
      assert Sum(ys) == n as real * (a + b * xbar);
    }
    forall i | 0 <= i < n ensures ys[i] - ybar == b * (i as real - xbar) {
    }
    SxyOfLine(ys, b, xbar, ybar);
    SxxPositive(n);
  }

  datatype TrendLabel = Improving | Declining | Stable | InsufficientData | NoData

  datatype ProgressTrend = ProgressTrend(trend: TrendLabel, slope: real, rSquared: real)

  /** `improving` above +2 points per attempt, `declining` below -2, else `stable`. */
  function Classify(slope: real): (t: TrendLabel)
    ensures t == Improving <==> slope > 2.0
    ensures t == Declining <==> slope < -2.0
    ensures t == Stable <==> -2.0 <= slope <= 2.0
  {
    if slope > 2.0 then Improving else if slope < -2.0 then Declining else Stable
  }

  /** `_calculate_progress_trend` over the percentages in completion order; `fit` is
      the regression's `score(X, y)`. */
  function CalculateProgressTrend(ps: seq<real>, fit: real): (t: ProgressTrend)
    ensures |ps| < 2 ==> t == ProgressTrend(InsufficientData, 0.0, 0.0)
    ensures |ps| >= 2 ==> t.slope == Slope(ps) && t.rSquared == fit
    ensures |ps| >= 2 ==>
              && (t.trend == Improving <==> t.slope > 2.0)
              && (t.trend == Declining <==> t.slope < -2.0)
              && (t.trend == Stable <==> -2.0 <= t.slope <= 2.0)
    ensures t.trend != NoData
  {
    if |ps| < 2 then ProgressTrend(InsufficientData, 0.0, 0.0)
    else
      var slope := Slope(ps);
      ProgressTrend(Classify(slope), slope, fit)
  }

  datatype Prediction =
    | InsufficientPrediction
    | Predicted(score: real, confidence: real, trend: TrendLabel)
  {
    /** The `confidence` field: 0 when there is too little data. */
    function Confidence(): real {
      if InsufficientPrediction? then 0.0 else confidence
    }
  }

  function LastThreeMean(ps: seq<real>): real
    requires |ps| >= 3
  {
    Mean(ps[|ps| - 3..])
  }

  /** `_predict_future_performance`: the mean of the last three percentages plus two
      slopes, clamped to [0, 100], with confidence `min(r^2 * 100, 95)`. */
  function PredictFuturePerformance(ps: seq<real>, fit: real): (p: Prediction)
    ensures |ps| < 3 <==> p == InsufficientPrediction
    ensures p.Confidence() <= 95.0
    ensures fit >= 0.0 ==> p.Confidence() >= 0.0
    ensures p.Predicted? ==>
              && 0.0 <= p.score <= 100.0
              && p.confidence == MinReal(fit * 100.0, 95.0)
              && p.trend == CalculateProgressTrend(ps, fit).trend
              && p.score == Clamp(LastThreeMean(ps) + Slope(ps) * 2.0, 0.0, 100.0)
  {
    if |ps| < 3 then InsufficientPrediction
    else
      var t := CalculateProgressTrend(ps, fit);
      Predicted(
        Clamp(LastThreeMean(ps) + t.slope * 2.0, 0.0, 100.0),
        MinReal(fit * 100.0, 95.0),
        t.trend)
  }

  /** For scores on a line the prediction is the line's value at the next attempt. */
  lemma PredictionExtendsLine(ps: seq<real>, a: real, b: real, fit: real)
    requires |ps| >= 3
    requires OnLine(ps, a, b)
    ensures PredictFuturePerformance(ps, fit).score == Clamp(a + b * |ps| as real, 0.0, 100.0)
  {
    var n := |ps|;
    SlopeOfLine(ps, a, b);
    var tail := ps[n - 3..];
    assert tail == [ps[n - 3], ps[n - 2], ps[n - 1]];
    assert Sum(tail) == ps[n - 3] + ps[n - 2] + ps[n - 1] by {
      assert tail[..2] == [ps[n - 3], ps[n - 2]];
      assert tail[..2][..1] == [ps[n - 3]];
      assert tail[..2][..1][..0] == [];
      assert Sum([ps[n - 3]]) == ps[n - 3];
      assert Sum(tail[..2]) == ps[n - 3] + ps[n - 2];
    }
    assert LastThreeMean(ps) == a + b * (n - 2) as real;
  }

  /** Percentages 50, 55, 60, 65: slope 5, `improving`, predicted 70. */
  lemma RisingExample(fit: real)
    ensures CalculateProgressTrend([50.0, 55.0, 60.0, 65.0], fit).slope == 5.0
    ensures CalculateProgressTrend([50.0, 55.0, 60.0, 65.0], fit).trend == Improving
    ensures PredictFuturePerformance([50.0, 55.0, 60.0, 65.0], fit).score == 70.0
  {
    var ps := [50.0, 55.0, 60.0, 65.0];
    assert OnLine(ps, 50.0, 5.0);
    SlopeOfLine(ps, 50.0, 5.0);
    PredictionExtendsLine(ps, 50.0, 5.0, fit);
  }
}

=== FILE: uploads.dfy ===
/** The upload whitelist of the web application: `allowed_file`, `allowed_pdf_file`,
    `allowed_excel_file`, and the `file_type` a stored lesson records. */
module Uploads {
  import opened Text

  const AllowedExtensions: set<string> :=
    {"pdf", "doc", "docx", "ppt", "pptx", "jpg", "jpeg", "png", "gif", "xlsx", "xls",
     "mp4", "webm", "ogg"}
  const PdfExtensions: set<string> := {"pdf"}
  const ExcelExtensions: set<string> := {"xlsx", "xls"}
  const VideoExtensions: set<string> := {"mp4", "webm", "ogg"}

  /** `filename.rsplit('.', 1)[1].lower()`: the lower-cased text after the last dot. */
  function Extension(filename: string): (ext: string)
    requires '.' in filename
    ensures |ext| < |filename| && filename[|filename| - |ext| - 1] == '.'
    ensures '.' !in filename[|filename| - |ext|..]
    ensures ext == Lower(filename[|filename| - |ext|..])
    ensures '.' !in ext
  {
    var i := LastIndexOf(filename, '.');
    var tail := filename[i + 1..];
    assert forall k :: 0 <= k < |tail| ==> Lower(tail)[k] != '.';
    Lower(tail)
  }

  /** The shape shared by the three validators. */
  predicate HasExtensionIn(filename: string, exts: set<string>) {
    '.' in filename && Extension(filename) in exts
  }

  /** `allowed_file`. */
  function AllowedFile(filename: string): (ok: bool)
    ensures ok <==> '.' in filename && Extension(filename) in AllowedExtensions
    ensures '.' in filename && Extension(filename) in VideoExtensions ==> ok
  {
    HasExtensionIn(filename, AllowedExtensions)
  }

  /** `allowed_pdf_file`. */
  function AllowedPdfFile(filename: string): (ok: bool)
    ensures ok <==> '.' in filename && Extension(filename) == "pdf"
    ensures ok ==> AllowedFile(filename)
  {
    HasExtensionIn(filename, PdfExtensions)
  }

  /** `allowed_excel_file`. */
  function AllowedExcelFile(filename: string): (ok: bool)
    ensures ok <==> '.' in filename && (Extension(filename) == "xlsx" || Extension(filename) == "xls")
    ensures ok ==> AllowedFile(filename)
  {
    HasExtensionIn(filename, ExcelExtensions)
  }

  /** The extension is fixed by any dot-free tail that follows a dot: there is only
      one such tail, the one after the last dot. */
  lemma ExtensionOfTail(filename: string, n: nat)
    requires n < |filename| && filename[|filename| - n - 1] == '.'
    requires '.' !in filename[|filename| - n..]
    ensures '.' in filename
    ensures Extension(filename) == Lower(filename[|filename| - n..])
  {
    assert filename[|filename| - n - 1] in filename;
    assert |Extension(filename)| == n;
  }

  /** Only the last dot counts: `report.pdf.exe` is refused, `archive.tar.PDF` is a PDF. */
  lemma LastDotDecides()
    ensures !AllowedFile("report.pdf.exe")
    ensures AllowedPdfFile("archive.tar.PDF")
  {
    InnerExtensionIgnored();
    UpperCaseAccepted();
  }

  lemma InnerExtensionIgnored()
    ensures '.' in "report.pdf.exe" && Extension("report.pdf.exe") == "exe"
  {
    var f := "report.pdf.exe";
    assert f[|f| - 4] == '.';
    assert '.' !in f[|f| - 3..] && Lower(f[|f| - 3..]) == "exe" by {
      assert f[|f| - 3..] == "exe";
    }
    ExtensionOfTail(f, 3);
  }

  lemma UpperCaseAccepted()
    ensures '.' in "archive.tar.PDF" && Extension("archive.tar.PDF") == "pdf"
  {
    var f := "archive.tar.PDF";
    assert f[|f| - 4] == '.';
    assert f[|f| - 3..] == "PDF";
    ExtensionOfTail(f, 3);
    assert Lower("PDF") == "pdf";
  }

  /** The text after the last dot is unchanged by prepending anything, so the
      timestamp prefix that `create_lesson` and `edit_lesson` add before the stored
      name does not change what was validated. */
  lemma ExtensionIgnoresPrefix(prefix: string, filename: string)
    requires '.' in filename
    ensures '.' in prefix + filename
    ensures Extension(prefix + filename) == Extension(filename)
  {
    var s := prefix + filename;
    var n := |Extension(filename)|;
    SuffixOfAppend(prefix, filename, n);
    SuffixOfAppend(prefix, filename, n + 1);
    assert s[|s| - n - 1] == s[|s| - n - 1..][0] == filename[|filename| - n - 1..][0];
    ExtensionOfTail(s, n);
  }

  /** `file_type` as the lesson routes store it for an accepted upload: the
      extension of the stored (timestamp-prefixed) name, which is the validated
      extension of the uploaded name. */
  function FileType(stamp: string, filename: string): (t: string)
    requires AllowedFile(filename)
    ensures t in AllowedExtensions
    ensures t == Extension(filename)
  {
    ExtensionIgnoresPrefix(stamp, filename);
    Extension(stamp + filename)
  }
}

=== FILE: wrappers.dfy ===
/** Failure-carrying values shared by every module of the model. */
module Wrappers {

  /** A value that may be missing: Python's `None`, JavaScript's `null`/`undefined`,
      a pandas NaN cell. */
  datatype Option<+T> = None | Some(value: T) {

    /** The wrapped value, or `default` when there is none (Python's `x or default`
        for values whose only falsy form is `None`). */
    function GetOr(default: T): T {
      match this
      case Some(v) => v
      case None => default
    }
  }

  /** Either a computed value or the error message the source returns instead. */
  datatype Result<+T> = Ok(value: T) | Err(message: string)

  /** A JSON endpoint's outcome: the payload of a `200` reply, or the HTTP status and
      the `error` text of a refusal. */
  datatype Response<+T> = Reply(value: T) | Refuse(status: nat, error: string)
}
